=== FILE: README.md ===
# NEPSE market-data core, modelled in Dafny

This project models the data core of `read_data.py`, a Flask service over
Nepal Stock Exchange (NEPSE) market data. The service:

- normalizes heterogeneous OHLC (open/high/low/close/volume) rows into canonical candles;
- computes five technical indicators over a security's close series (`sma20`, `ema50`, `rsi14`, `macd`, `bb20`);
- caches histories and indicator results with a 15-minute TTL;
- rate-limits the NEPSE index proxy and the two TA routes with a fixed 60-second window of 30 requests per (route, client address);
- persists daily candles in two ways: a JSON document store of per-symbol day candles, and a relational `daily_ohlc` table keyed by (symbol, trading day) and filled by an upsert.

Everything is modelled as immutable values and pure functions. The cache
and the rate limiter are state transitions that take the clock as an explicit
`now`. Python library behaviour the model does not define itself comes in
through an `Env` value or as function parameters:

- `float()` of a string;
- date-string parsing and `timestamp()`;
- `fromisoformat().isoformat()`;
- `str()` of floats, lists and dicts;
- `math.sqrt`;
- the database's `::timestamptz::date`;
- the NEPSE symbol lookup.

Modules, one per component:

| module | file | component |
|---|---|---|
| `Wrappers` | wrappers.dfy | `Option`, `Result`, filtering helpers |
| `Text` | text.dfy | `strip`, `upper`, `lower`, `split`, `join`, `int()` and `str()` of integers, string order |
| `Sorting` | sorting.dfy | Python's stable `sort(key=...)`, with its stability proved, and `sorted(set(...))` |
| `Averages` | averages.dfy | sums, means, variance |
| `PyValue` | pyvalue.dfy | JSON values, `dict.get`, truthiness, `_safe_float`, `_safe_int` |
| `Normalizer` | normalizer.dfy | `_parse_time_to_unix_seconds`, `_normalize_candle_row`, `_extract_candles_from_history_payload` |
| `Indicators` | indicators.dfy | `_sma`, `_ema`, `_rsi_wilder`, `_ema_values_only`, `_macd`, `_bollinger`, `_compute_indicator_series` |
| `TtlCache` | ttl_cache.dfy | `_cache_get`, `_cache_set` |
| `RateLimit` | rate_limit.dfy | `_enforce_rate_limit` |
| `DocStore` | doc_store.dfy | `ohlc_snapshot` merge, `ohlc_history` tail read |
| `DailyTable` | daily_table.dfy | `refresh_daily_ohlc` and the upsert, `get_ohlc_history` ranged read |
| `TaRequest` | ta_request.dfy | parameter checks of `/api/ta/history` and `/api/ta/indicators` |
| `TaService` | ta_service.dfy | `_get_or_fetch_ta_history`, `_get_cached_indicators`, the two TA routes |

Behaviour that is modelled as the code is written, although a reader might
expect otherwise:

- The time field is chosen with `or`, so a falsy value such as `0` or `""` falls through to the next alias. `closePrice` and `totalTradeQuantity`, by contrast, shadow their fallbacks whenever the key is present, even with value `None`.
- The normalizer prefers `totalTradeQuantity` to `lastTradedVolume`. The snapshot and the refresh prefer `lastTradedVolume`.
- A price-volume row whose `symbol` is `None` is filed under the symbol `"NONE"`, because `str(None)` is `"None"`.
- The relational ranged read applies `LIMIT` after ascending order, so it returns the oldest rows of the range. The document-store read returns the newest.
- A request that is refused with status 400 still counts against the client's rate limit.
- A negative `limit` in the relational ranged read is a failure: Postgres refuses a negative `LIMIT`, so the query errors out instead of returning rows.
- The rate limiter's window is fixed, not sliding. A bucket's window starts with the first request after the previous window ran out, and lasts 60 seconds from that request.
- Candle fields resolve by two rules. The time takes the first truthy alias. The other fields are decided by whether a key is present and its value is not `None`.
- The document store identifies a candle by its date string, not by a Unix time.

## Model

| member | source | states |
|---|---|---|
| PyValue.SafeFloat | read_data.py:69-75 | `None` and `""` give no number rather than zero; ints and floats read as themselves; booleans, lists and dicts give no number |
| PyValue.SafeFloatIgnoresCommas | read_data.py:73 | thousands separators do not change what a string reads as |
| PyValue.SafeInt | read_data.py:78-84 | succeeds exactly when `_safe_float` does, and truncates its value toward zero |
| PyValue.Trunc | read_data.py:82 | Python `int()` of a float lies within 1 of it, toward zero, for both signs |
| Normalizer.NumericTimeBands | read_data.py:116-122 | numbers above 10^12 become whole seconds of milliseconds; numbers in (10^9, 10^12] are rounded down; anything else is rejected; every accepted time is at least 10^9 |
| Normalizer.IntAndFloatAgree | read_data.py:116-117 | an int timestamp and the equal float read alike |
| Normalizer.MillisAndSecondsAgree | read_data.py:116-122 | a time in milliseconds and the same time in seconds normalize to the same second |
| Normalizer.NumericStringBands | read_data.py:124-135 | a numeric string above 10^9 goes through the same bands as the number; at or below it is handed to the date parsers, not rejected |
| Normalizer.FalsyTimeRejected | read_data.py:113-126 | a falsy value never yields a time |
| Normalizer.FirstTruthy | read_data.py:255-261 | the `or` chain is truthy iff some alias is, and then equals the first truthy alias |
| Normalizer.NormalizeRow | read_data.py:251-294 | a candle is produced iff the row is a dict and time, open, high, low and close all resolve; the candle carries exactly those resolved values, and the resolved volume or 0 when the volume does not resolve |
| Normalizer.CanonicalRowRoundTrip | read_data.py:251-294 | a canonical candle with its time in seconds, written as a row, normalizes back to itself |
| Normalizer.UnknownKeysIgnored | read_data.py:255-276 | keys outside the known aliases have no influence on the candle |
| Normalizer.FalsyTimeFallsThrough | read_data.py:255-262 | a falsy `time` is skipped in favour of `timestamp` |
| Normalizer.NullClosePriceHidesLastTraded | read_data.py:267-271 | a `closePrice` key holding `None` hides `lastTradedPrice`, and the row is dropped |
| Normalizer.LastTradedPriceUsedWhenClosePriceAbsent | read_data.py:267-271 | with `closePrice` absent, the last traded price is the close |
| Normalizer.MissingVolumeIsZero | read_data.py:272-293 | a row with no volume alias gets volume 0 instead of being rejected |
| Normalizer.FirstNestedList | read_data.py:243-246 | the result is the list under the first nested key that holds a list; there is no result iff no nested key holds one |
| Normalizer.ExtractFrom | read_data.py:238-248 | the result is the list found under the first container key that holds a list, directly or one level down; it is empty when no container key does |
| Normalizer.ExtractCandles | read_data.py:231-248 | a list payload is returned unchanged; a dict yields the list of the first container key holding one, directly or nested; anything else yields nothing |
| Normalizer.ExtractCandlesFirstList | read_data.py:238-248 | any list found under the i-th container key, when no earlier key holds one, is exactly the extracted list |
| Normalizer.ContentListWins | read_data.py:238-241 | a list under `content` wins over every other key |
| Normalizer.AcceptedCandles | read_data.py:444-457 | the kept candles are exactly those some stored row normalizes to, and there are no more of them than rows |
| Normalizer.NormalizeStoredRows | read_data.py:444-459 | the result is sorted by time and is a permutation of the accepted candles |
| Indicators.SmaFrom | read_data.py:475-480 | the running-sum loop emits, from each index on, the mean of the window ending there |
| Indicators.Sma | read_data.py:471-480 | no points below `period` closes; otherwise n-period+1 points stamped `times[period-1..]`, each the mean of its window |
| Indicators.Multiplier | read_data.py:488 | the EMA multiplier lies in (0, 1] |
| Indicators.EmaFrom | read_data.py:531-532 | the EMA recurrence yields one value per remaining close |
| Indicators.EmaValues | read_data.py:526-533 | no values below `period` closes, otherwise n-period+1 |
| Indicators.EmaPointsFrom | read_data.py:489-494 | the loop of `_ema` stamps exactly the EMA values with `times[j-1..]` |
| Indicators.Ema | read_data.py:483-494 | `_ema` is `_ema_values_only` stamped with `times[period-1..]`, and is empty below `period` closes |
| Indicators.EmaSeedIsFirstSma | read_data.py:475-487 | the first EMA value is the first SMA value |
| Indicators.EmaStepBetween | read_data.py:492 | one EMA step lands between the previous value and the new close |
| Indicators.EmaNoOvershoot | read_data.py:531-532 | every EMA value lies between its predecessor and the close it absorbed |
| Indicators.Gains | read_data.py:503-505 | one non-negative gain per consecutive pair of closes |
| Indicators.Losses | read_data.py:503-506 | one non-negative loss per consecutive pair of closes |
| Indicators.RsiFrom | read_data.py:516-521 | the smoothing loop emits the Wilder RSI at `times[i+1..]` from the running averages |
| Indicators.Rsi | read_data.py:497-523 | nothing unless n > period; otherwise n-period points from `times[period]`, each in [0, 100] |
| Indicators.WilderAverageNonNegative | read_data.py:508-518 | Wilder averages of non-negative terms are non-negative |
| Indicators.RsiValueBounds | read_data.py:512-513 | the RSI formula lies in [0, 100] and is 100 when the average loss is 0 |
| Indicators.RsiInRange | read_data.py:497-523 | every RSI value lies in [0, 100] |
| Indicators.RsiOfRisingSeries | read_data.py:497-523 | a series that never falls has RSI 100 at every point |
| Indicators.RsiOfFallingSeries | read_data.py:497-523 | a series that falls at every step has RSI 0 at every point |
| Indicators.MacdLine | read_data.py:549-554 | the MACD line has one value per close from index 25 |
| Indicators.AlignedLine | read_data.py:537-554 | aligning the two EMAs on the slow one's first index gives the fast-minus-slow line with times from `times[25]` |
| Indicators.Macd | read_data.py:536-572 | the three series have equal length and identical times `times[33..]`; all are empty below 34 closes; MACD is fast minus slow EMA; the signal is the 9-EMA of the line; hist = macd - signal |
| Indicators.Bollinger | read_data.py:575-598 | no bands below `period` closes; otherwise three series of n-period+1 points stamped `times[period-1..]`; upper and lower are symmetric about the middle, at `k` times the square root of the window's population variance |
| Indicators.BollingerOrdered | read_data.py:587-591 | with a non-negative square root, upper >= middle >= lower |
| Indicators.BollingerMiddleIsSma | read_data.py:583-589 | the middle band is the SMA of the same period |
| Indicators.BollingerFlatWindow | read_data.py:583-591 | over a window of equal closes, with `sqrt(0) == 0`, the three bands meet at that close |
| Averages.MeanOfConstant | read_data.py:585 | the mean of a window of equal values is that value |
| Averages.Variance | read_data.py:586 | the population variance is never negative |
| Averages.ConstantHasNoVariance | read_data.py:585-586 | a window of equal values has population variance 0 around its mean |
| Averages.SlideWindow | read_data.py:477-480 | moving the window one step adds the entering close and drops the leaving one |
| Indicators.Indicator | read_data.py:606-616 | a name computes a series iff it is one of the five supported names |
| Indicators.SeriesFor | read_data.py:604-618 | the map holds exactly the supported names requested, each with its indicator's series |
| Indicators.ComputeIndicatorSeries | read_data.py:601-618 | unknown names are ignored; every supported requested name maps to its series over the candles' closes and times |
| Indicators.SameNamesSameSeries | read_data.py:601-618 | requests naming the same indicators in any order or multiplicity get the same series |
| TtlCache.Set | read_data.py:99-101 | the key holds the value stamped `now`; every other key is unchanged |
| TtlCache.Get | read_data.py:87-96 | a value is served iff the key is present and younger than the TTL; a stale key alone is evicted |
| TtlCache.HitWithinTtl | read_data.py:87-101 | a value set at T is served unchanged, with no change to the cache, while now - T < 900 s |
| TtlCache.MissAfterTtl | read_data.py:93-95 | from T + 900 s on, the read misses and evicts exactly that key |
| TtlCache.SetAfterMiss | read_data.py:87-101 | writing, at any later time, after a missed read leaves the same cache as writing directly |
| TtlCache.GetTwice | read_data.py:87-96 | two reads at one instant serve and leave what one read does |
| RateLimit.ClientAddress | read_data.py:210-212 | a present `X-Forwarded-For` header is used, even when empty, and is cut at its first comma and stripped only when it has one; otherwise the peer address, or `"unknown"` |
| RateLimit.RetryAfter | read_data.py:225 | the retry hint is at least one second |
| RateLimit.Enforce | read_data.py:217-228 | an absent or expired bucket restarts at count 1 and admits; otherwise the count is incremented even on rejection, and the request is admitted iff the new count is at most 30; other buckets are unchanged |
| RateLimit.RetryAfterBounds | read_data.py:225 | a rejection's hint lies in [1, 60] and is the remaining window rounded down |
| RateLimit.Run | read_data.py:217-228 | a run of requests yields one decision each |
| RateLimit.RunWithinWindow | read_data.py:219-227 | inside an open window every request, admitted or not, adds one to the count, and exactly min(n, 30 - count) are admitted |
| RateLimit.AtMostMaxPerWindow | read_data.py:219-227 | a burst of n requests that opens a new window and stays inside it has exactly min(n, 30) admitted |
| RateLimit.RunKeepsOtherKeys | read_data.py:214-220 | requests under one key never touch another key's bucket |
| RateLimit.EnforceRequest | read_data.py:209-228 | the request is charged to the bucket `route:client`: an absent or expired bucket restarts at count 1 and admits; otherwise the count goes up by one and the request is admitted iff the new count is at most 30, a refusal carrying the retry hint; every other bucket is unchanged |
| RateLimit.DistinctRoutesNeverShareBucket | read_data.py:214 | two different route names without a colon never share a bucket key, whatever the client addresses |
| RateLimit.RoutesNeverShareBucket | read_data.py:214 | the NEPSE index, TA history and TA indicators routes never share a bucket |
| RateLimit.ClientsNeverShareBucket | read_data.py:214 | on one route, two client addresses share a bucket only if they are equal |
| DocStore.SortByDate | read_data.py:1268 | the date sort is sorted and a permutation of its input |
| DocStore.SnapshotEntry | read_data.py:1228-1252 | a row contributes iff its upper-cased symbol is non-empty and open, high, low and last traded price all read; the candle is dated today, carries exactly those four readings, and its volume prefers `lastTradedVolume`, defaulting to 0 |
| DocStore.NullSymbolFiledAsNone | read_data.py:1228-1230 | a `None` symbol is filed under `"NONE"` |
| DocStore.FirstDated | read_data.py:1260-1264 | finds the first candle with the date, or establishes there is none |
| DocStore.ReplaceOrAppend | read_data.py:1259-1266 | when a candle has the date, the first such candle is replaced in place and every other position is kept; otherwise the candle is appended |
| DocStore.MergeToday | read_data.py:1254-1268 | after the merge the series is sorted by date, holds the new candle and keeps every candle of another date |
| DocStore.MergeKeepsDatesDistinct | read_data.py:1259-1268 | a series with distinct dates keeps them distinct, and today's candle is then exactly the new one |
| DocStore.MergeTodayIdempotent | read_data.py:1259-1268 | merging the same candle twice changes nothing the second time |
| DocStore.AcceptedEntries | read_data.py:1227-1252 | the entries are exactly the contributions of non-skipped rows, all dated today |
| DocStore.EntrySymbols | read_data.py:1269 | the updated symbols are exactly those of the entries |
| DocStore.ApplyEntries | read_data.py:1226-1269 | the symbols map gains the updated symbols; every other series is unchanged; a stored candle that no entry for its symbol redates survives, also in an updated series; every candle afterwards was stored before or comes from an entry |
| DocStore.UpdatedSymbols | read_data.py:1226-1269 | a symbol is updated iff some non-skipped row carries it |
| DocStore.Snapshot | read_data.py:1226-1274 | the store is stamped; `symbolsUpdated` counts the distinct updated symbols; symbols no row updates keep their series; a stored candle of another day survives, also in an updated series; every candle afterwards was stored before or comes from an accepted row dated today |
| DocStore.MergeEntryContents | read_data.py:1254-1269 | merging one more entry keeps both facts: stored candles not redated survive, and every candle is stored or comes from an entry |
| DocStore.SnapshotContents | read_data.py:1244-1269 | every accepted entry is dated today, so stored candles of other days survive and every candle is stored or from an accepted row |
| DocStore.ApplyEntriesUpdatesToday | read_data.py:1254-1269 | every updated series is sorted by date and has a candle dated today |
| DocStore.ApplyEntriesKeepsDatesDistinct | read_data.py:1254-1269 | series keep distinct dates, and an updated symbol's candle for today is its last entry in the batch |
| DocStore.SnapshotKeepsDatesDistinct | read_data.py:1226-1274 | a snapshot keeps every series free of repeated dates |
| DocStore.SnapshotUpdatesToday | read_data.py:1226-1274 | after a snapshot every updated symbol has a date-sorted series with a candle for today |
| DocStore.SnapshotLastRowWins | read_data.py:1226-1274 | the candle an updated symbol has for today comes from the last row of the batch for that symbol |
| DocStore.Newest | read_data.py:1291-1292 | `[-limit:]` keeps the last min(limit, n) candles |
| DocStore.ReadHistory | read_data.py:1279-1298 | fails iff the upper-cased symbol is empty or `limit` is not an integer; otherwise returns the date-sorted candles cut to the newest `limit` when `limit` > 0, and all of them otherwise |
| DocStore.DefaultLimitIsNinety | read_data.py:1283-1292 | without `limit` the read returns the newest min(90, n) candles |
| DailyTable.CompanyIndex | read_data.py:782 | fails iff some truthy company symbol is not a string; keys are exactly the upper-cased non-empty symbols, and each maps to the last company in the list with that symbol |
| DailyTable.LastUpdated | read_data.py:767-773 | a falsy timestamp gives none |
| DailyTable.RefreshPayload | read_data.py:787-820 | a payload exists iff the upper-cased symbol is non-empty; every column is the reading of its source field (volume preferring `lastTradedVolume`); the name is the row's `securityName`, else the company's `securityName`, else its `companyName`; the sector is `sectorName`, else `marketSector`, else none |
| DailyTable.RefreshAgreesWithSnapshot | read_data.py:787-820 | a row the snapshot accepts also yields a payload with the same symbol and prices, and the same volume once a missing one is read as 0 |
| DailyTable.VolumePrecedenceDiffers | read_data.py:798-801 | given both volume fields, the refresh stores `lastTradedVolume` while the normalizer reads `totalTradeQuantity` |
| DailyTable.RowNameWins | read_data.py:807 | a truthy `securityName` of the row wins over the company record |
| DailyTable.RefreshPayloads | read_data.py:785-820 | the payloads are exactly those of the rows with a non-empty symbol |
| DailyTable.RefreshPayloadsInOrder | read_data.py:785-820 | payloads keep row order: a longer batch gives the payloads of its first part followed by those of the rest, and a single row gives its own payload or none |
| DailyTable.Upsert | read_data.py:705-736 | the key (symbol, trading day) holds exactly the payload's columns; every other row is unchanged |
| DailyTable.UpsertBatch | read_data.py:722-736 | the keys afterwards are the old keys plus those of the batch |
| DailyTable.UpsertBatchLastWins | read_data.py:722-736 | each key holds the columns of the last payload in the batch with that key; untouched keys keep their row |
| DailyTable.UpsertBatchIdempotent | read_data.py:722-736 | running a batch twice leaves the table as running it once |
| DailyTable.RefreshDailyOhlc | read_data.py:776-832 | succeeds iff the company index does; upserts the payloads and reports their number; with no payloads the table is untouched |
| DailyTable.RefreshIdempotent | read_data.py:776-780 | refreshing twice with the same upstream data gives the table of one refresh |
| DailyTable.DaysInRange | read_data.py:1335-1336 | a day is in range iff the symbol has a row that day within [from, to] |
| DailyTable.Window | read_data.py:1314-1320 | an unparsable `to` is today; an unparsable `from` is 90 days before `to` |
| DailyTable.RangeRead | read_data.py:1302-1359 | fails iff `limit` is not an integer, or `from` is missing and 90 days before `to` falls before 0001-01-01 (the `OverflowError` of `to_date - timedelta(days=90)`), or `limit` is negative (refused by Postgres) or above 2^63-1 (outside `bigint`); a non-integer `limit` gives exactly the 400 message; otherwise returns min(limit, n) rows of the upper-cased symbol in the window, strictly ascending, with every left-out row of the window newer than all returned |
| DailyTable.RangeReadDefaults | read_data.py:1307-1320 | without parameters the read covers today-90 to today, succeeds iff today-90 is not before 0001-01-01, and then returns at most 90 rows |
| DailyTable.RangeReadExplicit | read_data.py:1305-1320 | explicit dates are used as given; a non-negative `limit` succeeds iff it fits a `bigint`, and `limit=0` returns no rows |
| DailyTable.ParseDay | read_data.py:1200-1206 | missing or empty parameters parse to nothing |
| DailyTable.PickedDays | read_data.py:1337-1338 | the first `limit` days in ascending order: distinct, in range, and older than every day left out |
| DailyTable.RangeRows | read_data.py:1334-1340 | the query's rows: count, contents, ascending order and oldest-first cut |
| DailyTable.RowsOn | read_data.py:1343-1357 | one row per picked day, carrying that day's stored columns |
| TaRequest.SecurityId | read_data.py:1019-1020 | a missing or empty `securityId` gives no id; otherwise the id is the truncated float reading |
| TaRequest.NonEmptyStripped | read_data.py:1045 | the stripped non-empty pieces, exactly |
| TaRequest.RequestedNames | read_data.py:1044-1045 | names are non-empty, comma-free and stripped; no parameter gives no names |
| TaRequest.RequestedNamesRoundTrip | read_data.py:1044-1045 | clean lower-case names joined with commas read back as exactly that list |
| TaRequest.Unsupported | read_data.py:1048 | exactly the requested names outside the supported five |
| TaRequest.UnsupportedInOrder | read_data.py:1048 | the invalid names keep request order and multiplicity: a longer request lists those of its first part, then those of the rest, and a single name is listed iff it is unsupported |
| TaRequest.Selection | read_data.py:1044-1053 | refused iff some requested name is unsupported, the error being the unsupported names in request order; otherwise the requested names, or all five when none were named |
| TaRequest.DefaultIsEverySupported | read_data.py:1046-1053 | the default list names each supported indicator exactly once |
| TaRequest.IndicatorsRequest | read_data.py:1039-1053 | a bad id is reported first; otherwise the selection's error or the (id, names) pair |
| TaService.CanonicalNames | read_data.py:622 | `sorted(set(names))` holds the same names, strictly ascending |
| TaService.SameNamesSameKey | read_data.py:622-623 | requests for the same names in any order or multiplicity share one cache key |
| TaService.SameKeySameNames | read_data.py:622-623 | two clean requests share a key only for the same security and the same names |
| TaService.KeysDistinct | read_data.py:437-623 | history keys never collide with indicator keys, and distinct securities have distinct history keys |
| TaService.ReadStoredCandle | read_data.py:446-456 | a stored candle reads back iff its date parses, with prices and volume as stored |
| TaService.StoredCandles | read_data.py:442-459 | the history is sorted by time and no longer than the stored series |
| TaService.StoredCandlesMembers | read_data.py:442-459 | the history holds exactly the stored candles that read back |
| TaService.GetOrFetchHistory | read_data.py:436-468 | a history live at the read time is served without change; otherwise the stored history is built and cached under the key, stamped with the time of the write |
| TaService.GetCachedIndicators | read_data.py:621-634 | a result live at the read time is served without change; otherwise the series of the canonical names over the history are computed and cached, and the history is cached too; on a miss the cache is exactly the one `_get_or_fetch_ta_history` leaves (after the expired entry is evicted) with the new result stored, stamped with the time of its own write; every key other than the result's and the history's is unchanged |
| TaService.IndicatorsServedFromCache | read_data.py:621-627 | once computed, a result is served from the cache for the TTL counted from its write, also to reordered requests |
| TaService.GetOrFetchHistoryConsistent | read_data.py:436-468 | every cache entry stays of the right kind and for the right security, and the history is that of the requested security |
| TaService.GetCachedIndicatorsConsistent | read_data.py:621-634 | the cache stays consistent, and the result has a series for exactly the supported names requested |
| TaService.HistoryRoute | read_data.py:1013-1026 | rate limiting comes first; a refused request leaves the cache alone; `securityId` is rejected iff the request is admitted and the id does not parse; an `Ok` answer carries `_get_or_fetch_ta_history` of the parsed id, and the cache is the one it leaves |
| TaService.IndicatorsRoute | read_data.py:1033-1057 | rate limiting comes first; a 400 answer is given iff the request is admitted and invalid, with the request's error; refused requests leave the cache alone; an `Ok` answer carries `_get_cached_indicators` of the checked id and names, and the cache is the one it leaves |
| TaService.HistoryRouteConsistent | read_data.py:1013-1026 | the route keeps the cache consistent and serves the requested security's history |
| TaService.IndicatorsRouteConsistent | read_data.py:1033-1057 | the route keeps the cache consistent |
| TaService.IndicatorsRouteResult | read_data.py:1044-1057 | a served result is for the requested security, with a series for each requested name (all five when none were named) |
| TaService.SelectionIsClean | read_data.py:1044-1053 | the names a request is served for are non-empty and comma-free |
| Text.Strip | read_data.py:1044-1045 | the result is empty iff the input is all whitespace, and otherwise has no whitespace at either end |
| Text.ParseInt | read_data.py:1283-1287 | a string parses iff, once stripped, it is one or more digits with an optional sign; the value is the digits' value, negated after `-` |
| Text.LeadingZero | read_data.py:1283-1287 | a leading zero does not change the value of a digit string |
| Text.ParseIntSpaced | read_data.py:1283-1287 | `int(" 42 ")` is 42 |
| Text.ParseIntSeparators | read_data.py:1283-1287 | the separators `\x1c`-`\x1f` are whitespace to `int()`: `int("\x1c42\x1f")` is 42 |
| Text.ParseIntSigned | read_data.py:1283-1287 | `int("+5")` is 5 and `int("-12")` is -12 |
| Text.ParseIntLeadingZeros | read_data.py:1283-1287 | `int("007")` is 7 |
| Text.ParseIntRefused | read_data.py:1283-1287 | an empty text, a lone sign and digits split by a space are refused |
| Sorting.SortedSet | read_data.py:622 | `sorted(set(...))` under a total order is strictly ascending and holds exactly the set |
| Sorting.SortBy | read_data.py:459 | `sort(key=...)` keeps the same elements with the same multiplicities |
| Sorting.SortBySorted | read_data.py:459 | under a total preorder on keys, the sort leaves the elements ordered by key |
| Sorting.SortByStable | read_data.py:459 | the sort is stable: for every key, the elements whose keys are equivalent to it keep their input order |
| Sorting.InsertKeyClass | read_data.py:459 | inserting into a sorted list puts the new element after every element with an equivalent key |
| Text.ParseIntRoundTrip | read_data.py:1283-1287 | `int()` reads back every integer from its decimal string |

## Left out

- Flask plumbing is not modelled: `request`, `jsonify` and HTTP status codes. Route outcomes are a datatype.
- The NEPSE client and the network (`_fetch_nepse_json`, `_get_nepse_session`, `_fetch_history_via_nepse`). `_fetch_symbol_for_security` becomes the parameter `symbolOf`. Upstream failures (the 502 answers) are not modelled.
- File I/O of the document store (`_ensure_ohlc_history_store`, `_load_ohlc_history`, `_save_ohlc_history`, the atomic rename): the store is a value. The `message` of an unreadable store file is therefore not modelled.
- A stored series that is not a list, and stored candles with missing or mistyped fields: the store only holds what the snapshot writes.
- Postgres: connections, DDL, `init_db`, `ensure_ohlc_table`, `_normalize_database_url`, and the `id` and `created_at` columns.
- Locks: the cache and the rate limiter are sequential transitions. A TA request's clock readings are a `TaService.Clock`: the rate limiter and the cache reads, which follow one another with nothing slow in between, share one reading `now`; each `_cache_set` has its own reading (`historySetAt`, `resultSetAt`).
- IEEE floating point: prices are reals, so `_safe_json_number`'s NaN and infinity filter never fires. Large ints read through `float()` are exact. `float("inf")` as a time is not modelled.
- Float parsing of strings, date parsing, `timestamp()` in the local time zone, `fromisoformat().isoformat()`, `str()` of floats, lists and dicts, and `math.sqrt`: these are uninterpreted `Env` fields or parameters.
- `Text.Strip`, `Text.Upper` and `Text.Lower` handle ASCII only, with no Unicode whitespace or case mapping. The ASCII whitespace is that of `str.strip()`: space, tab, line feed, vertical tab, form feed, carriage return and the separators `\x1c`-`\x1f`.
- The database session time zone and `CURRENT_DATE` are the parameters `dayOf` and `today`. Days are numbered as `date.toordinal()` numbers them: consecutively, with 0001-01-01 (`date.min`) as day 1.
- `DailyTable.RangeRead`: each returned row carries all stored columns, while the JSON response keeps only the date and price columns.
- The other routes and cache users: summary, live market, company list, NEPSE index proxy, latest row and symbol list, pandas-based routes, simulated trades, profit and loss, sector overview, `get_user` and the DNS debug route.
- Text.ParseInt: accepts only ASCII digits, ASCII whitespace and an optional sign; it refuses what Python's `int()` also allows: underscores such as `1_000`, non-ASCII decimal digits such as Arabic-Indic or fullwidth digits, and Unicode whitespace such as a no-break space.
- `utils.py` (an async HTTP client wrapper), `init_db.py` and `stocktest.py`: these are I/O scripts.
- Indicator periods are the source's constants (20, 50, 14, 12/26/9, 20), so `Indicators.Sma`, `Indicators.Ema`, `Indicators.Rsi` and `Indicators.Bollinger` require `period >= 1`; the source never calls them with a smaller period.

=== FILE: averages.dfy ===
/** Sums and means of real sequences, the arithmetic the indicator engine is
    stated in. */
module Averages {

  /** `sum(s)`, adding from the left. */
  function Sum(s: seq<real>): real {
    if |s| == 0 then 0.0 else Sum(s[..|s| - 1]) + s[|s| - 1]
  }

  /** `sum(s) / len(s)`. */
  function Mean(s: seq<real>): real
    requires |s| > 0
  {
    Sum(s) / |s| as real
  }

  /** The sum of squared deviations of `s` from `m`. */
  function SumSquaredDeviations(s: seq<real>, m: real): (r: real)
    ensures r >= 0.0
  {
    if |s| == 0 then 0.0
    else
      var d := s[|s| - 1] - m;
      SquareNonNegative(d);
      SumSquaredDeviations(s[..|s| - 1], m) + d * d
  }

  lemma SquareNonNegative(d: real)
    ensures d * d >= 0.0
  {
    if d < 0.0 {
      assert d * d == (-d) * (-d);
    }
  }

  /** Population variance of `s` around `m` (divided by `|s|`, not `|s| - 1`). */
  function Variance(s: seq<real>, m: real): (r: real)
    requires |s| > 0
    ensures r >= 0.0
  {
    SumSquaredDeviations(s, m) / |s| as real
  }

  lemma {:induction false} SumFront(s: seq<real>)
    requires |s| > 0
    ensures Sum(s) == s[0] + Sum(s[1..])
    decreases |s|
  {
    if |s| > 1 {
      SumFront(s[..|s| - 1]);
      assert s[..|s| - 1][1..] == s[1..][..|s[1..]| - 1];
    }
  }

  /** Moving a window one step: add the element that enters, drop the one that
      leaves. */
  lemma SlideWindow(s: seq<real>, lo: int, hi: int)
    requires 0 <= lo < hi < |s|
    ensures Sum(s[lo + 1..hi + 1]) == Sum(s[lo..hi]) + (s[hi] - s[lo])
  {
    assert s[lo..hi + 1][..hi - lo] == s[lo..hi];
    SumFront(s[lo..hi + 1]);
    assert s[lo..hi + 1][1..] == s[lo + 1..hi + 1];
  }

  lemma {:induction false} SumNonNegative(s: seq<real>)
    requires forall i :: 0 <= i < |s| ==> s[i] >= 0.0
    ensures Sum(s) >= 0.0
    decreases |s|
  {
    if |s| > 0 {
      SumNonNegative(s[..|s| - 1]);
    }
  }

  lemma {:induction false} SumZero(s: seq<real>)
    requires forall i :: 0 <= i < |s| ==> s[i] == 0.0
    ensures Sum(s) == 0.0
    decreases |s|
  {
    if |s| > 0 {
      SumZero(s[..|s| - 1]);
    }
  }

  lemma {:induction false} SumPositive(s: seq<real>)
    requires |s| > 0
    requires forall i :: 0 <= i < |s| ==> s[i] > 0.0
    ensures Sum(s) > 0.0
    decreases |s|
  {
    if |s| > 1 {
      SumPositive(s[..|s| - 1]);
    } else {
      assert Sum(s) == Sum(s[..0]) + s[0];
    }
  }

  /** The mean of a sequence of equal values is that value. */
  lemma {:induction false} MeanOfConstant(s: seq<real>, c: real)
    requires |s| > 0
    requires forall i :: 0 <= i < |s| ==> s[i] == c
    ensures Mean(s) == c
  {
    SumOfConstant(s, c);
  }

  /** Deviations from a value every element equals add up to nothing. */
  lemma {:induction false} DeviationsOfConstant(s: seq<real>, m: real)
    requires forall i :: 0 <= i < |s| ==> s[i] == m
    ensures SumSquaredDeviations(s, m) == 0.0
    decreases |s|
  {
    if |s| > 0 {
      DeviationsOfConstant(s[..|s| - 1], m);
    }
  }

  /** A sequence of equal values has population variance zero around its
      mean. */
  lemma ConstantHasNoVariance(s: seq<real>, c: real)
    requires |s| > 0
    requires forall i :: 0 <= i < |s| ==> s[i] == c
    ensures Mean(s) == c && Variance(s, Mean(s)) == 0.0
  {
    MeanOfConstant(s, c);
    DeviationsOfConstant(s, c);
  }

  lemma {:induction false} SumOfConstant(s: seq<real>, c: real)
    requires forall i :: 0 <= i < |s| ==> s[i] == c
    ensures Sum(s) == |s| as real * c
    decreases |s|
  {
    if |s| > 0 {
      SumOfConstant(s[..|s| - 1], c);
    }
  }
}

=== FILE: daily_table.dfy ===
/** The relational daily table `daily_ohlc`: the refresh that upserts today's
    price-volume rows keyed by (symbol, trading day), and the ranged read of
    one symbol.  The table is a map from its unique key to the remaining
    columns; the surrogate `id` and the `created_at` default are left out.
    The database session's time zone is the parameter `dayOf`, which turns a
    timestamp string into the trading day `::timestamptz::date` gives it, and
    days are numbered consecutively so that `date - 90` is `d - 90`. */
module DailyTable {
  import opened Wrappers
  import Text
  import Sorting
  import opened PyValue
  import DocStore
  import Normalizer

  /** Every column of a row except the key. */
  datatype Columns = Columns(
    securityId: Option<int>,
    securityName: Value,
    sector: Value,
    open: Option<real>,
    high: Option<real>,
    low: Option<real>,
    close: Option<real>,
    prevClose: Option<real>,
    volume: Option<real>,
    tradeQty: Option<real>,
    tradeValue: Option<real>,
    pctChange: Option<real>,
    lastUpdated: Option<string>)

  /** One parameter dictionary of the batched upsert. */
  datatype Payload = Payload(symbol: string, columns: Columns)

  /** `(symbol, trading_date)` is unique. */
  type Key = (string, int)

  type Table = map<Key, Columns>

  // ---------------------------------------------------------------------
  // Building the payloads

  /** The key a company is filed under, when its symbol is a non-empty
      string. */
  function CompanyKey(c: Row): Option<string> {
    var v := Get(c, "symbol");
    if v.Str? && v.s != "" then Some(Text.Upper(v.s)) else None
  }

  /** The company at index `i` is filed under `k`, and no later one is. */
  ghost predicate LastFiledAt(companies: seq<Row>, k: string, i: int) {
    && 0 <= i < |companies|
    && CompanyKey(companies[i]) == Some(k)
    && forall j :: i < j < |companies| ==> CompanyKey(companies[j]) != Some(k)
  }

  /** Every key of `m` holds the last company of `companies` filed under it. */
  ghost predicate LastCompanyWins(companies: seq<Row>, m: map<string, Row>) {
    forall k :: k in m ==> exists i :: LastFiledAt(companies, k, i) && m[k] == companies[i]
  }

  /** Every truthy `symbol` among `companies` is a string. */
  ghost predicate SymbolsAreStrings(companies: seq<Row>) {
    forall i :: 0 <= i < |companies| ==> var v := Get(companies[i], "symbol"); Truthy(v) ==> v.Str?
  }

  lemma SymbolsAreStringsStep(companies: seq<Row>)
    requires |companies| > 0
    ensures var v := Get(companies[|companies| - 1], "symbol");
            SymbolsAreStrings(companies) <==>
              SymbolsAreStrings(companies[..|companies| - 1]) && (Truthy(v) ==> v.Str?)
  {
    var init := companies[..|companies| - 1];
    assert forall i :: 0 <= i < |init| ==> init[i] == companies[i];
  }

  /** `company_by_symbol`: every company whose `symbol` is truthy, keyed by
      its upper-cased symbol; a later company overrides an earlier one with
      the same key.  A truthy symbol that is not a string has no `.upper()`
      and the refresh fails. */
  function CompanyIndex(companies: seq<Row>): (r: Result<map<string, Row>, string>)
    ensures r.Success? <==> SymbolsAreStrings(companies)
    ensures r.Success? ==> forall k :: k in r.value <==>
              exists i :: 0 <= i < |companies| && CompanyKey(companies[i]) == Some(k)
    ensures r.Success? ==> LastCompanyWins(companies, r.value)
    decreases |companies|
  {
    if |companies| == 0 then Success(map[])
    else
      var n := |companies| - 1;
      var init := companies[..n];
      var c := companies[n];
      var v := Get(c, "symbol");
      SymbolsAreStringsStep(companies);
      match CompanyIndex(init)
      case Failure(e) => Failure(e)
      case Success(m) =>
        if !Truthy(v) then
          CompanyKeysStep(companies, m, None);
          LastCompanyWinsStep(companies, m, None);
          Success(m)
        else if v.Str? then
          CompanyKeysStep(companies, m, Some(Text.Upper(v.s)));
          LastCompanyWinsStep(companies, m, Some(Text.Upper(v.s)));
          Success(m[Text.Upper(v.s) := c])
        else Failure("company symbol is not a string")
  }

  /** Filing one more company adds its key, if it has one, to the key set. */
  lemma CompanyKeysStep(companies: seq<Row>, m: map<string, Row>, key: Option<string>)
    requires |companies| > 0
    requires var init := companies[..|companies| - 1];
             forall k :: k in m <==> exists i :: 0 <= i < |init| && CompanyKey(init[i]) == Some(k)
    requires CompanyKey(companies[|companies| - 1]) == key
    ensures var r := if key.Some? then m[key.value := companies[|companies| - 1]] else m;
            forall k :: k in r <==> exists i :: 0 <= i < |companies| && CompanyKey(companies[i]) == Some(k)
  {
    var init, c := companies[..|companies| - 1], companies[|companies| - 1];
    var r := if key.Some? then m[key.value := c] else m;
    forall k ensures k in r <==> exists i :: 0 <= i < |companies| && CompanyKey(companies[i]) == Some(k) {
      if exists i :: 0 <= i < |companies| && CompanyKey(companies[i]) == Some(k) {
        var i :| 0 <= i < |companies| && CompanyKey(companies[i]) == Some(k);
        if i < |init| { assert CompanyKey(init[i]) == Some(k); } else { assert key == Some(k); }
      }
      if key == Some(k) {
        assert companies[|init|] == c;
      } else if k in m {
        var i :| 0 <= i < |init| && CompanyKey(init[i]) == Some(k);
        assert companies[i] == init[i];
      }
    }
  }

  /** Filing one more company keeps the last-wins property. */
  lemma LastCompanyWinsStep(companies: seq<Row>, m: map<string, Row>, key: Option<string>)
    requires |companies| > 0
    requires LastCompanyWins(companies[..|companies| - 1], m)
    requires CompanyKey(companies[|companies| - 1]) == key
    ensures LastCompanyWins(companies, if key.Some? then m[key.value := companies[|companies| - 1]] else m)
  {
    var init, c := companies[..|companies| - 1], companies[|companies| - 1];
    var n := |init|;
    var r := if key.Some? then m[key.value := c] else m;
    forall k | k in r ensures exists i :: LastFiledAt(companies, k, i) && r[k] == companies[i] {
      if key == Some(k) {
        assert LastFiledAt(companies, k, n) && r[k] == companies[n];
      } else {
        var i :| LastFiledAt(init, k, i) && m[k] == init[i];
        assert LastFiledAt(companies, k, i) by {
          assert forall j :: i < j < n ==> companies[j] == init[j];
        }
        assert r[k] == companies[i];
      }
    }
  }

  /** `_parse_last_updated(...)` followed by `.isoformat()`: falsy values and
      strings `fromisoformat` rejects give `None`. */
  function LastUpdated(env: Env, v: Value): (r: Option<string>)
    ensures !Truthy(v) ==> r == None
  {
    if !Truthy(v) then None else env.parseIsoTimestamp(PyStr(env, v))
  }

  /** `company_by_symbol.get(symbol, {})`. */
  function CompanyOf(companies: map<string, Row>, symbol: string): Row {
    if symbol in companies then companies[symbol] else map[]
  }

  /** The upsert parameters built from one price-volume row, or `None` when
      its symbol is empty.  Prices are whatever `_safe_float` reads, missing
      ones included; nothing else is checked. */
  function RefreshPayload(env: Env, row: Row, companies: map<string, Row>): (r: Option<Payload>)
    ensures r.Some? <==> DocStore.SnapshotSymbol(env, row) != ""
    ensures r.Some? ==> r.value.symbol == DocStore.SnapshotSymbol(env, row)
    ensures r.Some? ==> forall k :: 0 <= k < |r.value.symbol| ==> !('a' <= r.value.symbol[k] <= 'z')
    ensures r.Some? ==> var cols := r.value.columns;
              && cols.securityId == SafeInt(env, Get(row, "securityId"))
              && cols.open == SafeFloat(env, Get(row, "openPrice"))
              && cols.high == SafeFloat(env, Get(row, "highPrice"))
              && cols.low == SafeFloat(env, Get(row, "lowPrice"))
              && cols.close == SafeFloat(env, Get(row, "lastTradedPrice"))
              && cols.prevClose == SafeFloat(env, Get(row, "previousClose"))
              && cols.volume == SafeFloat(env, DocStore.SnapshotVolume(row))
              && cols.tradeQty == SafeFloat(env, Get(row, "totalTradeQuantity"))
              && cols.tradeValue == SafeFloat(env, Get(row, "totalTradeValue"))
              && cols.pctChange == SafeFloat(env, Get(row, "percentageChange"))
              && cols.lastUpdated == LastUpdated(env, Get(row, "lastUpdatedDateTime"))
    ensures r.Some? ==> var comp := CompanyOf(companies, r.value.symbol); var name := r.value.columns.securityName;
              && (Truthy(Get(row, "securityName")) ==> name == Get(row, "securityName"))
              && (!Truthy(Get(row, "securityName")) && Truthy(Get(comp, "securityName")) ==> name == Get(comp, "securityName"))
              && (!Truthy(Get(row, "securityName")) && !Truthy(Get(comp, "securityName")) ==> name == Get(comp, "companyName"))
    ensures r.Some? ==> var comp := CompanyOf(companies, r.value.symbol); var sector := r.value.columns.sector;
              && (Truthy(Get(comp, "sectorName")) ==> sector == Get(comp, "sectorName"))
              && (!Truthy(Get(comp, "sectorName")) && Truthy(Get(comp, "marketSector")) ==> sector == Get(comp, "marketSector"))
              && (!Truthy(Get(comp, "sectorName")) && !Truthy(Get(comp, "marketSector")) ==> sector == Null)
  {
    var symbol := DocStore.SnapshotSymbol(env, row);
    if symbol == "" then None
    else
      var comp := CompanyOf(companies, symbol);
      var sector := Or(Get(comp, "sectorName"), Or(Get(comp, "marketSector"), Null));
      var name := Or(Get(row, "securityName"), Or(Get(comp, "securityName"), Get(comp, "companyName")));
      Some(Payload(symbol, Columns(
        SafeInt(env, Get(row, "securityId")),
        name,
        sector,
        SafeFloat(env, Get(row, "openPrice")),
        SafeFloat(env, Get(row, "highPrice")),
        SafeFloat(env, Get(row, "lowPrice")),
        SafeFloat(env, Get(row, "lastTradedPrice")),
        SafeFloat(env, Get(row, "previousClose")),
        SafeFloat(env, DocStore.SnapshotVolume(row)),
        SafeFloat(env, Get(row, "totalTradeQuantity")),
        SafeFloat(env, Get(row, "totalTradeValue")),
        SafeFloat(env, Get(row, "percentageChange")),
        LastUpdated(env, Get(row, "lastUpdatedDateTime")))))
  }

  /** The refresh and the TA normalizer disagree on volume: given both
      `lastTradedVolume` and `totalTradeQuantity`, the refresh stores the
      former and the normalizer reads the latter. */
  lemma VolumePrecedenceDiffers(env: Env, row: Row, companies: map<string, Row>, traded: real, total: real)
    requires DocStore.SnapshotSymbol(env, row) != ""
    requires "lastTradedVolume" in row && row["lastTradedVolume"] == Float(traded)
    requires "totalTradeQuantity" in row && row["totalTradeQuantity"] == Float(total)
    requires "volume" !in row
    ensures RefreshPayload(env, row, companies).value.columns.volume == Some(traded)
    ensures Normalizer.RawVolume(row) == Float(total)
  {
  }

  /** A company record fills in the name only when the row's own
      `securityName` is falsy. */
  lemma RowNameWins(env: Env, row: Row, companies: map<string, Row>)
    requires DocStore.SnapshotSymbol(env, row) != ""
    requires Truthy(Get(row, "securityName"))
    ensures RefreshPayload(env, row, companies).value.columns.securityName == Get(row, "securityName")
  {
  }

  /** The refresh and the snapshot read one price-volume row alike: a row the
      snapshot files gets a payload under the same symbol, with the same
      open, high, low and close, and the same volume precedence. */
  lemma RefreshAgreesWithSnapshot(env: Env, row: Row, companies: map<string, Row>, today: string)
    requires DocStore.SnapshotEntry(env, row, today).Some?
    ensures RefreshPayload(env, row, companies).Some?
    ensures var (symbol, d) := DocStore.SnapshotEntry(env, row, today).value;
            var p := RefreshPayload(env, row, companies).value;
            && p.symbol == symbol
            && p.columns.open == Some(d.open) && p.columns.high == Some(d.high)
            && p.columns.low == Some(d.low) && p.columns.close == Some(d.close)
            && p.columns.volume.GetOr(0.0) == d.volume
  {
  }

  /** The payloads of the rows whose symbol is not empty, in row order. */
  function RefreshPayloads(env: Env, rows: seq<Row>, companies: map<string, Row>): (r: seq<Payload>)
    ensures forall p :: p in r <==> exists i :: 0 <= i < |rows| && RefreshPayload(env, rows[i], companies) == Some(p)
    ensures forall k :: 0 <= k < |r| ==> r[k].symbol != ""
  {
    var r := FilterMap(rows, row => RefreshPayload(env, row, companies));
    forall k | 0 <= k < |r| ensures r[k].symbol != "" {
      assert r[k] in r;
    }
    r
  }

  /** The batch keeps row order: the payloads of consecutive row runs are
      consecutive, and one row contributes its payload exactly when it has
      one.  With `UpsertBatchLastWins` this decides which of two rows with
      the same key the table keeps. */
  lemma RefreshPayloadsInOrder(env: Env, rows: seq<Row>, more: seq<Row>, row: Row, companies: map<string, Row>)
    ensures RefreshPayloads(env, rows + more, companies)
            == RefreshPayloads(env, rows, companies) + RefreshPayloads(env, more, companies)
    ensures RefreshPayloads(env, [row], companies)
            == if RefreshPayload(env, row, companies).Some? then [RefreshPayload(env, row, companies).value] else []
  {
    FilterMapInOrder(rows, more, row, r => RefreshPayload(env, r, companies));
  }

  // ---------------------------------------------------------------------
  // The upsert

  /** `COALESCE(last_updated::timestamptz::date, CURRENT_DATE)`. */
  function TradingDay(p: Payload, today: int, dayOf: string -> int): int {
    match p.columns.lastUpdated
    case Some(ts) => dayOf(ts)
    case None => today
  }

  function KeyOf(p: Payload, today: int, dayOf: string -> int): Key {
    (p.symbol, TradingDay(p, today, dayOf))
  }

  /** `INSERT ... ON CONFLICT (symbol, trading_date) DO UPDATE SET` every
      other column: the row under the key becomes exactly the payload's. */
  function Upsert(t: Table, p: Payload, today: int, dayOf: string -> int): (r: Table)
    ensures r.Keys == t.Keys + {KeyOf(p, today, dayOf)}
    ensures r[KeyOf(p, today, dayOf)] == p.columns
    ensures forall k :: k in t && k != KeyOf(p, today, dayOf) ==> r[k] == t[k]
  {
    t[KeyOf(p, today, dayOf) := p.columns]
  }

  /** `execute_batch`: the payloads upserted one after another in one
      transaction (so `CURRENT_DATE` is the same `today` for all). */
  function UpsertBatch(t: Table, ps: seq<Payload>, today: int, dayOf: string -> int): (r: Table)
    ensures forall k :: k in r <==> k in t || exists i :: 0 <= i < |ps| && KeyOf(ps[i], today, dayOf) == k
    decreases |ps|
  {
    if |ps| == 0 then t
    else
      var init := ps[..|ps| - 1];
      assert forall i :: 0 <= i < |init| ==> init[i] == ps[i];
      Upsert(UpsertBatch(t, init, today, dayOf), ps[|ps| - 1], today, dayOf)
  }

  /** Reference definition: the columns of the last payload in the batch with
      key `k`, if any. */
  function LastWith(ps: seq<Payload>, k: Key, today: int, dayOf: string -> int): Option<Columns>
    decreases |ps|
  {
    if |ps| == 0 then None
    else if KeyOf(ps[|ps| - 1], today, dayOf) == k then Some(ps[|ps| - 1].columns)
    else LastWith(ps[..|ps| - 1], k, today, dayOf)
  }

  /** Within a batch the last payload for a key wins; keys the batch does
      not touch keep their row. */
  lemma {:induction false} UpsertBatchLastWins(t: Table, ps: seq<Payload>, today: int, dayOf: string -> int, k: Key)
    ensures var r := UpsertBatch(t, ps, today, dayOf);
            LastWith(ps, k, today, dayOf).Some? ==> k in r && r[k] == LastWith(ps, k, today, dayOf).value
    ensures var r := UpsertBatch(t, ps, today, dayOf);
            LastWith(ps, k, today, dayOf).None? ==> (k in r <==> k in t) && (k in t ==> r[k] == t[k])
    decreases |ps|
  {
    if |ps| > 0 {
      UpsertBatchLastWins(t, ps[..|ps| - 1], today, dayOf, k);
    }
  }

  /** Running the same batch twice leaves the table as running it once:
      refreshing more than once a day is safe. */
  lemma UpsertBatchIdempotent(t: Table, ps: seq<Payload>, today: int, dayOf: string -> int)
    ensures UpsertBatch(UpsertBatch(t, ps, today, dayOf), ps, today, dayOf) == UpsertBatch(t, ps, today, dayOf)
  {
    var once := UpsertBatch(t, ps, today, dayOf);
    var twice := UpsertBatch(once, ps, today, dayOf);
    forall k | k in twice || k in once ensures k in twice && k in once && twice[k] == once[k] {
      UpsertBatchLastWins(t, ps, today, dayOf, k);
      UpsertBatchLastWins(once, ps, today, dayOf, k);
    }
  }

  /** `refresh_daily_ohlc`: the table afterwards and the `upserted` count;
      with no payloads the table is not touched and the count is 0. */
  function RefreshDailyOhlc(env: Env, t: Table, companies: seq<Row>, rows: seq<Row>,
                            today: int, dayOf: string -> int): (r: Result<(Table, nat), string>)
    ensures r.Success? <==> CompanyIndex(companies).Success?
    ensures r.Success? ==>
              var ps := RefreshPayloads(env, rows, CompanyIndex(companies).value);
              r.value == (UpsertBatch(t, ps, today, dayOf), |ps|)
    ensures r.Success? && r.value.1 == 0 ==> r.value.0 == t
  {
    match CompanyIndex(companies)
    case Failure(e) => Failure(e)
    case Success(index) =>
      var ps := RefreshPayloads(env, rows, index);
      if |ps| == 0 then Success((t, 0))
      else Success((UpsertBatch(t, ps, today, dayOf), |ps|))
  }

  /** Refreshing twice with the same upstream data gives the same table as
      refreshing once. */
  lemma RefreshIdempotent(env: Env, t: Table, companies: seq<Row>, rows: seq<Row>, today: int, dayOf: string -> int)
    requires RefreshDailyOhlc(env, t, companies, rows, today, dayOf).Success?
    ensures var once := RefreshDailyOhlc(env, t, companies, rows, today, dayOf).value.0;
            RefreshDailyOhlc(env, once, companies, rows, today, dayOf).Success?
            && RefreshDailyOhlc(env, once, companies, rows, today, dayOf).value.0 == once
  {
    var ps := RefreshPayloads(env, rows, CompanyIndex(companies).value);
    UpsertBatchIdempotent(t, ps, today, dayOf);
  }

  // ---------------------------------------------------------------------
  // The ranged read

  /** The days on which `symbol` has a row, between `from` and `to`
      inclusive. */
  function DaysInRange(t: Table, symbol: string, from: int, to: int): (r: set<int>)
    ensures forall d :: d in r <==> (symbol, d) in t && from <= d <= to
  {
    set k | k in t.Keys && k.0 == symbol && from <= k.1 <= to :: k.1
  }

  /** The first `n` of `s`, or all of `s` (SQL `LIMIT n`, `n >= 0`). */
  function Take<T>(s: seq<T>, n: nat): (r: seq<T>)
    ensures |r| == if n < |s| then n else |s|
    ensures r == s[..|r|]
  {
    if n < |s| then s[..n] else s
  }

  /** The inclusive range of trading days a read covers: an unparsable `to`
      means today and an unparsable `from` means 90 days before `to`. */
  function Window(fromParam: Option<string>, toParam: Option<string>, today: int,
                  parseDay: string -> Option<int>): (r: (int, int))
    ensures ParseDay(toParam, parseDay).None? ==> r.1 == today
    ensures ParseDay(toParam, parseDay).Some? ==> r.1 == ParseDay(toParam, parseDay).value
    ensures ParseDay(fromParam, parseDay).None? ==> r.0 == r.1 - 90
    ensures ParseDay(fromParam, parseDay).Some? ==> r.0 == ParseDay(fromParam, parseDay).value
  {
    var to := ParseDay(toParam, parseDay).GetOr(today);
    var from := ParseDay(fromParam, parseDay).GetOr(to - 90);
    (from, to)
  }

  /** `date.min` (0001-01-01) as a day number: days are numbered as
      `date.toordinal()` numbers them. */
  const FirstDay: int := 1

  /** The largest `LIMIT` Postgres accepts, that of a `bigint`. */
  const MaxLimit: int := 0x7fff_ffff_ffff_ffff

  /** `rows` answers the range query for `symbol` over `from..to` with
      `LIMIT limit`: min(limit, n) rows of the n days in range, each the
      stored row of a day in range, strictly ascending by day, and every
      day in range left out newer than all those returned. */
  ghost predicate RangeResult(t: Table, symbol: string, from: int, to: int, limit: int, rows: seq<(int, Columns)>) {
    && |rows| == (if limit < |DaysInRange(t, symbol, from, to)| then limit else |DaysInRange(t, symbol, from, to)|)
    && (forall i :: 0 <= i < |rows| ==>
          (symbol, rows[i].0) in t && from <= rows[i].0 <= to && rows[i].1 == t[(symbol, rows[i].0)])
    && (forall i, j :: 0 <= i < j < |rows| ==> rows[i].0 < rows[j].0)
    && (forall d :: (symbol, d) in t && from <= d <= to && (forall i :: 0 <= i < |rows| ==> rows[i].0 != d) ==>
          forall i :: 0 <= i < |rows| ==> rows[i].0 < d)
  }

  /** `/api/ohlc/<symbol>?from=&to=&limit=`: `limit` defaults to `"90"` and
      must read as an integer; a missing `from` that would fall before
      `date.min` is an `OverflowError`; a `limit` that is negative or beyond
      a `bigint` is an error of the database.  Otherwise the rows of the
      upper-cased symbol inside the window, oldest first, at most `limit` of
      them, and every row of the window left out is newer than all those
      returned. */
  function RangeRead(t: Table, symbol: string, fromParam: Option<string>, toParam: Option<string>,
                     limitParam: Option<string>, today: int, parseDay: string -> Option<int>)
    : (r: Result<seq<(int, Columns)>, string>)
    ensures r.Failure? <==>
              || Text.ParseInt(limitParam.GetOr("90")).None?
              || (ParseDay(fromParam, parseDay).None? && Window(fromParam, toParam, today, parseDay).1 - 90 < FirstDay)
              || Text.ParseInt(limitParam.GetOr("90")).value < 0
              || Text.ParseInt(limitParam.GetOr("90")).value > MaxLimit
    ensures Text.ParseInt(limitParam.GetOr("90")).None? ==> r == Failure("limit must be an integer")
    ensures r.Success? ==>
              var w := Window(fromParam, toParam, today, parseDay);
              RangeResult(t, Text.Upper(symbol), w.0, w.1, Text.ParseInt(limitParam.GetOr("90")).value, r.value)
  {
    match Text.ParseInt(limitParam.GetOr("90"))
    case None => Failure("limit must be an integer")
    case Some(limit) =>
      var w := Window(fromParam, toParam, today, parseDay);
      if ParseDay(fromParam, parseDay).None? && w.1 - 90 < FirstDay then Failure("date value out of range")
      else if limit < 0 then Failure("LIMIT must not be negative")
      else if limit > MaxLimit then Failure("bigint out of range")
      else Success(RangeRows(t, Text.Upper(symbol), w.0, w.1, limit))
  }

  /** Without parameters the read covers the 91 days ending today and
      returns at most 90 rows; it fails only when today is within 90 days
      of `date.min`. */
  lemma RangeReadDefaults(t: Table, symbol: string, today: int, parseDay: string -> Option<int>)
    ensures Window(None, None, today, parseDay) == (today - 90, today)
    ensures RangeRead(t, symbol, None, None, None, today, parseDay).Success? <==> today - 90 >= FirstDay
    ensures RangeRead(t, symbol, None, None, None, today, parseDay).Success? ==>
              |RangeRead(t, symbol, None, None, None, today, parseDay).value| <= 90
  {
    Text.ParseNinety();
  }

  /** An explicit range is used as given, and `limit=0` returns nothing. */
  lemma RangeReadExplicit(t: Table, symbol: string, from: string, to: string, limit: int,
                          today: int, parseDay: string -> Option<int>)
    requires from != "" && to != "" && parseDay(from).Some? && parseDay(to).Some?
    requires limit >= 0
    ensures Window(Some(from), Some(to), today, parseDay) == (parseDay(from).value, parseDay(to).value)
    ensures var r := RangeRead(t, symbol, Some(from), Some(to), Some(Text.IntToString(limit)), today, parseDay);
            && (r.Success? <==> limit <= MaxLimit)
            && (r.Success? && limit == 0 ==> r.value == [])
  {
    Text.ParseIntRoundTrip(limit);
  }

  /** `_parse_date`: empty or missing parameters give `None`. */
  function ParseDay(param: Option<string>, parseDay: string -> Option<int>): (r: Option<int>)
    ensures param.None? || param == Some("") ==> r == None
  {
    match param
    case None => None
    case Some(s) => if s == "" then None else parseDay(s)
  }

  /** The first `limit` of `days` in ascending order. */
  function PickedDays(days: set<int>, limit: nat): (r: seq<int>)
    ensures |r| == if limit < |days| then limit else |days|
    ensures forall i :: 0 <= i < |r| ==> r[i] in days
    ensures forall i, j :: 0 <= i < j < |r| ==> r[i] < r[j]
    ensures forall d :: d in days && (forall i :: 0 <= i < |r| ==> r[i] != d) ==> forall i :: 0 <= i < |r| ==> r[i] < d
  {
    Sorting.IntLeTotalOrder();
    var ascending := Sorting.SortedSet(days, Sorting.IntLe);
    var picked := Take(ascending, limit);
    assert forall i :: 0 <= i < |picked| ==> picked[i] == ascending[i];
    forall d | d in days && (forall i :: 0 <= i < |picked| ==> picked[i] != d)
      ensures forall i :: 0 <= i < |picked| ==> picked[i] < d
    {
      var j :| 0 <= j < |ascending| && ascending[j] == d;
      assert j >= |picked|;
    }
    picked
  }

  /** The query proper: `WHERE symbol = ... AND trading_date BETWEEN from AND
      to ORDER BY trading_date ASC LIMIT limit`.  The rows returned are the
      oldest ones in range: every row in range that is left out is newer
      than all of them. */
  function RangeRows(t: Table, symbol: string, from: int, to: int, limit: nat): (r: seq<(int, Columns)>)
    ensures RangeResult(t, symbol, from, to, limit, r)
  {
    var picked := PickedDays(DaysInRange(t, symbol, from, to), limit);
    var r := RowsOn(t, symbol, picked);
    assert forall i :: 0 <= i < |r| ==> r[i].0 == picked[i];
    r
  }

  /** The rows of `symbol` on each of `days`, in that order. */
  function RowsOn(t: Table, symbol: string, days: seq<int>): (r: seq<(int, Columns)>)
    requires forall i :: 0 <= i < |days| ==> (symbol, days[i]) in t
    ensures |r| == |days|
    ensures forall i :: 0 <= i < |r| ==> r[i] == (days[i], t[(symbol, days[i])])
  {
    seq(|days|, i requires 0 <= i < |days| => (days[i], t[(symbol, days[i])]))
  }
}

=== FILE: doc_store.dfy ===
/** The JSON document store of daily candles (`data/ohlc_history.json`): the
    snapshot route that folds today's price-volume rows into it and the
    history route that reads one symbol back.  The store is a value; reading
    and atomically replacing the file is left out. */
module DocStore {
  import opened Wrappers
  import Text
  import Sorting
  import opened PyValue

  /** One stored candle; the store only ever holds what the snapshot wrote,
      so every field is present and typed. */
  datatype DayCandle = DayCandle(date: string, open: real, high: real, low: real, close: real, volume: real)

  /** `{"updatedAt": ..., "symbols": {SYMBOL: [candle, ...]}}`. */
  datatype Store = Store(updatedAt: Option<string>, symbols: map<string, seq<DayCandle>>)

  /** What a missing or unreadable store file reads as. */
  const EmptyStore: Store := Store(None, map[])

  function CandleDate(c: DayCandle): string {
    c.date
  }

  /** Every candle of `cs` carries a different date. */
  ghost predicate DistinctDates(cs: seq<DayCandle>) {
    forall i, j :: 0 <= i < |cs| && 0 <= j < |cs| && cs[i].date == cs[j].date ==> i == j
  }

  ghost predicate SortedByDate(cs: seq<DayCandle>) {
    Sorting.SortedBy(cs, CandleDate, Text.StrLe)
  }

  /** Some candle of `cs` is dated `date`. */
  ghost predicate HasDate(cs: seq<DayCandle>, date: string) {
    exists c :: c in cs && c.date == date
  }

  lemma SuffixSorted(cs: seq<DayCandle>, n: nat)
    requires SortedByDate(cs) && n <= |cs|
    ensures SortedByDate(cs[n..])
  {
    assert forall i :: 0 <= i < |cs| - n ==> cs[n..][i] == cs[n + i];
  }

  /** `sort(key=lambda item: item.get("date") or "")`: stable, by date string. */
  function SortByDate(cs: seq<DayCandle>): (r: seq<DayCandle>)
    ensures SortedByDate(r)
    ensures multiset(r) == multiset(cs)
  {
    Text.StrLeTotalOrder();
    Sorting.SortBySorted(cs, CandleDate, Text.StrLe);
    Sorting.SortBy(cs, CandleDate, Text.StrLe)
  }

  /** `symbols.get(symbol, [])`. */
  function Series(symbols: map<string, seq<DayCandle>>, symbol: string): seq<DayCandle> {
    if symbol in symbols then symbols[symbol] else []
  }

  // ---------------------------------------------------------------------
  // Snapshot: folding one price-volume row into the store

  /** `str(row.get("symbol", "")).upper()`. */
  function SnapshotSymbol(env: Env, row: Row): string {
    Text.Upper(PyStr(env, GetOr(row, "symbol", Str(""))))
  }

  /** `lastTradedVolume`, unless it is missing or null, then
      `totalTradeQuantity`. */
  function SnapshotVolume(row: Row): Value {
    if Get(row, "lastTradedVolume") == Null then Get(row, "totalTradeQuantity") else Get(row, "lastTradedVolume")
  }

  /** The symbol and today's candle a price-volume row contributes, or `None`
      when the row is skipped: an empty symbol, or any of open, high, low and
      last traded price that does not read as a number.  A volume that does
      not read as a number (or is zero) is stored as `0.0`. */
  function SnapshotEntry(env: Env, row: Row, today: string): (r: Option<(string, DayCandle)>)
    ensures r.Some? <==>
              && SnapshotSymbol(env, row) != ""
              && SafeFloat(env, Get(row, "openPrice")).Some?
              && SafeFloat(env, Get(row, "highPrice")).Some?
              && SafeFloat(env, Get(row, "lowPrice")).Some?
              && SafeFloat(env, Get(row, "lastTradedPrice")).Some?
    ensures r.Some? ==>
              && r.value.0 == SnapshotSymbol(env, row)
              && r.value.1.date == today
              && r.value.1.open == SafeFloat(env, Get(row, "openPrice")).value
              && r.value.1.high == SafeFloat(env, Get(row, "highPrice")).value
              && r.value.1.low == SafeFloat(env, Get(row, "lowPrice")).value
              && r.value.1.close == SafeFloat(env, Get(row, "lastTradedPrice")).value
              && r.value.1.volume == SafeFloat(env, SnapshotVolume(row)).GetOr(0.0)
  {
    var symbol := SnapshotSymbol(env, row);
    var open := SafeFloat(env, Get(row, "openPrice"));
    var high := SafeFloat(env, Get(row, "highPrice"));
    var low := SafeFloat(env, Get(row, "lowPrice"));
    var close := SafeFloat(env, Get(row, "lastTradedPrice"));
    var volume := SafeFloat(env, SnapshotVolume(row));
    if symbol == "" || open.None? || high.None? || low.None? || close.None? then None
    else Some((symbol, DayCandle(today, open.value, high.value, low.value, close.value, volume.GetOr(0.0))))
  }

  /** A row whose `symbol` is present but null is not skipped: `str(None)`
      is `"None"`, so its candle is filed under the symbol `"NONE"`. */
  lemma NullSymbolFiledAsNone(env: Env, row: Row, today: string)
    requires "symbol" in row && row["symbol"] == Null
    requires SafeFloat(env, Get(row, "openPrice")).Some? && SafeFloat(env, Get(row, "highPrice")).Some?
    requires SafeFloat(env, Get(row, "lowPrice")).Some? && SafeFloat(env, Get(row, "lastTradedPrice")).Some?
    ensures SnapshotEntry(env, row, today).Some?
    ensures SnapshotEntry(env, row, today).value.0 == "NONE"
  {
    assert GetOr(row, "symbol", Str("")) == Null;
    UpperOfNone();
    assert SnapshotSymbol(env, row) == "NONE";
  }

  lemma UpperOfNone()
    ensures Text.Upper("None") == "NONE"
  {
    var u := Text.Upper("None");
    assert u[0] == 'N' && u[1] == 'O' && u[2] == 'N' && u[3] == 'E';
  }

  /** Index of the first candle dated `date`. */
  function FirstDated(cs: seq<DayCandle>, date: string): (r: Option<nat>)
    ensures r.Some? ==> r.value < |cs| && cs[r.value].date == date
    ensures r.Some? ==> forall k :: 0 <= k < r.value ==> cs[k].date != date
    ensures r.None? ==> forall k :: 0 <= k < |cs| ==> cs[k].date != date
  {
    if |cs| == 0 then None
    else if cs[0].date == date then Some(0)
    else match FirstDated(cs[1..], date)
      case Some(i) => Some(i + 1)
      case None => None
  }

  /** The loop over the symbol's candles: the first candle dated like `e` is
      replaced by `e`; if there is none, `e` is appended. */
  function ReplaceOrAppend(cs: seq<DayCandle>, e: DayCandle): (r: seq<DayCandle>)
    ensures e in r
    ensures forall c :: c in r ==> c == e || c in cs
    ensures forall c :: c in cs && c.date != e.date ==> c in r
    ensures (exists k :: 0 <= k < |cs| && cs[k].date == e.date) ==> |r| == |cs|
    ensures (forall k :: 0 <= k < |cs| ==> cs[k].date != e.date) ==> r == cs + [e]
    ensures FirstDated(cs, e.date).Some? ==>
              && |r| == |cs|
              && forall k :: 0 <= k < |cs| ==> r[k] == (if k == FirstDated(cs, e.date).value then e else cs[k])
  {
    match FirstDated(cs, e.date)
    case Some(i) =>
      var r := cs[i := e];
      assert r[i] == e;
      assert forall c :: c in cs && c.date != e.date ==> c in r by {
        forall c | c in cs && c.date != e.date ensures c in r {
          var k :| 0 <= k < |cs| && cs[k] == c;
          assert r[k] == c;
        }
      }
      r
    case None => cs + [e]
  }

  /** Today's candle merged into one symbol's series, which is then sorted by
      date. */
  function MergeToday(cs: seq<DayCandle>, e: DayCandle): (r: seq<DayCandle>)
    ensures SortedByDate(r)
    ensures e in r
    ensures forall c :: c in r ==> c == e || c in cs
    ensures forall c :: c in cs && c.date != e.date ==> c in r
  {
    var merged := ReplaceOrAppend(cs, e);
    var r := SortByDate(merged);
    assert forall c :: c in r <==> c in merged by {
      forall c ensures c in r <==> c in merged {
        assert c in r <==> c in multiset(r);
        assert c in merged <==> c in multiset(merged);
      }
    }
    r
  }

  lemma {:induction false} DistinctAtMostOnce(cs: seq<DayCandle>, x: DayCandle)
    requires DistinctDates(cs)
    ensures multiset(cs)[x] <= 1
    decreases |cs|
  {
    if |cs| > 0 {
      var init := cs[..|cs| - 1];
      assert cs == init + [cs[|cs| - 1]];
      assert DistinctDates(init) by {
        forall i, j | 0 <= i < |init| && 0 <= j < |init| && init[i].date == init[j].date ensures i == j {
          assert cs[i] == init[i] && cs[j] == init[j];
        }
      }
      DistinctAtMostOnce(init, x);
      forall k | 0 <= k < |init| ensures init[k] != cs[|cs| - 1] {
        assert cs[k] == init[k];
      }
      assert cs[|cs| - 1] !in init;
    }
  }

  lemma TwoIndicesTwice(cs: seq<DayCandle>, i: int, j: int)
    requires 0 <= i < j < |cs|
    ensures cs[i] == cs[j] ==> multiset(cs)[cs[i]] >= 2
  {
    assert cs == cs[..j] + cs[j..];
    assert cs[i] in cs[..j];
    assert cs[j] == cs[j..][0];
    assert cs[j] in cs[j..];
    assert multiset(cs) == multiset(cs[..j]) + multiset(cs[j..]);
  }

  /** Reordering a series keeps its dates distinct. */
  lemma DistinctDatesPermutation(a: seq<DayCandle>, b: seq<DayCandle>)
    requires multiset(a) == multiset(b)
    requires DistinctDates(a)
    ensures DistinctDates(b)
  {
    forall i, j | 0 <= i < |b| && 0 <= j < |b| && i != j ensures b[i].date != b[j].date {
      var lo := if i < j then i else j;
      var hi := if i < j then j else i;
      TwoIndicesTwice(b, lo, hi);
      DistinctAtMostOnce(a, b[i]);
      assert b[i] != b[j];
      assert b[i] in multiset(a) && b[j] in multiset(a);
      var p :| 0 <= p < |a| && a[p] == b[i];
      var q :| 0 <= q < |a| && a[q] == b[j];
      assert p != q;
    }
  }

  /** A series with distinct dates keeps them distinct after today's merge,
      and then holds exactly one candle dated today: the new one. */
  lemma MergeKeepsDatesDistinct(cs: seq<DayCandle>, e: DayCandle)
    requires DistinctDates(cs)
    ensures DistinctDates(MergeToday(cs, e))
    ensures forall c :: c in MergeToday(cs, e) && c.date == e.date ==> c == e
  {
    var merged := ReplaceOrAppend(cs, e);
    ReplaceOrAppendDistinct(cs, e);
    var r := MergeToday(cs, e);
    DistinctDatesPermutation(merged, r);
    forall c | c in r && c.date == e.date ensures c == e {
      SameDateSameCandle(r, c, e);
    }
  }

  lemma ReplaceOrAppendDistinct(cs: seq<DayCandle>, e: DayCandle)
    requires DistinctDates(cs)
    ensures DistinctDates(ReplaceOrAppend(cs, e))
  {
    match FirstDated(cs, e.date)
    case Some(i) =>
      assert ReplaceOrAppend(cs, e) == cs[i := e];
    case None =>
      assert ReplaceOrAppend(cs, e) == cs + [e];
  }

  /** In a series with distinct dates, a date names at most one candle. */
  lemma SameDateSameCandle(cs: seq<DayCandle>, a: DayCandle, b: DayCandle)
    requires DistinctDates(cs)
    requires a in cs && b in cs && a.date == b.date
    ensures a == b
  {
    var k :| 0 <= k < |cs| && cs[k] == a;
    var m :| 0 <= m < |cs| && cs[m] == b;
  }

  /** Taking the same snapshot twice in one day changes nothing the second
      time. */
  lemma MergeTodayIdempotent(cs: seq<DayCandle>, e: DayCandle)
    requires DistinctDates(cs)
    ensures MergeToday(MergeToday(cs, e), e) == MergeToday(cs, e)
  {
    var r := MergeToday(cs, e);
    MergeKeepsDatesDistinct(cs, e);
    var m :| 0 <= m < |r| && r[m] == e;
    assert FirstDated(r, e.date) == Some(m);
    assert ReplaceOrAppend(r, e) == r;
    Sorting.SortBySortedIsIdentity(r, CandleDate, Text.StrLe);
  }

  // ---------------------------------------------------------------------
  // Snapshot: the whole batch of rows

  /** The (symbol, candle) pairs the rows that are not skipped yield, in row
      order; all of them are dated today. */
  function AcceptedEntries(env: Env, rows: seq<Row>, today: string): (r: seq<(string, DayCandle)>)
    ensures forall x :: x in r <==> exists i :: 0 <= i < |rows| && SnapshotEntry(env, rows[i], today) == Some(x)
    ensures forall k :: 0 <= k < |r| ==> r[k].1.date == today
  {
    var r := FilterMap(rows, row => SnapshotEntry(env, row, today));
    forall k | 0 <= k < |r| ensures r[k].1.date == today {
      assert r[k] in r;
      var i :| 0 <= i < |rows| && SnapshotEntry(env, rows[i], today) == Some(r[k]);
    }
    r
  }

  /** Some entry of the batch is for `symbol`. */
  predicate HasEntryFor(entries: seq<(string, DayCandle)>, symbol: string) {
    exists x :: x in entries && x.0 == symbol
  }

  /** The symbols a batch of entries updates. */
  function EntrySymbols(entries: seq<(string, DayCandle)>): (r: set<string>)
    ensures forall s :: s in r <==> HasEntryFor(entries, s)
  {
    set x | x in entries :: x.0
  }

  lemma EntrySymbolsStep(entries: seq<(string, DayCandle)>)
    requires |entries| > 0
    ensures EntrySymbols(entries) == EntrySymbols(entries[..|entries| - 1]) + {entries[|entries| - 1].0}
  {
    var init := entries[..|entries| - 1];
    assert entries == init + [entries[|entries| - 1]];
  }

  /** The body of the loop of `ohlc_snapshot`, applied to each contributed
      entry in order: the series map afterwards and the set of symbols
      updated. */
  function ApplyEntries(symbols: map<string, seq<DayCandle>>, entries: seq<(string, DayCandle)>)
    : (r: (map<string, seq<DayCandle>>, set<string>))
    ensures r.1 == EntrySymbols(entries)
    ensures r.0.Keys == symbols.Keys + r.1
    ensures forall s :: s in symbols && s !in r.1 ==> r.0[s] == symbols[s]
    ensures FromStoreOrEntries(symbols, r.0, entries)
    ensures KeepsNotRedated(symbols, r.0, entries)
  {
    if |entries| == 0 then (symbols, {})
    else
      var init := entries[..|entries| - 1];
      var prev := ApplyEntries(symbols, init);
      var x := entries[|entries| - 1];
      ApplyOneMore(symbols, entries, prev.0, prev.1);
      MergeEntryContents(symbols, entries, prev.0);
      (MergeEntry(prev.0, x), prev.1 + {x.0})
  }

  /** The inductive step of `ApplyEntries` for its keys: merging the last
      entry adds its symbol and leaves every series no entry updates. */
  lemma ApplyOneMore(symbols: map<string, seq<DayCandle>>, entries: seq<(string, DayCandle)>,
                     m: map<string, seq<DayCandle>>, updated: set<string>)
    requires |entries| > 0
    requires updated == EntrySymbols(entries[..|entries| - 1])
    requires m.Keys == symbols.Keys + updated
    requires forall s :: s in symbols && s !in updated ==> m[s] == symbols[s]
    ensures var x := entries[|entries| - 1];
            && updated + {x.0} == EntrySymbols(entries)
            && MergeEntry(m, x).Keys == symbols.Keys + (updated + {x.0})
            && (forall s :: s in symbols && s !in updated + {x.0} ==> MergeEntry(m, x)[s] == symbols[s])
  {
    var x := entries[|entries| - 1];
    assert updated + {x.0} == EntrySymbols(entries) by {
      EntrySymbolsStep(entries);
    }
    assert MergeEntry(m, x).Keys == symbols.Keys + (updated + {x.0}) by {
      MergeEntryFrame(m, x);
    }
    assert forall s :: s in symbols && s !in updated + {x.0} ==> MergeEntry(m, x)[s] == symbols[s] by {
      MergeEntryFrame(m, x);
    }
  }

  /** No entry of the batch for `symbol` is dated `date`, so a stored candle
      of that date is never replaced. */
  predicate NotRedated(entries: seq<(string, DayCandle)>, symbol: string, date: string) {
    forall x :: x in entries && x.0 == symbol ==> x.1.date != date
  }

  /** Every candle of `m` was stored in `symbols` or comes from an entry. */
  ghost predicate FromStoreOrEntries(symbols: map<string, seq<DayCandle>>, m: map<string, seq<DayCandle>>,
                                     entries: seq<(string, DayCandle)>) {
    forall s, c :: s in m && c in m[s] ==> c in Series(symbols, s) || (s, c) in entries
  }

  /** Every stored candle that no entry for its symbol redates is kept in `m`. */
  ghost predicate KeepsNotRedated(symbols: map<string, seq<DayCandle>>, m: map<string, seq<DayCandle>>,
                                  entries: seq<(string, DayCandle)>) {
    forall s, c :: s in symbols && c in symbols[s] && NotRedated(entries, s, c.date) ==> s in m && c in m[s]
  }

  /** One merge step keeps the contents promised by `ApplyEntries`. */
  lemma MergeEntryContents(symbols: map<string, seq<DayCandle>>, entries: seq<(string, DayCandle)>,
                           m: map<string, seq<DayCandle>>)
    requires |entries| > 0
    requires symbols.Keys <= m.Keys
    requires FromStoreOrEntries(symbols, m, entries[..|entries| - 1])
    requires KeepsNotRedated(symbols, m, entries[..|entries| - 1])
    ensures FromStoreOrEntries(symbols, MergeEntry(m, entries[|entries| - 1]), entries)
    ensures KeepsNotRedated(symbols, MergeEntry(m, entries[|entries| - 1]), entries)
  {
    MergeFromStoreOrEntries(symbols, entries, m);
    MergeKeepsNotRedated(symbols, entries, m);
  }

  lemma PrefixMember(entries: seq<(string, DayCandle)>, y: (string, DayCandle))
    requires |entries| > 0 && y in entries[..|entries| - 1]
    ensures y in entries
  {
    var i :| 0 <= i < |entries| - 1 && entries[..|entries| - 1][i] == y;
    assert entries[i] == y;
  }

  lemma MergeFromStoreOrEntries(symbols: map<string, seq<DayCandle>>, entries: seq<(string, DayCandle)>,
                                m: map<string, seq<DayCandle>>)
    requires |entries| > 0
    requires FromStoreOrEntries(symbols, m, entries[..|entries| - 1])
    ensures FromStoreOrEntries(symbols, MergeEntry(m, entries[|entries| - 1]), entries)
  {
    var x := entries[|entries| - 1];
    var m' := MergeEntry(m, x);
    MergeEntryFrame(m, x);
    forall s, c | s in m' && c in m'[s] ensures c in Series(symbols, s) || (s, c) in entries {
      if s == x.0 && c == x.1 {
        assert entries[|entries| - 1] == (s, c);
      } else {
        if s == x.0 {
          assert c in Series(m, s);
        } else {
          assert m'[s] == m[s];
        }
        if (s, c) in entries[..|entries| - 1] {
          PrefixMember(entries, (s, c));
        }
      }
    }
  }

  lemma MergeKeepsNotRedated(symbols: map<string, seq<DayCandle>>, entries: seq<(string, DayCandle)>,
                             m: map<string, seq<DayCandle>>)
    requires |entries| > 0
    requires symbols.Keys <= m.Keys
    requires KeepsNotRedated(symbols, m, entries[..|entries| - 1])
    ensures KeepsNotRedated(symbols, MergeEntry(m, entries[|entries| - 1]), entries)
  {
    var x := entries[|entries| - 1];
    var m' := MergeEntry(m, x);
    MergeEntryFrame(m, x);
    forall s, c | s in symbols && c in symbols[s] && NotRedated(entries, s, c.date) ensures s in m' && c in m'[s] {
      assert NotRedated(entries[..|entries| - 1], s, c.date) by {
        forall y | y in entries[..|entries| - 1] && y.0 == s ensures y.1.date != c.date {
          PrefixMember(entries, y);
        }
      }
      if s == x.0 {
        assert x in entries;
        assert x.1.date != c.date;
        assert c in Series(m, s);
      } else {
        assert m'[s] == m[s];
      }
    }
  }

  /** A symbol is updated exactly when some row of the batch is not skipped
      and carries that symbol. */
  lemma UpdatedSymbols(env: Env, rows: seq<Row>, today: string, symbol: string)
    ensures symbol in EntrySymbols(AcceptedEntries(env, rows, today)) <==>
              exists i :: 0 <= i < |rows| && SnapshotEntry(env, rows[i], today).Some?
                                          && SnapshotEntry(env, rows[i], today).value.0 == symbol
  {
    var entries := AcceptedEntries(env, rows, today);
    if symbol in EntrySymbols(entries) {
      var x :| x in entries && x.0 == symbol;
      var i :| 0 <= i < |rows| && SnapshotEntry(env, rows[i], today) == Some(x);
    }
    if exists i :: 0 <= i < |rows| && SnapshotEntry(env, rows[i], today).Some?
                                    && SnapshotEntry(env, rows[i], today).value.0 == symbol {
      var i :| 0 <= i < |rows| && SnapshotEntry(env, rows[i], today).Some?
                               && SnapshotEntry(env, rows[i], today).value.0 == symbol;
      assert SnapshotEntry(env, rows[i], today).value in entries;
    }
  }

  /** Some row of the batch yields the entry `(symbol, c)`. */
  predicate RowYields(env: Env, rows: seq<Row>, today: string, symbol: string, c: DayCandle) {
    exists i :: 0 <= i < |rows| && SnapshotEntry(env, rows[i], today) == Some((symbol, c))
  }

  /** Every candle of `before` dated other than `today` is still in `after`. */
  ghost predicate KeepsOtherDays(before: map<string, seq<DayCandle>>, after: map<string, seq<DayCandle>>, today: string) {
    forall s, c :: s in before && c in before[s] && c.date != today ==> c in Series(after, s)
  }

  /** Every candle of `after` was in `before`, or is dated `today` and
      yielded by a row of the batch. */
  ghost predicate StoredOrFromRows(env: Env, before: map<string, seq<DayCandle>>, after: map<string, seq<DayCandle>>,
                                   rows: seq<Row>, today: string) {
    forall s, c :: s in after && c in after[s] ==>
      || c in Series(before, s)
      || (c.date == today && RowYields(env, rows, today, s, c))
  }

  /** `ohlc_snapshot`: the store afterwards, stamped `stamp`, and the
      `symbolsUpdated` count: the number of distinct symbols among the rows
      that were not skipped.  Symbols no row updates keep their series. */
  function Snapshot(env: Env, store: Store, rows: seq<Row>, today: string, stamp: string): (r: (Store, nat))
    ensures r.0.updatedAt == Some(stamp)
    ensures r.1 == |EntrySymbols(AcceptedEntries(env, rows, today))|
    ensures r.0.symbols.Keys == store.symbols.Keys + EntrySymbols(AcceptedEntries(env, rows, today))
    ensures forall s :: s in store.symbols && s !in EntrySymbols(AcceptedEntries(env, rows, today)) ==>
              r.0.symbols[s] == store.symbols[s]
    ensures KeepsOtherDays(store.symbols, r.0.symbols, today)
    ensures StoredOrFromRows(env, store.symbols, r.0.symbols, rows, today)
  {
    var applied := ApplyEntries(store.symbols, AcceptedEntries(env, rows, today));
    SnapshotContents(env, store.symbols, rows, today);
    (Store(Some(stamp), applied.0), |applied.1|)
  }

  /** Every candle after a snapshot was stored before or comes from a row
      dated today, and no stored candle of another day is lost. */
  lemma SnapshotContents(env: Env, symbols: map<string, seq<DayCandle>>, rows: seq<Row>, today: string)
    ensures KeepsOtherDays(symbols, ApplyEntries(symbols, AcceptedEntries(env, rows, today)).0, today)
    ensures StoredOrFromRows(env, symbols, ApplyEntries(symbols, AcceptedEntries(env, rows, today)).0, rows, today)
  {
    var entries := AcceptedEntries(env, rows, today);
    forall x | x in entries ensures x.1.date == today {
      var k :| 0 <= k < |entries| && entries[k] == x;
    }
    forall s, c | s in symbols && c in symbols[s] && c.date != today ensures NotRedated(entries, s, c.date) {
    }
  }

  /** After a snapshot every updated symbol's series is sorted by date and
      has a candle dated today, given that every entry is dated today. */
  ghost predicate UpdatedToday(cs: seq<DayCandle>, today: string) {
    SortedByDate(cs) && exists c :: c in cs && c.date == today
  }

  /** Merging entry `x` into `m`. */
  function MergeEntry(m: map<string, seq<DayCandle>>, x: (string, DayCandle)): map<string, seq<DayCandle>> {
    m[x.0 := MergeToday(Series(m, x.0), x.1)]
  }

  lemma MergeEntryFrame(m: map<string, seq<DayCandle>>, x: (string, DayCandle))
    ensures MergeEntry(m, x).Keys == m.Keys + {x.0}
    ensures forall s :: s != x.0 && s in m ==> MergeEntry(m, x)[s] == m[s]
  {
  }

  lemma ApplyEntriesStep(symbols: map<string, seq<DayCandle>>, entries: seq<(string, DayCandle)>)
    requires |entries| > 0
    ensures var prev := ApplyEntries(symbols, entries[..|entries| - 1]);
            var x := entries[|entries| - 1];
            ApplyEntries(symbols, entries) == (MergeEntry(prev.0, x), prev.1 + {x.0})
  {
  }

  lemma MergeEntryUpdatesToday(m: map<string, seq<DayCandle>>, updated: set<string>, x: (string, DayCandle), today: string)
    requires updated <= m.Keys
    requires forall s :: s in updated ==> UpdatedToday(m[s], today)
    requires x.1.date == today
    ensures forall s :: s in updated + {x.0} ==> UpdatedToday(MergeEntry(m, x)[s], today)
  {
    var series := MergeToday(Series(m, x.0), x.1);
    assert x.1 in series;
    assert UpdatedToday(series, today);
    forall s | s in updated + {x.0} ensures UpdatedToday(MergeEntry(m, x)[s], today) {
      if s != x.0 {
        assert MergeEntry(m, x)[s] == m[s];
      }
    }
  }

  lemma {:induction false} ApplyEntriesUpdatesToday(symbols: map<string, seq<DayCandle>>,
                                                   entries: seq<(string, DayCandle)>, today: string)
    requires forall i :: 0 <= i < |entries| ==> entries[i].1.date == today
    ensures var r := ApplyEntries(symbols, entries);
            forall s :: s in r.1 ==> UpdatedToday(r.0[s], today)
    decreases |entries|
  {
    if |entries| > 0 {
      var init := entries[..|entries| - 1];
      ApplyEntriesUpdatesToday(symbols, init, today);
      ApplyEntriesStep(symbols, entries);
      var prev := ApplyEntries(symbols, init);
      MergeEntryUpdatesToday(prev.0, prev.1, entries[|entries| - 1], today);
    }
  }

  /** The candle of the last entry for `symbol` (meaningful only when there
      is one). */
  function LastEntry(entries: seq<(string, DayCandle)>, symbol: string): DayCandle {
    if |entries| == 0 then DayCandle("", 0.0, 0.0, 0.0, 0.0, 0.0)
    else if entries[|entries| - 1].0 == symbol then entries[|entries| - 1].1
    else LastEntry(entries[..|entries| - 1], symbol)
  }

  lemma MergeEntryKeepsDatesDistinct(m: map<string, seq<DayCandle>>, x: (string, DayCandle))
    requires forall s :: s in m ==> DistinctDates(m[s])
    ensures forall s :: s in MergeEntry(m, x) ==> DistinctDates(MergeEntry(m, x)[s])
  {
    MergeKeepsDatesDistinct(Series(m, x.0), x.1);
  }

  lemma MergeEntryLastWins(m: map<string, seq<DayCandle>>, updated: set<string>,
                           init: seq<(string, DayCandle)>, x: (string, DayCandle), today: string)
    requires updated <= m.Keys
    requires forall s :: s in m ==> DistinctDates(m[s])
    requires forall s, c :: s in updated && c in m[s] && c.date == today ==> c == LastEntry(init, s)
    requires x.1.date == today
    ensures forall s, c :: s in updated + {x.0} && c in MergeEntry(m, x)[s] && c.date == today ==>
              c == LastEntry(init + [x], s)
  {
    MergeKeepsDatesDistinct(Series(m, x.0), x.1);
    forall s, c | s in updated + {x.0} && c in MergeEntry(m, x)[s] && c.date == today
      ensures c == LastEntry(init + [x], s)
    {
      LastEntryStep(init, x, s);
    }
  }

  lemma LastEntryStep(init: seq<(string, DayCandle)>, x: (string, DayCandle), s: string)
    ensures LastEntry(init + [x], s) == if x.0 == s then x.1 else LastEntry(init, s)
  {
    var entries := init + [x];
    assert entries[..|entries| - 1] == init;
  }

  /** Every series keeps distinct dates through a snapshot, and afterwards
      the one candle an updated symbol has for today comes from the last row
      of the batch for that symbol. */
  lemma {:induction false} ApplyEntriesKeepsDatesDistinct(symbols: map<string, seq<DayCandle>>,
                                                         entries: seq<(string, DayCandle)>, today: string)
    requires forall s :: s in symbols ==> DistinctDates(symbols[s])
    requires forall i :: 0 <= i < |entries| ==> entries[i].1.date == today
    ensures var r := ApplyEntries(symbols, entries);
            forall s :: s in r.0 ==> DistinctDates(r.0[s])
    ensures var r := ApplyEntries(symbols, entries);
            forall s, c :: s in r.1 && c in r.0[s] && c.date == today ==> c == LastEntry(entries, s)
    decreases |entries|
  {
    if |entries| > 0 {
      var init := entries[..|entries| - 1];
      var x := entries[|entries| - 1];
      assert init + [x] == entries;
      ApplyEntriesKeepsDatesDistinct(symbols, init, today);
      ApplyEntriesStep(symbols, entries);
      var prev := ApplyEntries(symbols, init);
      MergeEntryKeepsDatesDistinct(prev.0, x);
      MergeEntryLastWins(prev.0, prev.1, init, x, today);
    }
  }

  /** A snapshot keeps every series free of repeated dates. */
  lemma SnapshotKeepsDatesDistinct(env: Env, store: Store, rows: seq<Row>, today: string, stamp: string)
    requires forall s :: s in store.symbols ==> DistinctDates(store.symbols[s])
    ensures var r := Snapshot(env, store, rows, today, stamp).0;
            forall s :: s in r.symbols ==> DistinctDates(r.symbols[s])
  {
    var entries := AcceptedEntries(env, rows, today);
    ApplyEntriesKeepsDatesDistinct(store.symbols, entries, today);
    SnapshotSymbols(env, store, rows, today, stamp);
  }

  /** The snapshot's series are those of applying its accepted entries. */
  lemma SnapshotSymbols(env: Env, store: Store, rows: seq<Row>, today: string, stamp: string)
    ensures Snapshot(env, store, rows, today, stamp).0.symbols ==
            ApplyEntries(store.symbols, AcceptedEntries(env, rows, today)).0
  {
  }

  /** After a snapshot each updated symbol's series is sorted by date and
      holds a candle dated today. */
  lemma SnapshotUpdatesToday(env: Env, store: Store, rows: seq<Row>, today: string, stamp: string, symbol: string)
    requires symbol in EntrySymbols(AcceptedEntries(env, rows, today))
    ensures var r := Snapshot(env, store, rows, today, stamp).0;
            symbol in r.symbols && UpdatedToday(r.symbols[symbol], today)
  {
    var entries := AcceptedEntries(env, rows, today);
    ApplyEntriesUpdatesToday(store.symbols, entries, today);
    SnapshotSymbols(env, store, rows, today, stamp);
  }

  /** When the series had distinct dates before, an updated symbol ends the
      snapshot with exactly one candle dated today, built from the last row
      of the batch for that symbol. */
  lemma SnapshotLastRowWins(env: Env, store: Store, rows: seq<Row>, today: string, stamp: string, symbol: string)
    requires forall s :: s in store.symbols ==> DistinctDates(store.symbols[s])
    requires symbol in EntrySymbols(AcceptedEntries(env, rows, today))
    ensures var r := Snapshot(env, store, rows, today, stamp).0;
            symbol in r.symbols &&
            forall c :: c in r.symbols[symbol] && c.date == today ==> c == LastEntry(AcceptedEntries(env, rows, today), symbol)
  {
    var entries := AcceptedEntries(env, rows, today);
    ApplyEntriesKeepsDatesDistinct(store.symbols, entries, today);
    SnapshotSymbols(env, store, rows, today, stamp);
  }

  // ---------------------------------------------------------------------
  // History read

  /** `candles_sorted[-limit:]` for a positive `limit`: the last `limit`
      candles, or all of them when there are fewer. */
  function Newest(cs: seq<DayCandle>, limit: int): (r: seq<DayCandle>)
    requires limit > 0
    ensures |r| == if limit < |cs| then limit else |cs|
    ensures r == cs[|cs| - |r|..]
  {
    if limit >= |cs| then cs else cs[|cs| - limit..]
  }

  /** `/api/ohlc/history?symbol=...&limit=...`: a symbol is required and
      upper-cased; `limit` defaults to `"90"` and must read as an integer; the
      symbol's candles (none when it is unknown) sorted by date, cut to the
      newest `limit` when `limit` is positive. */
  function ReadHistory(store: Store, symbolParam: Option<string>, limitParam: Option<string>)
    : (r: Result<(string, seq<DayCandle>), string>)
    ensures r.Failure? <==> Text.Upper(symbolParam.GetOr("")) == "" || Text.ParseInt(limitParam.GetOr("90")).None?
    ensures r.Success? ==> r.value.0 == Text.Upper(symbolParam.GetOr(""))
    ensures r.Success? ==>
              var all := SortByDate(Series(store.symbols, r.value.0));
              var limit := Text.ParseInt(limitParam.GetOr("90")).value;
              && |r.value.1| == (if 0 < limit < |all| then limit else |all|)
              && SortedByDate(r.value.1)
              && r.value.1 == all[|all| - |r.value.1|..]
  {
    var symbol := Text.Upper(symbolParam.GetOr(""));
    if symbol == "" then Failure("symbol is required")
    else match Text.ParseInt(limitParam.GetOr("90"))
      case None => Failure("limit must be an integer")
      case Some(limit) =>
        var all := SortByDate(Series(store.symbols, symbol));
        var cs := if limit > 0 then Newest(all, limit) else all;
        SuffixSorted(all, |all| - |cs|);
        assert cs == all[|all| - |cs|..];
        Success((symbol, cs))
  }

  /** Without a `limit` parameter the read returns the newest 90 candles. */
  lemma DefaultLimitIsNinety(store: Store, symbol: string)
    requires Text.Upper(symbol) != ""
    ensures Text.ParseInt("90") == Some(90)
    ensures ReadHistory(store, Some(symbol), None).Success?
    ensures |ReadHistory(store, Some(symbol), None).value.1| ==
              if 90 < |Series(store.symbols, Text.Upper(symbol))| then 90 else |Series(store.symbols, Text.Upper(symbol))|
  {
    Text.ParseNinety();
  }
}

=== FILE: indicators.dfy ===
/** The indicator engine of read_data.py: SMA, EMA, Wilder RSI, MACD and
    Bollinger bands over a close series with aligned timestamps, and the
    dispatch from indicator names to series.

    Every series is a suffix of the input times: a windowed indicator of
    period p emits nothing for the first p - 1 closes (p for RSI) instead of
    emitting empty points.  Prices are reals, so the finite-number guard of
    `_safe_json_number` never fires here. */
module Indicators {
  import opened Wrappers
  import opened Averages
  import Normalizer

  /** `{"time": t, "value": v}`. */
  datatype Point = Point(time: int, value: real)

  // ---------------------------------------------------------------- SMA

  /** The loop of `_sma` from index `j` on, `windowSum` being the running sum
      of the `period` closes that end just before `j`. */
  function SmaFrom(values: seq<real>, period: int, times: seq<int>, j: int, windowSum: real): (r: seq<Point>)
    requires 1 <= period <= j <= |values| == |times|
    requires windowSum == Sum(values[j - period..j])
    ensures |r| == |values| - j + 1
    ensures forall k :: 0 <= k < |r| ==> r[k] == Point(times[j - 1 + k], Mean(values[j - period + k..j + k]))
    decreases |values| - j
  {
    var p := Point(times[j - 1], windowSum / period as real);
    if j == |values| then [p]
    else
      SlideWindow(values, j - period, j);
      [p] + SmaFrom(values, period, times, j + 1, windowSum + (values[j] - values[j - period]))
  }

  /** `_sma`: nothing when there are fewer closes than the period; otherwise
      one point per full window, stamped with the time of the window's last
      close, whose value is the mean of the window.  The running sum the
      source keeps gives exactly these means. */
  function Sma(values: seq<real>, period: int, times: seq<int>): (r: seq<Point>)
    requires period >= 1 && |values| == |times|
    ensures |values| < period ==> r == []
    ensures |values| >= period ==> |r| == |values| - period + 1
    ensures forall k :: 0 <= k < |r| ==> r[k] == Point(times[period - 1 + k], Mean(values[k..k + period]))
  {
    if |values| < period then []
    else
      assert values[..period] == values[0..period];
      SmaFrom(values, period, times, period, Sum(values[..period]))
  }

  // ---------------------------------------------------------------- EMA

  /** `2 / (period + 1)`. */
  function Multiplier(period: int): (m: real)
    requires period >= 1
    ensures 0.0 < m <= 1.0
  {
    2.0 / (period + 1) as real
  }

  /** One EMA step: move from `prev` toward `price` by the multiplier. */
  function EmaStep(prev: real, price: real, period: int): real
    requires period >= 1
  {
    (price - prev) * Multiplier(period) + prev
  }

  /** The EMA values of `_ema_values_only`'s loop from index `j` on. */
  function EmaFrom(values: seq<real>, period: int, j: int, prev: real): (r: seq<real>)
    requires 1 <= period <= j <= |values|
    ensures |r| == |values| - j + 1
    ensures r[0] == prev
    ensures forall k :: 0 <= k < |r| - 1 ==> r[k + 1] == EmaStep(r[k], values[j + k], period)
    decreases |values| - j
  {
    if j == |values| then [prev]
    else [prev] + EmaFrom(values, period, j + 1, EmaStep(prev, values[j], period))
  }

  /** The value list of `_ema_values_only` (its start index is always
      `period - 1`): empty below `period` closes; otherwise seeded with the
      mean of the first window, then one EMA step per further close. */
  function EmaValues(values: seq<real>, period: int): (r: seq<real>)
    requires period >= 1
    ensures |values| < period ==> r == []
    ensures |values| >= period ==> |r| == |values| - period + 1 && r[0] == Mean(values[..period])
    ensures forall k :: 0 <= k < |r| - 1 ==> r[k + 1] == EmaStep(r[k], values[period + k], period)
  {
    if |values| < period then [] else EmaFrom(values, period, period, Sum(values[..period]) / period as real)
  }

  /** The EMA at input index `idx`. */
  function EmaAt(values: seq<real>, period: int, idx: int): real
    requires 1 <= period <= idx + 1 <= |values|
  {
    EmaValues(values, period)[idx - (period - 1)]
  }

  /** The loop of `_ema` from index `j` on. */
  function EmaPointsFrom(values: seq<real>, period: int, times: seq<int>, j: int, prev: real): (r: seq<Point>)
    requires 1 <= period <= j <= |values| == |times|
    ensures |r| == |values| - j + 1
    ensures forall k :: 0 <= k < |r| ==> r[k] == Point(times[j - 1 + k], EmaFrom(values, period, j, prev)[k])
    decreases |values| - j
  {
    var p := Point(times[j - 1], prev);
    if j == |values| then [p]
    else [p] + EmaPointsFrom(values, period, times, j + 1, EmaStep(prev, values[j], period))
  }

  /** `_ema`: it repeats the arithmetic of `_ema_values_only` while stamping
      times, and its points are exactly those values at `times[period-1..]`. */
  function Ema(values: seq<real>, period: int, times: seq<int>): (r: seq<Point>)
    requires period >= 1 && |values| == |times|
    ensures |values| < period ==> r == []
    ensures |values| >= period ==> |r| == |values| - period + 1
    ensures forall k :: 0 <= k < |r| ==> r[k] == Point(times[period - 1 + k], EmaValues(values, period)[k])
  {
    if |values| < period then []
    else EmaPointsFrom(values, period, times, period, Sum(values[..period]) / period as real)
  }

  /** The EMA is seeded with the simple average of the first window. */
  lemma EmaSeedIsFirstSma(values: seq<real>, period: int, times: seq<int>)
    requires period >= 1 && |values| == |times| >= period
    ensures Ema(values, period, times)[0].value == Sma(values, period, times)[0].value
  {
    assert values[0..period] == values[..period];
  }

  /** An EMA step never overshoots: the new value lies between the previous
      value and the new price. */
  lemma EmaStepBetween(prev: real, price: real, period: int)
    requires period >= 1
    ensures prev <= price ==> prev <= EmaStep(prev, price, period) <= price
    ensures price <= prev ==> price <= EmaStep(prev, price, period) <= prev
  {
    var m := Multiplier(period);
    var d := price - prev;
    if d >= 0.0 {
      assert 0.0 <= d * m <= d;
    } else {
      assert d <= d * m <= 0.0;
    }
  }

  /** Every EMA value after the seed lies between the previous EMA value and
      the close it absorbed. */
  lemma EmaNoOvershoot(values: seq<real>, period: int, k: int)
    requires period >= 1
    requires 0 <= k < |EmaValues(values, period)| - 1
    ensures var r := EmaValues(values, period); var x := values[period + k];
            && (r[k] <= x ==> r[k] <= r[k + 1] <= x)
            && (x <= r[k] ==> x <= r[k + 1] <= r[k])
  {
    var r := EmaValues(values, period);
    EmaStepBetween(r[k], values[period + k], period);
  }

  // ---------------------------------------------------------------- RSI

  function Gain(d: real): (r: real)
    ensures r >= 0.0
  {
    if d > 0.0 then d else 0.0
  }

  function Loss(d: real): (r: real)
    ensures r >= 0.0
  {
    if d < 0.0 then -d else 0.0
  }

  /** `gains` of `_rsi_wilder`: the rise from each close to the next. */
  function Gains(values: seq<real>): (r: seq<real>)
    requires |values| >= 1
    ensures |r| == |values| - 1
    ensures forall i :: 0 <= i < |r| ==> r[i] == Gain(values[i + 1] - values[i])
  {
    seq(|values| - 1, i requires 0 <= i < |values| - 1 => Gain(values[i + 1] - values[i]))
  }

  /** `losses` of `_rsi_wilder`: the fall from each close to the next. */
  function Losses(values: seq<real>): (r: seq<real>)
    requires |values| >= 1
    ensures |r| == |values| - 1
    ensures forall i :: 0 <= i < |r| ==> r[i] == Loss(values[i + 1] - values[i])
  {
    seq(|values| - 1, i requires 0 <= i < |values| - 1 => Loss(values[i + 1] - values[i]))
  }

  /** Wilder's average of `xs` after its first `i` entries: the plain mean of
      the first `period`, then `(avg * (period - 1) + x) / period` per entry. */
  function WilderAverage(xs: seq<real>, period: int, i: int): real
    requires 1 <= period <= i <= |xs|
    decreases i
  {
    if i == period then Mean(xs[..period])
    else WilderNext(WilderAverage(xs, period, i - 1), xs[i - 1], period)
  }

  /** One step of Wilder's smoothing: `(avg * (period - 1) + x) / period`. */
  function WilderNext(avg: real, x: real, period: int): real
    requires period >= 1
  {
    (avg * (period - 1) as real + x) / period as real
  }

  /** `100 - 100 / (1 + RS)`, with `RS` infinite (so the value is 100) when
      the average loss is zero. */
  function RsiValue(avgGain: real, avgLoss: real): real
    requires avgGain >= 0.0 && avgLoss >= 0.0
  {
    if avgLoss == 0.0 then 100.0 else 100.0 - 100.0 / (1.0 + avgGain / avgLoss)
  }

  /** The loop of `_rsi_wilder` from gain index `i` on. */
  function RsiFrom(gains: seq<real>, losses: seq<real>, period: int, times: seq<int>,
                   i: int, avgGain: real, avgLoss: real): (r: seq<Point>)
    requires 1 <= period <= i <= |gains| == |losses| && |times| == |gains| + 1
    requires forall j :: 0 <= j < |gains| ==> gains[j] >= 0.0 && losses[j] >= 0.0
    requires avgGain == WilderAverage(gains, period, i) && avgLoss == WilderAverage(losses, period, i)
    ensures |r| == |gains| - i + 1
    ensures forall k :: 0 <= k < |r| ==> r[k] == Point(times[i + k], WilderRsi(gains, losses, period, i + k))
    decreases |gains| - i
  {
    var p := Point(times[i], WilderRsi(gains, losses, period, i));
    if i == |gains| then [p]
    else
      var nextGain := WilderNext(avgGain, gains[i], period);
      var nextLoss := WilderNext(avgLoss, losses[i], period);
      var rest := RsiFrom(gains, losses, period, times, i + 1, nextGain, nextLoss);
      assert forall k :: 1 <= k < |rest| + 1 ==> ([p] + rest)[k] == rest[k - 1];
      [p] + rest
  }

  /** The RSI once the first `idx` gains and losses are averaged. */
  function WilderRsi(gains: seq<real>, losses: seq<real>, period: int, idx: int): real
    requires 1 <= period <= idx <= |gains| == |losses|
    requires forall j :: 0 <= j < |gains| ==> gains[j] >= 0.0 && losses[j] >= 0.0
  {
    WilderAverageNonNegative(gains, period, idx);
    WilderAverageNonNegative(losses, period, idx);
    RsiValue(WilderAverage(gains, period, idx), WilderAverage(losses, period, idx))
  }

  /** The RSI value at close index `idx`. */
  function RsiAt(values: seq<real>, period: int, idx: int): real
    requires 1 <= period <= idx < |values|
  {
    WilderRsi(Gains(values), Losses(values), period, idx)
  }

  /** `_rsi_wilder`: nothing unless there are more closes than the period;
      otherwise one point per close from index `period` on, each in
      [0, 100]. */
  function Rsi(values: seq<real>, period: int, times: seq<int>): (r: seq<Point>)
    requires period >= 1 && |values| == |times|
    ensures |values| <= period ==> r == []
    ensures |values| > period ==> |r| == |values| - period
    ensures forall k :: 0 <= k < |r| ==> r[k] == Point(times[period + k], RsiAt(values, period, period + k))
    ensures forall k :: 0 <= k < |r| ==> 0.0 <= r[k].value <= 100.0
  {
    if |values| <= period then []
    else
      var gains := Gains(values);
      var losses := Losses(values);
      RsiInRange(values, period);
      RsiFrom(gains, losses, period, times, period, Sum(gains[..period]) / period as real, Sum(losses[..period]) / period as real)
  }

  lemma {:induction false} WilderAverageNonNegative(xs: seq<real>, period: int, i: int)
    requires 1 <= period <= i <= |xs|
    requires forall j :: 0 <= j < |xs| ==> xs[j] >= 0.0
    ensures WilderAverage(xs, period, i) >= 0.0
    decreases i
  {
    if i == period {
      SumNonNegative(xs[..period]);
    } else {
      WilderAverageNonNegative(xs, period, i - 1);
    }
  }

  lemma {:induction false} WilderAverageZero(xs: seq<real>, period: int, i: int)
    requires 1 <= period <= i <= |xs|
    requires forall j :: 0 <= j < |xs| ==> xs[j] == 0.0
    ensures WilderAverage(xs, period, i) == 0.0
    decreases i
  {
    if i == period {
      SumZero(xs[..period]);
    } else {
      WilderAverageZero(xs, period, i - 1);
    }
  }

  lemma {:induction false} WilderAveragePositive(xs: seq<real>, period: int, i: int)
    requires 1 <= period <= i <= |xs|
    requires forall j :: 0 <= j < |xs| ==> xs[j] > 0.0
    ensures WilderAverage(xs, period, i) > 0.0
    decreases i
  {
    if i == period {
      SumPositive(xs[..period]);
    } else {
      WilderAveragePositive(xs, period, i - 1);
    }
  }

  /** With non-negative averages the RSI lies in [0, 100]; it is exactly 100
      when the average loss is zero. */
  lemma RsiValueBounds(avgGain: real, avgLoss: real)
    requires avgGain >= 0.0 && avgLoss >= 0.0
    ensures 0.0 <= RsiValue(avgGain, avgLoss) <= 100.0
    ensures avgLoss == 0.0 ==> RsiValue(avgGain, avgLoss) == 100.0
  {
    if avgLoss > 0.0 {
      var rs := avgGain / avgLoss;
      assert rs >= 0.0;
      var q := 100.0 / (1.0 + rs);
      assert q * (1.0 + rs) == 100.0;
      assert 0.0 < q <= 100.0;
    }
  }

  lemma RsiInRange(values: seq<real>, period: int)
    requires 1 <= period < |values|
    ensures forall idx :: period <= idx < |values| ==> 0.0 <= RsiAt(values, period, idx) <= 100.0
  {
    forall idx | period <= idx < |values|
      ensures 0.0 <= RsiAt(values, period, idx) <= 100.0
    {
      WilderAverageNonNegative(Gains(values), period, idx);
      WilderAverageNonNegative(Losses(values), period, idx);
      RsiValueBounds(WilderAverage(Gains(values), period, idx), WilderAverage(Losses(values), period, idx));
    }
  }

  /** A series that never falls has RSI 100 throughout. */
  lemma RsiOfRisingSeries(values: seq<real>, period: int, times: seq<int>)
    requires period >= 1 && |values| == |times|
    requires forall i :: 0 <= i < |values| - 1 ==> values[i] <= values[i + 1]
    ensures forall k :: 0 <= k < |Rsi(values, period, times)| ==> Rsi(values, period, times)[k].value == 100.0
  {
    if |values| > period {
      forall idx | period <= idx < |values| ensures RsiAt(values, period, idx) == 100.0 {
        WilderAverageZero(Losses(values), period, idx);
      }
    }
  }

  /** A series that falls at every step has RSI 0 throughout. */
  lemma RsiOfFallingSeries(values: seq<real>, period: int, times: seq<int>)
    requires period >= 1 && |values| == |times|
    requires forall i :: 0 <= i < |values| - 1 ==> values[i] > values[i + 1]
    ensures forall k :: 0 <= k < |Rsi(values, period, times)| ==> Rsi(values, period, times)[k].value == 0.0
  {
    if |values| > period {
      forall idx | period <= idx < |values| ensures RsiAt(values, period, idx) == 0.0 {
        WilderAverageZero(Gains(values), period, idx);
        WilderAveragePositive(Losses(values), period, idx);
      }
    }
  }

  // ---------------------------------------------------------------- MACD

  const FastPeriod := 12
  const SlowPeriod := 26
  const SignalPeriod := 9
  /** The first input index at which MACD, signal and histogram exist. */
  const MacdFirstIndex := SlowPeriod - 1 + SignalPeriod - 1

  datatype MacdSeries = MacdSeries(macd: seq<Point>, signal: seq<Point>, hist: seq<Point>)

  function Max(a: int, b: int): int {
    if a >= b then a else b
  }

  function Min(a: int, b: int): int {
    if a <= b then a else b
  }

  /** The MACD line: fast EMA minus slow EMA at every input index from the
      slow EMA's first on. */
  function MacdLine(values: seq<real>): (r: seq<real>)
    requires |values| >= SlowPeriod
    ensures |r| == |values| - (SlowPeriod - 1)
  {
    seq(|values| - (SlowPeriod - 1), i requires 0 <= i < |values| - (SlowPeriod - 1) =>
      EmaAt(values, FastPeriod, SlowPeriod - 1 + i) - EmaAt(values, SlowPeriod, SlowPeriod - 1 + i))
  }

  /** `_macd`.  All three series are empty below 34 closes; otherwise they
      have one point per close from index 33 on, with identical times; the
      MACD value is the difference of the two EMAs at the same close, the
      signal is the 9-period EMA of the MACD line, and the histogram is their
      difference. */
  function Macd(values: seq<real>, times: seq<int>): (r: MacdSeries)
    requires |values| == |times|
    ensures |r.macd| == |r.signal| == |r.hist|
    ensures |values| <= MacdFirstIndex ==> r == MacdSeries([], [], [])
    ensures |values| > MacdFirstIndex ==> |r.macd| == |values| - MacdFirstIndex
    ensures forall k :: 0 <= k < |r.macd| ==>
              && r.macd[k].time == times[MacdFirstIndex + k]
              && r.signal[k].time == times[MacdFirstIndex + k]
              && r.hist[k].time == times[MacdFirstIndex + k]
    ensures forall k :: 0 <= k < |r.macd| ==>
              r.macd[k].value == EmaAt(values, FastPeriod, MacdFirstIndex + k) - EmaAt(values, SlowPeriod, MacdFirstIndex + k)
    ensures forall k :: 0 <= k < |r.macd| ==> r.signal[k].value == EmaValues(MacdLine(values), SignalPeriod)[k]
    ensures forall k :: 0 <= k < |r.macd| ==> r.hist[k].value == r.macd[k].value - r.signal[k].value
  {
    var (line, lineTimes) := AlignedLine(values, times);
    var signal := EmaValues(line, SignalPeriod);
    var signalOffset := SignalPeriod - 1;
    if |signal| == 0 then MacdSeries([], [], [])
    else
      MacdSeries(
        seq(|signal|, i requires 0 <= i < |signal| => Point(lineTimes[i + signalOffset], line[i + signalOffset])),
        seq(|signal|, i requires 0 <= i < |signal| => Point(lineTimes[i + signalOffset], signal[i])),
        seq(|signal|, i requires 0 <= i < |signal| => Point(lineTimes[i + signalOffset], line[i + signalOffset] - signal[i])))
  }

  /** The first half of `_macd`: the two EMAs aligned on the slow one's
      first index and subtracted, with the times of those closes. */
  function AlignedLine(values: seq<real>, times: seq<int>): (r: (seq<real>, seq<int>))
    requires |values| == |times|
    ensures |r.0| == |r.1|
    ensures |values| < SlowPeriod ==> r.0 == []
    ensures |values| >= SlowPeriod ==> r.0 == MacdLine(values)
    ensures forall i :: 0 <= i < |r.1| ==> r.1[i] == times[SlowPeriod - 1 + i]
  {
    var ema12 := EmaValues(values, FastPeriod);
    var start12 := FastPeriod - 1;
    var ema26 := EmaValues(values, SlowPeriod);
    var start26 := SlowPeriod - 1;
    if |ema12| == 0 || |ema26| == 0 then ([], [])
    else
      var startIdx := Max(start12, start26);
      var offset12 := startIdx - start12;
      var offset26 := startIdx - start26;
      var common := Min(|ema12| - offset12, |ema26| - offset26);
      if common <= 0 then ([], [])
      else
        var line := seq(common, i requires 0 <= i < common => ema12[offset12 + i] - ema26[offset26 + i]);
        var lineTimes := seq(common, i requires 0 <= i < common => times[startIdx + i]);
        assert startIdx == SlowPeriod - 1 && offset12 == SlowPeriod - FastPeriod && offset26 == 0;
        assert |line| == |values| - (SlowPeriod - 1);
        assert forall i :: 0 <= i < |line| ==> line[i] == EmaAt(values, FastPeriod, SlowPeriod - 1 + i) - EmaAt(values, SlowPeriod, SlowPeriod - 1 + i);
        (line, lineTimes)
  }

  // ---------------------------------------------------------------- Bollinger

  datatype Bands = Bands(upper: seq<Point>, middle: seq<Point>, lower: seq<Point>)

  /** The `period` closes ending at input index `i + period - 1`. */
  function Window(values: seq<real>, period: int, i: int): seq<real>
    requires period >= 1 && 0 <= i && i + period <= |values|
  {
    values[i..i + period]
  }

  /** `math.sqrt` of the population variance of the window. */
  function StdDev(w: seq<real>, sqrt: real -> real): real
    requires |w| > 0
  {
    sqrt(Variance(w, Mean(w)))
  }

  /** `_bollinger`: per full window, middle = mean, upper / lower = mean plus /
      minus `k` standard deviations, all stamped with the window's last time.
      `sqrt` stands for `math.sqrt`. */
  function Bollinger(values: seq<real>, period: int, k: real, times: seq<int>, sqrt: real -> real): (r: Bands)
    requires period >= 1 && |values| == |times|
    ensures |values| < period ==> r == Bands([], [], [])
    ensures |values| >= period ==> |r.middle| == |values| - period + 1
    ensures |r.upper| == |r.middle| == |r.lower|
    ensures forall i :: 0 <= i < |r.middle| ==>
              r.upper[i].time == r.middle[i].time == r.lower[i].time == times[period - 1 + i]
    ensures forall i :: 0 <= i < |r.middle| ==> r.upper[i].value - r.middle[i].value == r.middle[i].value - r.lower[i].value
    ensures forall i :: 0 <= i < |r.middle| ==>
              r.upper[i].value - r.middle[i].value == k * sqrt(Variance(Window(values, period, i), Mean(Window(values, period, i))))
  {
    if |values| < period then Bands([], [], [])
    else
      var count := |values| - period + 1;
      var middle := seq(count, i requires 0 <= i < count =>
        Point(times[i + period - 1], Mean(Window(values, period, i))));
      var width := seq(count, i requires 0 <= i < count => k * StdDev(Window(values, period, i), sqrt));
      Bands(
        seq(count, i requires 0 <= i < count => Point(middle[i].time, middle[i].value + width[i])),
        middle,
        seq(count, i requires 0 <= i < count => Point(middle[i].time, middle[i].value - width[i])))
  }

  /** With a non-negative multiplier and a square root that is never
      negative, upper >= middle >= lower at every point. */
  lemma BollingerOrdered(values: seq<real>, period: int, k: real, times: seq<int>, sqrt: real -> real)
    requires period >= 1 && |values| == |times|
    requires k >= 0.0
    requires forall x :: 0.0 <= x ==> 0.0 <= sqrt(x)
    ensures var b := Bollinger(values, period, k, times, sqrt);
            forall i :: 0 <= i < |b.middle| ==> b.upper[i].value >= b.middle[i].value >= b.lower[i].value
  {
    var b := Bollinger(values, period, k, times, sqrt);
    forall i | 0 <= i < |b.middle| ensures b.upper[i].value >= b.middle[i].value >= b.lower[i].value {
      var w := Window(values, period, i);
      var sd := StdDev(w, sqrt);
      assert sd >= 0.0;
      assert k * sd >= 0.0;
    }
  }

  /** The middle band is the simple moving average of the same period. */
  lemma BollingerMiddleIsSma(values: seq<real>, period: int, k: real, times: seq<int>, sqrt: real -> real)
    requires period >= 1 && |values| == |times|
    ensures Bollinger(values, period, k, times, sqrt).middle == Sma(values, period, times)
  {
  }

  /** Over a window of equal closes, and with a square root that maps zero to
      zero, the three bands meet at that close whatever the multiplier. */
  lemma BollingerFlatWindow(values: seq<real>, period: int, k: real, times: seq<int>, sqrt: real -> real, i: int)
    requires period >= 1 && |values| == |times|
    requires 0 <= i && i + period <= |values|
    requires sqrt(0.0) == 0.0
    requires forall j :: i <= j < i + period ==> values[j] == values[i]
    ensures var b := Bollinger(values, period, k, times, sqrt);
            b.upper[i].value == b.middle[i].value == b.lower[i].value == values[i]
  {
    var w := Window(values, period, i);
    forall j | 0 <= j < |w| ensures w[j] == values[i] {
      assert w[j] == values[i + j];
    }
    ConstantHasNoVariance(w, values[i]);
  }

  // ---------------------------------------------------------------- dispatch

  /** The indicator names the engine computes. */
  const Supported: set<string> := {"sma20", "ema50", "rsi14", "macd", "bb20"}

  datatype Series = Line(points: seq<Point>) | MacdLines(lines: MacdSeries) | BandLines(bands: Bands)

  /** One branch of `_compute_indicator_series`'s `if`/`elif` chain; an
      unknown name computes nothing. */
  function Indicator(name: string, closes: seq<real>, times: seq<int>, sqrt: real -> real): (r: Option<Series>)
    requires |closes| == |times|
    ensures r.Some? <==> name in Supported
  {
    if name == "sma20" then Some(Line(Sma(closes, 20, times)))
    else if name == "ema50" then Some(Line(Ema(closes, 50, times)))
    else if name == "rsi14" then Some(Line(Rsi(closes, 14, times)))
    else if name == "macd" then Some(MacdLines(Macd(closes, times)))
    else if name == "bb20" then Some(BandLines(Bollinger(closes, 20, 2.0, times, sqrt)))
    else None
  }

  /** The loop of `_compute_indicator_series` over `names`. */
  function SeriesFor(names: seq<string>, closes: seq<real>, times: seq<int>, sqrt: real -> real): (r: map<string, Series>)
    requires |closes| == |times|
    ensures r.Keys == set n | n in names && n in Supported
    ensures forall n :: n in r ==> r[n] == Indicator(n, closes, times, sqrt).value
  {
    if |names| == 0 then map[]
    else
      var init := names[..|names| - 1];
      var last := names[|names| - 1];
      var m := SeriesFor(init, closes, times, sqrt);
      assert forall n :: n in names <==> n in init || n == last;
      match Indicator(last, closes, times, sqrt)
      case Some(s) => m[last := s]
      case None => m
  }

  function Closes(candles: seq<Normalizer.Candle>): (r: seq<real>)
    ensures |r| == |candles|
  {
    seq(|candles|, i requires 0 <= i < |candles| => candles[i].close)
  }

  function Times(candles: seq<Normalizer.Candle>): (r: seq<int>)
    ensures |r| == |candles|
  {
    seq(|candles|, i requires 0 <= i < |candles| => candles[i].time)
  }

  /** `_compute_indicator_series`: one entry per supported name requested,
      computed over the closes and times of the candles; unknown names are
      ignored. */
  function ComputeIndicatorSeries(candles: seq<Normalizer.Candle>, names: seq<string>, sqrt: real -> real): (r: map<string, Series>)
    ensures r.Keys == set n | n in names && n in Supported
    ensures forall n :: n in r ==> r[n] == Indicator(n, Closes(candles), Times(candles), sqrt).value
  {
    SeriesFor(names, Closes(candles), Times(candles), sqrt)
  }

  /** Requests naming the same indicators, in any order and with any
      repetition, get the same series. */
  lemma SameNamesSameSeries(candles: seq<Normalizer.Candle>, a: seq<string>, b: seq<string>, sqrt: real -> real)
    requires forall n :: n in a <==> n in b
    ensures ComputeIndicatorSeries(candles, a, sqrt) == ComputeIndicatorSeries(candles, b, sqrt)
  {
    var ra := ComputeIndicatorSeries(candles, a, sqrt);
    var rb := ComputeIndicatorSeries(candles, b, sqrt);
    assert ra.Keys == rb.Keys;
  }
}

=== FILE: normalizer.dfy ===
/** The candle normalizer of read_data.py: reading a timestamp in any of the
    encodings upstream uses, finding the row list inside a history payload,
    turning one raw row into a canonical candle, and normalizing the stored
    rows of a symbol into a time-ordered candle list. */
module Normalizer {
  import opened Wrappers
  import opened PyValue
  import Text
  import Sorting

  /** A canonical candle: unix seconds plus prices and volume. */
  datatype Candle = Candle(time: int, open: real, high: real, low: real, close: real, volume: real)

  /** Numbers above this are taken to be milliseconds since the epoch. */
  const MillisThreshold: real := 1000000000000.0
  /** Numbers above this (and not above `MillisThreshold`) are seconds. */
  const SecondsThreshold: real := 1000000000.0

  /** Aliases for the time field, tried with `or`: the first truthy one wins. */
  const TimeKeys: seq<string> := ["time", "timestamp", "date", "businessDate", "tradeDate"]
  /** Container keys searched in a history payload, in order. */
  const ContainerKeys: seq<string> := ["content", "data", "history", "ohlc", "candles", "rows", "items"]
  /** Keys searched one level down, inside a container that is a dict. */
  const NestedKeys: seq<string> := ["content", "data", "rows", "items"]

  /** The magnitude bands for a number read as a timestamp. */
  function NumericBand(x: real): Option<int> {
    if x > MillisThreshold then Some(Trunc(x / 1000.0))
    else if x > SecondsThreshold then Some(Trunc(x))
    else None
  }

  /** `_parse_time_to_unix_seconds`.  Numbers (booleans are ints in Python)
      go through the bands alone.  A string is stripped; if `float()` reads a
      number above `SecondsThreshold` the bands decide, otherwise the date
      parsers do.  `str()` of a list or dict is never a number or a date. */
  function ParseTime(env: Env, v: Value): Option<int> {
    match v
    case Null => None
    case Bool(b) => NumericBand(if b then 1.0 else 0.0)
    case Int(i) => NumericBand(i as real)
    case Float(f) => NumericBand(f)
    case Str(s) =>
      if s == "" then None
      else
        var t := Text.Strip(s);
        if t == "" then None
        else
          (match env.parseFloat(t)
           case Some(x) => if x > SecondsThreshold then NumericBand(x) else env.parseDate(t)
           case None => env.parseDate(t))
    case List(_) => None
    case Dict(_) => None
  }

  /** What the bands accept: milliseconds become whole seconds rounded down,
      seconds are rounded down, anything at or below 10^9 is rejected. */
  lemma NumericTimeBands(env: Env, x: real)
    ensures var r := ParseTime(env, Float(x));
            && (x > MillisThreshold ==> r.Some? && r.value as real * 1000.0 <= x < (r.value as real + 1.0) * 1000.0)
            && (SecondsThreshold < x <= MillisThreshold ==> r.Some? && r.value as real <= x < r.value as real + 1.0)
            && (x <= SecondsThreshold ==> r == None)
            && (r.Some? ==> r.value >= 1000000000)
  {
  }

  /** An integer timestamp and a float with the same value read alike. */
  lemma IntAndFloatAgree(env: Env, i: int)
    ensures ParseTime(env, Int(i)) == ParseTime(env, Float(i as real))
  {
  }

  /** A time in milliseconds and the same time in seconds normalize to the
      same second. */
  lemma MillisAndSecondsAgree(env: Env, secs: int, millis: int)
    requires SecondsThreshold < secs as real <= MillisThreshold
    requires secs * 1000 <= millis < secs * 1000 + 1000
    ensures ParseTime(env, Int(millis)) == ParseTime(env, Int(secs)) == Some(secs)
  {
    assert millis as real > MillisThreshold;
    assert secs as real <= millis as real / 1000.0 < secs as real + 1.0;
  }

  /** A numeric string above 10^9 goes through the same bands as the number;
      one at or below 10^9 is not rejected outright but handed to the date
      parsers. */
  lemma NumericStringBands(env: Env, s: string, x: real)
    requires Text.Strip(s) != ""
    requires env.parseFloat(Text.Strip(s)) == Some(x)
    ensures x > SecondsThreshold ==> ParseTime(env, Str(s)) == ParseTime(env, Float(x))
    ensures x <= SecondsThreshold ==> ParseTime(env, Str(s)) == env.parseDate(Text.Strip(s))
  {
  }

  /** A falsy value never yields a time; this is why the `or` chain over the
      time aliases loses nothing by skipping falsy values. */
  lemma FalsyTimeRejected(env: Env, v: Value)
    requires !Truthy(v)
    ensures ParseTime(env, v) == None
  {
  }

  /** `a or b or ...` over the values of `keys` in `row`. */
  function FirstTruthy(row: Row, keys: seq<string>): (r: Value)
    requires |keys| > 0
    ensures Truthy(r) <==> exists k :: k in keys && Truthy(Get(row, k))
    ensures Truthy(r) ==> exists i :: 0 <= i < |keys| && r == Get(row, keys[i])
                                      && forall j :: 0 <= j < i ==> !Truthy(Get(row, keys[j]))
  {
    if |keys| == 1 then Get(row, keys[0])
    else
      var rest := FirstTruthy(row, keys[1..]);
      assert forall k :: k in keys <==> k == keys[0] || k in keys[1..];
      if Truthy(Get(row, keys[0])) then Get(row, keys[0])
      else
        assert Truthy(rest) ==> exists i :: 1 <= i < |keys| && rest == Get(row, keys[i])
                                            && forall j :: 0 <= j < i ==> !Truthy(Get(row, keys[j])) by {
          if Truthy(rest) {
            var i :| 0 <= i < |keys[1..]| && rest == Get(row, keys[1..][i])
                     && forall j :: 0 <= j < i ==> !Truthy(Get(row, keys[1..][j]));
            assert rest == Get(row, keys[i + 1]);
            forall j | 0 <= j < i + 1 ensures !Truthy(Get(row, keys[j])) {
              if j > 0 { assert keys[j] == keys[1..][j - 1]; }
            }
          }
        }
        rest
  }

  /** `row.get(key) if row.get(key) is not None else fallback`. */
  function NonNullOr(row: Row, key: string, fallback: Value): Value {
    if Get(row, key) != Null then Get(row, key) else fallback
  }

  function RawTime(row: Row): Value {
    FirstTruthy(row, TimeKeys)
  }

  function RawOpen(row: Row): Value {
    NonNullOr(row, "open", Get(row, "openPrice"))
  }

  function RawHigh(row: Row): Value {
    NonNullOr(row, "high", Get(row, "highPrice"))
  }

  function RawLow(row: Row): Value {
    NonNullOr(row, "low", Get(row, "lowPrice"))
  }

  /** `closePrice` shadows `lastTradedPrice` whenever the key is present,
      even with value `None`. */
  function RawClose(row: Row): Value {
    NonNullOr(row, "close", GetOr(row, "closePrice", Get(row, "lastTradedPrice")))
  }

  /** The normalizer prefers `totalTradeQuantity` over `lastTradedVolume`,
      again by key presence. */
  function RawVolume(row: Row): Value {
    NonNullOr(row, "volume", GetOr(row, "totalTradeQuantity", Get(row, "lastTradedVolume")))
  }

  /** `_normalize_candle_row`. */
  function NormalizeRow(env: Env, raw: Value): (r: Option<Candle>)
    ensures r.Some? <==>
              && raw.Dict?
              && ParseTime(env, RawTime(raw.fields)).Some?
              && SafeFloat(env, RawOpen(raw.fields)).Some?
              && SafeFloat(env, RawHigh(raw.fields)).Some?
              && SafeFloat(env, RawLow(raw.fields)).Some?
              && SafeFloat(env, RawClose(raw.fields)).Some?
    ensures r.Some? ==> r.value == Candle(ParseTime(env, RawTime(raw.fields)).value,
                                          SafeFloat(env, RawOpen(raw.fields)).value,
                                          SafeFloat(env, RawHigh(raw.fields)).value,
                                          SafeFloat(env, RawLow(raw.fields)).value,
                                          SafeFloat(env, RawClose(raw.fields)).value,
                                          SafeFloat(env, RawVolume(raw.fields)).GetOr(0.0))
  {
    match raw
    case Dict(row) =>
      var t := ParseTime(env, RawTime(row));
      var o := SafeFloat(env, RawOpen(row));
      var h := SafeFloat(env, RawHigh(row));
      var l := SafeFloat(env, RawLow(row));
      var c := SafeFloat(env, RawClose(row));
      var vol := SafeFloat(env, RawVolume(row));
      if t.None? || o.None? || h.None? || l.None? || c.None? then None
      else Some(Candle(t.value, o.value, h.value, l.value, c.value, vol.GetOr(0.0)))
    case _ => None
  }

  /** The canonical form of a candle written back as a row. */
  function CandleRow(c: Candle): Row {
    map["time" := Int(c.time), "open" := Float(c.open), "high" := Float(c.high),
        "low" := Float(c.low), "close" := Float(c.close), "volume" := Float(c.volume)]
  }

  /** A candle in canonical form, with its time in seconds, normalizes to
      itself. */
  lemma CanonicalRowRoundTrip(env: Env, c: Candle)
    requires SecondsThreshold < c.time as real <= MillisThreshold
    ensures NormalizeRow(env, Dict(CandleRow(c))) == Some(c)
  {
    CandleRowTime(c);
    CandleRowPrices(c);
    CandleRowCloseVolume(c);
    assert ParseTime(env, Int(c.time)) == Some(c.time);
  }

  lemma CandleRowTime(c: Candle)
    requires c.time != 0
    ensures RawTime(CandleRow(c)) == Int(c.time)
  {
    var row := CandleRow(c);
    assert Get(row, "time") == Int(c.time);
    assert TimeKeys[0] == "time";
    assert Truthy(Get(row, TimeKeys[0]));
  }

  lemma CandleRowPrices(c: Candle)
    ensures var row := CandleRow(c);
            RawOpen(row) == Float(c.open) && RawHigh(row) == Float(c.high) && RawLow(row) == Float(c.low)
  {
  }

  lemma CandleRowCloseVolume(c: Candle)
    ensures var row := CandleRow(c);
            RawClose(row) == Float(c.close) && RawVolume(row) == Float(c.volume)
  {
  }

  /** Every key the normalizer looks at. */
  const KnownKeys: set<string> :=
    {"time", "timestamp", "date", "businessDate", "tradeDate", "open", "openPrice", "high", "highPrice",
     "low", "lowPrice", "close", "closePrice", "lastTradedPrice", "volume", "totalTradeQuantity",
     "lastTradedVolume"}

  /** Keys other than the known aliases have no influence on the candle. */
  lemma UnknownKeysIgnored(env: Env, row: Row)
    ensures NormalizeRow(env, Dict(row)) == NormalizeRow(env, Dict(map k | k in row && k in KnownKeys :: row[k]))
  {
    var small := map k | k in row && k in KnownKeys :: row[k];
    forall k | k in KnownKeys ensures Get(row, k) == Get(small, k) && (k in row <==> k in small) {
    }
    assert RawOpen(row) == RawOpen(small) && RawHigh(row) == RawHigh(small) && RawLow(row) == RawLow(small);
    assert RawClose(row) == RawClose(small) && RawVolume(row) == RawVolume(small);
    assert RawTime(row) == RawTime(small) by {
      assert forall k :: k in TimeKeys ==> k in KnownKeys;
      FirstTruthySameValues(row, small, TimeKeys);
    }
  }

  lemma {:induction false} FirstTruthySameValues(a: Row, b: Row, keys: seq<string>)
    requires |keys| > 0
    requires forall k :: k in keys ==> Get(a, k) == Get(b, k)
    ensures FirstTruthy(a, keys) == FirstTruthy(b, keys)
    decreases |keys|
  {
    if |keys| > 1 {
      FirstTruthySameValues(a, b, keys[1..]);
    }
  }

  /** A falsy `time` (such as 0) is skipped in favour of the next alias. */
  lemma FalsyTimeFallsThrough(env: Env, row: Row, t: int)
    requires "time" in row && !Truthy(row["time"])
    requires Get(row, "timestamp") == Int(t)
    requires SecondsThreshold < t as real <= MillisThreshold
    ensures ParseTime(env, RawTime(row)) == Some(t)
  {
    assert TimeKeys[0] == "time" && TimeKeys[1..][0] == "timestamp";
    assert Truthy(Int(t));
    assert FirstTruthy(row, TimeKeys[1..]) == Int(t);
    assert RawTime(row) == Int(t);
  }

  /** A `closePrice` key present with value `None` hides `lastTradedPrice`,
      so the row is dropped even though a last traded price is there. */
  lemma NullClosePriceHidesLastTraded(env: Env, row: Row)
    requires Get(row, "close") == Null
    requires "closePrice" in row && row["closePrice"] == Null
    ensures NormalizeRow(env, Dict(row)) == None
  {
  }

  /** With `closePrice` absent, the last traded price is the close. */
  lemma LastTradedPriceUsedWhenClosePriceAbsent(env: Env, row: Row, p: real)
    requires Get(row, "close") == Null
    requires "closePrice" !in row
    requires Get(row, "lastTradedPrice") == Float(p)
    requires NormalizeRow(env, Dict(row)).Some?
    ensures NormalizeRow(env, Dict(row)).value.close == p
  {
  }

  /** A missing volume is reported as zero, not as a rejection. */
  lemma MissingVolumeIsZero(env: Env, row: Row)
    requires "volume" !in row && "totalTradeQuantity" !in row && "lastTradedVolume" !in row
    requires NormalizeRow(env, Dict(row)).Some?
    ensures NormalizeRow(env, Dict(row)).value.volume == 0.0
  {
  }

  /** The first list found under the keys, one level down. */
  function FirstNestedList(m: Row, keys: seq<string>): (r: Option<seq<Value>>)
    ensures r.Some? ==> exists i :: 0 <= i < |keys| && Get(m, keys[i]) == List(r.value)
                                    && forall j :: 0 <= j < i ==> !Get(m, keys[j]).List?
    ensures r.None? ==> forall i :: 0 <= i < |keys| ==> !Get(m, keys[i]).List?
  {
    if |keys| == 0 then None
    else if Get(m, keys[0]).List? then Some(Get(m, keys[0]).items)
    else
      var rest := FirstNestedList(m, keys[1..]);
      assert rest.Some? ==> exists i :: 1 <= i < |keys| && Get(m, keys[i]) == List(rest.value)
                                        && forall j :: 0 <= j < i ==> !Get(m, keys[j]).List? by {
        if rest.Some? {
          var i :| 0 <= i < |keys[1..]| && Get(m, keys[1..][i]) == List(rest.value)
                   && forall j :: 0 <= j < i ==> !Get(m, keys[1..][j]).List?;
          forall j | 0 <= j < i + 1 ensures !Get(m, keys[j]).List? {
            if j > 0 { assert keys[j] == keys[1..][j - 1]; }
          }
        }
      }
      assert rest.None? ==> forall i :: 0 <= i < |keys| ==> !Get(m, keys[i]).List? by {
        if rest.None? {
          forall i | 0 <= i < |keys| ensures !Get(m, keys[i]).List? {
            if i > 0 { assert keys[i] == keys[1..][i - 1]; }
          }
        }
      }
      rest
  }

  /** The list container key `k` of `m` yields: the value itself when it is a
      list, else the first list one level down when it is a dict. */
  ghost predicate ListAt(m: Row, k: string, xs: seq<Value>) {
    || Get(m, k) == List(xs)
    || (!Get(m, k).List? && Get(m, k).Dict? && FirstNestedList(Get(m, k).fields, NestedKeys) == Some(xs))
  }

  /** Container key `k` of `m` holds a list, directly or one level down. */
  ghost predicate HasListUnder(m: Row, k: string) {
    Get(m, k).List? || (Get(m, k).Dict? && exists nk :: nk in NestedKeys && Get(Get(m, k).fields, nk).List?)
  }

  /** The loop over the container keys: the list of the first key that has
      one, or no rows. */
  function ExtractFrom(m: Row, keys: seq<string>): (r: seq<Value>)
    ensures (exists i :: 0 <= i < |keys| && HasListUnder(m, keys[i])) ==>
              exists i :: 0 <= i < |keys| && ListAt(m, keys[i], r)
                          && forall j :: 0 <= j < i ==> !HasListUnder(m, keys[j])
    ensures (forall i :: 0 <= i < |keys| ==> !HasListUnder(m, keys[i])) ==> r == []
  {
    if |keys| == 0 then []
    else
      var v := Get(m, keys[0]);
      var rest := ExtractFrom(m, keys[1..]);
      if v.List? then
        assert ListAt(m, keys[0], v.items);
        v.items
      else if v.Dict? && FirstNestedList(v.fields, NestedKeys).Some? then
        var xs := FirstNestedList(v.fields, NestedKeys).value;
        assert ListAt(m, keys[0], xs);
        xs
      else
        NoNestedList(m, keys[0]);
        SkipKey(m, keys, rest);
        rest
  }

  /** A first key with no list passes the search on to the remaining keys. */
  lemma SkipKey(m: Row, keys: seq<string>, rest: seq<Value>)
    requires |keys| > 0 && !HasListUnder(m, keys[0])
    requires (exists i :: 0 <= i < |keys[1..]| && HasListUnder(m, keys[1..][i])) ==>
               exists i :: 0 <= i < |keys[1..]| && ListAt(m, keys[1..][i], rest)
                           && forall j :: 0 <= j < i ==> !HasListUnder(m, keys[1..][j])
    requires (forall i :: 0 <= i < |keys[1..]| ==> !HasListUnder(m, keys[1..][i])) ==> rest == []
    ensures (exists i :: 0 <= i < |keys| && HasListUnder(m, keys[i])) ==>
              exists i :: 0 <= i < |keys| && ListAt(m, keys[i], rest)
                          && forall j :: 0 <= j < i ==> !HasListUnder(m, keys[j])
    ensures (forall i :: 0 <= i < |keys| ==> !HasListUnder(m, keys[i])) ==> rest == []
  {
    if exists i :: 0 <= i < |keys| && HasListUnder(m, keys[i]) {
      var i0 :| 0 <= i0 < |keys| && HasListUnder(m, keys[i0]);
      assert i0 > 0 && keys[i0] == keys[1..][i0 - 1];
      var i :| 0 <= i < |keys[1..]| && ListAt(m, keys[1..][i], rest)
               && forall j :: 0 <= j < i ==> !HasListUnder(m, keys[1..][j]);
      forall j | 0 <= j < i + 1 ensures !HasListUnder(m, keys[j]) {
        if j > 0 { assert keys[j] == keys[1..][j - 1]; }
      }
      assert ListAt(m, keys[i + 1], rest);
    } else {
      forall i | 0 <= i < |keys[1..]| ensures !HasListUnder(m, keys[1..][i]) {
        assert keys[1..][i] == keys[i + 1];
      }
    }
  }

  /** A dict under `k` whose nested keys hold no list gives no list. */
  lemma NoNestedList(m: Row, k: string)
    requires !Get(m, k).List?
    requires !(Get(m, k).Dict? && FirstNestedList(Get(m, k).fields, NestedKeys).Some?)
    ensures !HasListUnder(m, k)
  {
    if Get(m, k).Dict? {
      forall nk | nk in NestedKeys ensures !Get(Get(m, k).fields, nk).List? {
        var i :| 0 <= i < |NestedKeys| && NestedKeys[i] == nk;
      }
    }
  }

  /** `_extract_candles_from_history_payload`: a list is returned as it is; a
      dict yields the list of the first container key that has one, directly
      or one level down; anything else, or a dict with no such list, yields
      no rows. */
  function ExtractCandles(payload: Value): (r: seq<Value>)
    ensures payload.List? ==> r == payload.items
    ensures !payload.List? && !payload.Dict? ==> r == []
    ensures payload.Dict? && (exists i :: 0 <= i < |ContainerKeys| && HasListUnder(payload.fields, ContainerKeys[i])) ==>
              exists i :: 0 <= i < |ContainerKeys| && ListAt(payload.fields, ContainerKeys[i], r)
                          && forall j :: 0 <= j < i ==> !HasListUnder(payload.fields, ContainerKeys[j])
    ensures payload.Dict? && (forall i :: 0 <= i < |ContainerKeys| ==> !HasListUnder(payload.fields, ContainerKeys[i])) ==> r == []
  {
    match payload
    case List(xs) => xs
    case Dict(m) => ExtractFrom(m, ContainerKeys)
    case _ => []
  }

  /** Whatever the other keys hold, the payload's rows are the list of the
      first container key that has one. */
  lemma ExtractCandlesFirstList(m: Row, i: int, xs: seq<Value>)
    requires 0 <= i < |ContainerKeys|
    requires ListAt(m, ContainerKeys[i], xs)
    requires forall j :: 0 <= j < i ==> !HasListUnder(m, ContainerKeys[j])
    ensures ExtractCandles(Dict(m)) == xs
  {
    var r := ExtractCandles(Dict(m));
    ListAtHasList(m, ContainerKeys[i], xs);
    var i' :| 0 <= i' < |ContainerKeys| && ListAt(m, ContainerKeys[i'], r)
              && forall j :: 0 <= j < i' ==> !HasListUnder(m, ContainerKeys[j]);
    ListAtHasList(m, ContainerKeys[i'], r);
    assert i' == i;
    ListAtUnique(m, ContainerKeys[i], xs, r);
  }

  lemma ListAtHasList(m: Row, k: string, xs: seq<Value>)
    requires ListAt(m, k, xs)
    ensures HasListUnder(m, k)
  {
    if !Get(m, k).List? {
      var i :| 0 <= i < |NestedKeys| && Get(Get(m, k).fields, NestedKeys[i]) == List(xs);
      assert NestedKeys[i] in NestedKeys;
    }
  }

  lemma ListAtUnique(m: Row, k: string, xs: seq<Value>, ys: seq<Value>)
    requires ListAt(m, k, xs) && ListAt(m, k, ys)
    ensures xs == ys
  {
  }

  /** `content` is searched first: a list there wins over every other key. */
  lemma ContentListWins(m: Row, xs: seq<Value>)
    requires Get(m, "content") == List(xs)
    ensures ExtractCandles(Dict(m)) == xs
  {
  }

  /** The row `_get_or_fetch_ta_history` builds from a stored row: the six
      stored fields, each `None` when missing. */
  function StoredRowView(row: Row): Row {
    map["date" := Get(row, "date"), "open" := Get(row, "open"), "high" := Get(row, "high"),
        "low" := Get(row, "low"), "close" := Get(row, "close"), "volume" := Get(row, "volume")]
  }

  /** The candle a stored row normalizes to, if any. */
  function StoredCandle(env: Env, row: Row): Option<Candle> {
    NormalizeRow(env, Dict(StoredRowView(row)))
  }

  /** The candles of the stored rows that normalize, in their stored order. */
  function AcceptedCandles(env: Env, rows: seq<Row>): (r: seq<Candle>)
    ensures |r| <= |rows|
    ensures forall c :: c in r <==> exists i :: 0 <= i < |rows| && StoredCandle(env, rows[i]) == Some(c)
  {
    FilterMap(rows, row => StoredCandle(env, row))
  }

  function CandleTime(c: Candle): int {
    c.time
  }

  /** The pure part of `_get_or_fetch_ta_history`: normalize the stored rows,
      drop the ones that do not normalize, and sort by time. */
  function NormalizeStoredRows(env: Env, rows: seq<Row>): (r: seq<Candle>)
    ensures Sorting.SortedBy(r, CandleTime, Sorting.IntLe)
    ensures multiset(r) == multiset(AcceptedCandles(env, rows))
    ensures forall c :: c in r <==> c in AcceptedCandles(env, rows)
  {
    var accepted := AcceptedCandles(env, rows);
    var r := Sorting.SortBy(accepted, CandleTime, Sorting.IntLe);
    Sorting.IntLeTotalOrder();
    Sorting.SortBySorted(accepted, CandleTime, Sorting.IntLe);
    forall c ensures c in r <==> c in accepted {
      assert c in r <==> c in multiset(r);
      assert c in accepted <==> c in multiset(accepted);
    }
    r
  }
}

=== FILE: pyvalue.dfy ===
/** The JSON-like values the service receives from upstream (decoded JSON:
    `None`, booleans, ints, floats, strings, lists and dicts), the Python
    operations on them that the core uses (`dict.get`, truthiness, `or`,
    `str()`), and the tolerant number parsers `_safe_float` / `_safe_int`.

    Python library behaviour the model does not define itself is supplied by an
    `Env`: `float()` applied to a string, the date-string parsers, the
    `fromisoformat(...).isoformat()` round trip and `str()` of floats, lists
    and dicts. */
module PyValue {
  import opened Wrappers
  import Text

  datatype Value =
    | Null
    | Bool(b: bool)
    | Int(i: int)
    | Float(f: real)
    | Str(s: string)
    | List(items: seq<Value>)
    | Dict(fields: map<string, Value>)

  /** A decoded JSON object. */
  type Row = map<string, Value>

  datatype Env = Env(
    /** `float(s)` for a string `s`: `None` where Python raises `ValueError`. */
    parseFloat: string -> Option<real>,
    /** For a stripped, non-numeric string: `datetime.fromisoformat` (after
        `Z` becomes `+00:00`), then the `strptime` fallback formats, then
        `int(parsed.timestamp())` in the host's local time zone. */
    parseDate: string -> Option<int>,
    /** `datetime.fromisoformat(s.replace("Z", "+00:00")).isoformat()`. */
    parseIsoTimestamp: string -> Option<string>,
    /** `str(v)` for a float, list or dict. */
    repr: Value -> string)

  /** `row.get(key)`: `None` when the key is absent. */
  function Get(row: Row, key: string): Value {
    if key in row then row[key] else Null
  }

  /** `row.get(key, default)`: the default only when the key is absent, not
      when it is present with value `None`. */
  function GetOr(row: Row, key: string, default: Value): Value {
    if key in row then row[key] else default
  }

  /** Python truthiness. */
  predicate Truthy(v: Value) {
    match v
    case Null => false
    case Bool(b) => b
    case Int(i) => i != 0
    case Float(f) => f != 0.0
    case Str(s) => s != ""
    case List(xs) => xs != []
    case Dict(m) => m != map[]
  }

  /** Python `a or b`. */
  function Or(a: Value, b: Value): Value {
    if Truthy(a) then a else b
  }

  /** Python `int(x)` for a float: rounds toward zero. */
  function Trunc(x: real): (r: int)
    ensures 0.0 <= x ==> r as real <= x < r as real + 1.0
    ensures x < 0.0 ==> r as real - 1.0 < x <= r as real
  {
    if x >= 0.0 then x.Floor else -((-x).Floor)
  }

  /** `str(v)`. */
  function PyStr(env: Env, v: Value): string {
    match v
    case Null => "None"
    case Bool(b) => if b then "True" else "False"
    case Int(i) => Text.IntToString(i)
    case Str(s) => s
    case _ => env.repr(v)
  }

  /** `_safe_float(v)`: `None` and `""` give `None` rather than zero; a string
      loses its thousands separators before `float()` reads it; `float(str(b))`
      of a boolean, list or dict raises `ValueError` and gives `None`. */
  function SafeFloat(env: Env, v: Value): (r: Option<real>)
    ensures v == Null || v == Str("") ==> r == None
    ensures v.Int? ==> r == Some(v.i as real)
    ensures v.Float? ==> r == Some(v.f)
    ensures v.Bool? || v.List? || v.Dict? ==> r == None
  {
    match v
    case Null => None
    case Str(s) => if s == "" then None else env.parseFloat(Text.RemoveChar(s, ','))
    case Int(i) => Some(i as real)
    case Float(f) => Some(f)
    case _ => None
  }

  /** Thousands separators do not change what `_safe_float` reads. */
  lemma SafeFloatIgnoresCommas(env: Env, s: string)
    requires Text.RemoveChar(s, ',') != ""
    ensures SafeFloat(env, Str(s)) == SafeFloat(env, Str(Text.RemoveChar(s, ',')))
  {
    var t := Text.RemoveChar(s, ',');
    assert ',' !in t;
    assert Text.RemoveChar(t, ',') == t;
    assert s != "";
  }

  /** `_safe_int(v)`: `int(float(...))`, the float read exactly as
      `_safe_float` reads it and then truncated toward zero. */
  function SafeInt(env: Env, v: Value): (r: Option<int>)
    ensures r.Some? <==> SafeFloat(env, v).Some?
    ensures r.Some? ==> Trunc(SafeFloat(env, v).value) == r.value
  {
    match SafeFloat(env, v)
    case Some(x) => Some(Trunc(x))
    case None => None
  }
}

=== FILE: rate_limit.dfy ===
/** The fixed-window rate limiter in front of the TA routes
    (`_enforce_rate_limit`).  Each (route, client address) pair owns a bucket
    holding the start of its current window and the number of requests seen
    in it.  The request headers and the clock are parameters. */
module RateLimit {
  import opened Wrappers
  import Text
  import PyValue

  /** `RATE_LIMIT_MAX_REQUESTS`. */
  const MaxRequests: int := 30
  /** `RATE_LIMIT_WINDOW_SECONDS`. */
  const WindowSeconds: real := 60.0

  datatype Bucket = Bucket(windowStart: real, count: int)

  type Buckets = map<string, Bucket>

  /** Either the request goes through, or it is answered with status 429 and
      a `retryAfter` in whole seconds. */
  datatype Decision = Admit | Reject(retryAfter: int)

  /** The client address: the `X-Forwarded-For` header whenever it is present
      (even empty), otherwise the peer address unless it is missing or empty,
      otherwise `"unknown"`; of a comma-separated header only the first hop
      is kept, stripped of whitespace. */
  function ClientAddress(forwardedFor: Option<string>, remoteAddr: Option<string>): (r: string)
    ensures ',' !in r
    ensures forwardedFor.Some? && ',' !in forwardedFor.value ==> r == forwardedFor.value
    ensures forwardedFor.Some? && ',' in forwardedFor.value ==>
              r == Text.Strip(Text.Split(forwardedFor.value, ',')[0])
    ensures forwardedFor.None? ==>
              r == (if remoteAddr.Some? && remoteAddr.value != "" && ',' !in remoteAddr.value then remoteAddr.value
                    else if remoteAddr.Some? && ',' in remoteAddr.value then Text.Strip(Text.Split(remoteAddr.value, ',')[0])
                    else "unknown")
  {
    var raw := match forwardedFor
      case Some(h) => h
      case None => (match remoteAddr
        case Some(a) => if a != "" then a else "unknown"
        case None => "unknown");
    if ',' in raw then
      var first := Text.Split(raw, ',')[0];
      assert ',' !in first;
      Text.Strip(first)
    else raw
  }

  /** The bucket key `f"{route_name}:{client_ip}"`. */
  function BucketKey(route: string, client: string): string {
    route + ":" + client
  }

  /** Whole seconds left in the window, at least one: Python's `int()`
      truncation of the remaining time, floored at 1. */
  function RetryAfter(windowStart: real, now: real): (r: int)
    ensures r >= 1
  {
    var remaining := PyValue.Trunc(WindowSeconds - (now - windowStart));
    if remaining > 1 then remaining else 1
  }

  /** One request under key `key` at time `now`: the buckets afterwards and
      the decision. */
  function Enforce(b: Buckets, key: string, now: real): (r: (Buckets, Decision))
    ensures key in r.0
    ensures forall k :: k != key ==> (k in r.0 <==> k in b)
    ensures forall k :: k != key && k in b ==> r.0[k] == b[k]
    ensures key !in b || now - b[key].windowStart >= WindowSeconds ==>
              r == (b[key := Bucket(now, 1)], Admit)
    ensures key in b && now - b[key].windowStart < WindowSeconds ==>
              && r.0[key] == Bucket(b[key].windowStart, b[key].count + 1)
              && (r.1.Admit? <==> b[key].count + 1 <= MaxRequests)
  {
    if key !in b || now - b[key].windowStart >= WindowSeconds then
      (b[key := Bucket(now, 1)], Admit)
    else
      var bucket := Bucket(b[key].windowStart, b[key].count + 1);
      var b' := b[key := bucket];
      if bucket.count > MaxRequests then (b', Reject(RetryAfter(bucket.windowStart, now)))
      else (b', Admit)
  }

  /** `_enforce_rate_limit(route_name)` for one request. */
  function EnforceRequest(b: Buckets, route: string, forwardedFor: Option<string>,
                          remoteAddr: Option<string>, now: real): (r: (Buckets, Decision))
    ensures var key := route + ":" + ClientAddress(forwardedFor, remoteAddr);
            && key in r.0
            && (forall k :: k != key ==> (k in r.0 <==> k in b))
            && (forall k :: k != key && k in b ==> r.0[k] == b[k])
    ensures var key := route + ":" + ClientAddress(forwardedFor, remoteAddr);
            key !in b || now - b[key].windowStart >= WindowSeconds ==>
              r.0[key] == Bucket(now, 1) && r.1 == Admit
    ensures var key := route + ":" + ClientAddress(forwardedFor, remoteAddr);
            key in b && now - b[key].windowStart < WindowSeconds ==>
              && r.0[key] == Bucket(b[key].windowStart, b[key].count + 1)
              && (r.1.Admit? <==> b[key].count + 1 <= MaxRequests)
              && (r.1.Reject? ==> r.1.retryAfter == RetryAfter(b[key].windowStart, now))
  {
    Enforce(b, BucketKey(route, ClientAddress(forwardedFor, remoteAddr)), now)
  }

  /** The three rate-limited routes. */
  const Routes: seq<string> := ["nepse_index", "ta_history", "ta_indicators"]

  /** Keys of different routes never collide, whatever the client addresses,
      as long as neither route name holds a colon: the key's text up to its
      first colon is the route. */
  lemma DistinctRoutesNeverShareBucket(route1: string, route2: string, a: string, c: string)
    requires route1 != route2
    requires ':' !in route1 && ':' !in route2
    ensures BucketKey(route1, a) != BucketKey(route2, c)
  {
    var k1, k2 := BucketKey(route1, a), BucketKey(route2, c);
    if |route1| == |route2| {
      var i :| 0 <= i < |route1| && route1[i] != route2[i];
      assert k1[i] == route1[i] && k2[i] == route2[i];
    } else if |route1| < |route2| {
      assert k1[|route1|] == ':' && k2[|route1|] == route2[|route1|];
    } else {
      assert k2[|route2|] == ':' && k1[|route2|] == route1[|route2|];
    }
  }

  /** The index, history and indicators routes keep separate buckets for every
      client. */
  lemma RoutesNeverShareBucket(i: int, j: int, a: string, c: string)
    requires 0 <= i < |Routes| && 0 <= j < |Routes| && i != j
    ensures BucketKey(Routes[i], a) != BucketKey(Routes[j], c)
  {
    assert "nepse_index"[0] != "ta_history"[0];
    assert "nepse_index"[0] != "ta_indicators"[0];
    assert "ta_history"[3] != "ta_indicators"[3];
    DistinctRoutesNeverShareBucket(Routes[i], Routes[j], a, c);
  }

  /** On one route, two client addresses share a bucket only if they are the
      same address. */
  lemma ClientsNeverShareBucket(route: string, a: string, c: string)
    requires BucketKey(route, a) == BucketKey(route, c)
    ensures a == c
  {
    assert BucketKey(route, a)[|route| + 1..] == a;
    assert BucketKey(route, c)[|route| + 1..] == c;
  }

  /** A rejection never asks the client to wait past the end of the window,
      nor less than a second short of it. */
  lemma RetryAfterBounds(b: Buckets, key: string, now: real)
    requires key in b && b[key].windowStart <= now
    requires Enforce(b, key, now).1.Reject?
    ensures var retry := Enforce(b, key, now).1.retryAfter;
            && 1 <= retry <= 60
            && (retry == 1 || retry as real <= WindowSeconds - (now - b[key].windowStart))
            && WindowSeconds - (now - b[key].windowStart) < retry as real + 1.0
  {
  }

  /** Requests from the same key, in order. */
  function Run(b: Buckets, key: string, times: seq<real>): (r: (Buckets, seq<Decision>))
    ensures |r.1| == |times|
    decreases |times|
  {
    if |times| == 0 then (b, [])
    else
      var (b1, d) := Enforce(b, key, times[0]);
      var (b2, ds) := Run(b1, key, times[1..]);
      (b2, [d] + ds)
  }

  function Admitted(ds: seq<Decision>): nat {
    if |ds| == 0 then 0 else (if ds[0].Admit? then 1 else 0) + Admitted(ds[1..])
  }

  function Min(a: int, b: int): int {
    if a <= b then a else b
  }

  /** Within one open window, the requests that still fit under the limit are
      admitted and every later one is rejected. */
  lemma {:induction false} RunWithinWindow(b: Buckets, key: string, times: seq<real>)
    requires key in b && b[key].count >= 1
    requires forall i :: 0 <= i < |times| ==> times[i] - b[key].windowStart < WindowSeconds
    ensures key in Run(b, key, times).0
    ensures Run(b, key, times).0[key] == Bucket(b[key].windowStart, b[key].count + |times|)
    ensures Admitted(Run(b, key, times).1) ==
              if b[key].count >= MaxRequests then 0 else Min(|times|, MaxRequests - b[key].count)
    decreases |times|
  {
    if |times| > 0 {
      var b1 := Enforce(b, key, times[0]).0;
      assert b1[key] == Bucket(b[key].windowStart, b[key].count + 1);
      RunWithinWindow(b1, key, times[1..]);
    }
  }

  /** However many requests a client sends inside one window that it opened,
      at most `MaxRequests` of them are admitted; exactly the first
      `MaxRequests` are. */
  lemma AtMostMaxPerWindow(b: Buckets, key: string, start: real, rest: seq<real>)
    requires key !in b || start - b[key].windowStart >= WindowSeconds
    requires forall i :: 0 <= i < |rest| ==> rest[i] - start < WindowSeconds
    ensures Admitted(Run(b, key, [start] + rest).1) == Min(1 + |rest|, MaxRequests)
  {
    var times := [start] + rest;
    var b1 := Enforce(b, key, start).0;
    assert times[1..] == rest;
    RunWithinWindow(b1, key, rest);
  }

  /** Requests under one key never touch another key's bucket. */
  lemma {:induction false} RunKeepsOtherKeys(b: Buckets, key: string, times: seq<real>, other: string)
    requires other != key
    ensures other in Run(b, key, times).0 <==> other in b
    ensures other in b ==> Run(b, key, times).0[other] == b[other]
    decreases |times|
  {
    if |times| > 0 {
      RunKeepsOtherKeys(Enforce(b, key, times[0]).0, key, times[1..], other);
    }
  }
}

=== FILE: sorting.dfy ===
/** Python's `list.sort(key=...)` / `sorted(..., key=...)`.  Python's sort is
    stable, so every stable sort returns the same list; this module uses
    insertion sort, where an element is placed after every element whose key
    is not greater than its own. */
module Sorting {

  /** `le` is a total preorder: any two keys compare, and comparison chains. */
  ghost predicate TotalPreorder<K(!new)>(le: (K, K) -> bool) {
    && (forall a, b :: le(a, b) || le(b, a))
    && (forall a, b, c :: le(a, b) && le(b, c) ==> le(a, c))
  }

  ghost predicate SortedBy<T, K>(s: seq<T>, key: T -> K, le: (K, K) -> bool) {
    forall i, j :: 0 <= i < j < |s| ==> le(key(s[i]), key(s[j]))
  }

  /** Places `x` after the leading run of elements whose key is not greater
      than `x`'s key. */
  function Insert<T, K>(x: T, s: seq<T>, key: T -> K, le: (K, K) -> bool): (r: seq<T>)
    ensures |r| == |s| + 1
    ensures multiset(r) == multiset(s) + multiset{x}
  {
    if |s| == 0 then [x]
    else if le(key(s[0]), key(x)) then
      assert s == [s[0]] + s[1..];
      [s[0]] + Insert(x, s[1..], key, le)
    else [x] + s
  }

  /** Stable sort of `s` by `key` under `le`. */
  function SortBy<T, K>(s: seq<T>, key: T -> K, le: (K, K) -> bool): (r: seq<T>)
    ensures |r| == |s|
    ensures multiset(r) == multiset(s)
  {
    if |s| == 0 then []
    else
      assert s == s[..|s| - 1] + [s[|s| - 1]];
      Insert(s[|s| - 1], SortBy(s[..|s| - 1], key, le), key, le)
  }

  lemma {:induction false} InsertSorted<T, K(!new)>(x: T, s: seq<T>, key: T -> K, le: (K, K) -> bool)
    requires TotalPreorder(le)
    requires SortedBy(s, key, le)
    ensures SortedBy(Insert(x, s, key, le), key, le)
    decreases |s|
  {
    if |s| > 0 && le(key(s[0]), key(x)) {
      InsertSorted(x, s[1..], key, le);
      var rest := Insert(x, s[1..], key, le);
      forall j | 0 <= j < |rest| ensures le(key(s[0]), key(rest[j])) {
        assert rest[j] in multiset(s[1..]) + multiset{x};
        if rest[j] != x {
          assert rest[j] in multiset(s[1..]);
          var m :| 0 <= m < |s[1..]| && s[1..][m] == rest[j];
          assert s[1 + m] == rest[j];
        }
      }
    } else if |s| > 0 {
      forall j | 0 <= j < |s| ensures le(key(x), key(s[j])) {
        assert le(key(s[0]), key(s[j])) || j == 0;
      }
    }
  }

  /** The sorted list is ordered by key. */
  lemma {:induction false} SortBySorted<T, K(!new)>(s: seq<T>, key: T -> K, le: (K, K) -> bool)
    requires TotalPreorder(le)
    ensures SortedBy(SortBy(s, key, le), key, le)
    decreases |s|
  {
    if |s| > 0 {
      SortBySorted(s[..|s| - 1], key, le);
      InsertSorted(s[|s| - 1], SortBy(s[..|s| - 1], key, le), key, le);
    }
  }

  lemma {:induction false} InsertLast<T, K>(x: T, s: seq<T>, key: T -> K, le: (K, K) -> bool)
    requires forall k :: 0 <= k < |s| ==> le(key(s[k]), key(x))
    ensures Insert(x, s, key, le) == s + [x]
    decreases |s|
  {
    if |s| > 0 {
      InsertLast(x, s[1..], key, le);
      assert [s[0]] + (s[1..] + [x]) == s + [x];
    }
  }

  /** Sorting a list that is already sorted leaves it as it is. */
  lemma {:induction false} SortBySortedIsIdentity<T, K>(s: seq<T>, key: T -> K, le: (K, K) -> bool)
    requires SortedBy(s, key, le)
    ensures SortBy(s, key, le) == s
    decreases |s|
  {
    if |s| > 0 {
      var init := s[..|s| - 1];
      SortBySortedIsIdentity(init, key, le);
      InsertLast(s[|s| - 1], init, key, le);
      assert init + [s[|s| - 1]] == s;
    }
  }

  /** `[x]` when `x`'s key is equivalent to `k` under `le` (they compare
      both ways), else `[]`. */
  function Own<T, K>(x: T, key: T -> K, le: (K, K) -> bool, k: K): seq<T> {
    if le(key(x), k) && le(k, key(x)) then [x] else []
  }

  /** The elements of `s` whose key is equivalent to `k`, in their order
      in `s`. */
  function KeyClass<T, K>(s: seq<T>, key: T -> K, le: (K, K) -> bool, k: K): seq<T> {
    if |s| == 0 then [] else Own(s[0], key, le, k) + KeyClass(s[1..], key, le, k)
  }

  lemma {:induction false} KeyClassAppend<T, K>(s: seq<T>, t: seq<T>, key: T -> K, le: (K, K) -> bool, k: K)
    ensures KeyClass(s + t, key, le, k) == KeyClass(s, key, le, k) + KeyClass(t, key, le, k)
    decreases |s|
  {
    if |s| > 0 {
      assert (s + t)[1..] == s[1..] + t;
      KeyClassAppend(s[1..], t, key, le, k);
    } else {
      assert s + t == t;
    }
  }

  lemma {:induction false} KeyClassNone<T, K>(s: seq<T>, key: T -> K, le: (K, K) -> bool, k: K)
    requires forall j :: 0 <= j < |s| ==> Own(s[j], key, le, k) == []
    ensures KeyClass(s, key, le, k) == []
    decreases |s|
  {
    if |s| > 0 {
      assert forall j :: 0 <= j < |s[1..]| ==> s[1..][j] == s[j + 1];
      KeyClassNone(s[1..], key, le, k);
    }
  }

  /** Under a total preorder, `a <= b` and `c <= d` with `a > d` leave `b > c`. */
  lemma NotBelow<K(!new)>(le: (K, K) -> bool, a: K, b: K, c: K, d: K)
    requires TotalPreorder(le)
    requires a == b || le(a, b)
    requires le(c, d) && !le(a, d)
    ensures !le(b, c)
  {
  }

  /** When `x` goes in front of a sorted list, no element of the list has
      a key equivalent to `x`'s. */
  lemma InsertFrontKeyClass<T, K(!new)>(x: T, s: seq<T>, key: T -> K, le: (K, K) -> bool, k: K)
    requires TotalPreorder(le)
    requires SortedBy(s, key, le)
    requires |s| > 0 && !le(key(s[0]), key(x))
    ensures KeyClass([x] + s, key, le, k) == KeyClass(s, key, le, k) + Own(x, key, le, k)
  {
    assert ([x] + s)[1..] == s;
    if Own(x, key, le, k) != [] {
      forall j | 0 <= j < |s| ensures Own(s[j], key, le, k) == [] {
        NotBelow(le, key(s[0]), key(s[j]), k, key(x));
      }
      KeyClassNone(s, key, le, k);
    }
  }

  /** Inserting `x` into a sorted list appends it to its key class. */
  lemma {:induction false} InsertKeyClass<T, K(!new)>(x: T, s: seq<T>, key: T -> K, le: (K, K) -> bool, k: K)
    requires TotalPreorder(le)
    requires SortedBy(s, key, le)
    ensures KeyClass(Insert(x, s, key, le), key, le, k) == KeyClass(s, key, le, k) + Own(x, key, le, k)
    decreases |s|
  {
    if |s| == 0 {
      assert [x][1..] == [];
    } else if le(key(s[0]), key(x)) {
      var rest := Insert(x, s[1..], key, le);
      assert SortedBy(s[1..], key, le) by {
        assert forall i :: 0 <= i < |s[1..]| ==> s[1..][i] == s[i + 1];
      }
      InsertKeyClass(x, s[1..], key, le, k);
      assert ([s[0]] + rest)[1..] == rest;
      assert KeyClass(Insert(x, s, key, le), key, le, k) == Own(s[0], key, le, k) + KeyClass(rest, key, le, k);
    } else {
      InsertFrontKeyClass(x, s, key, le, k);
    }
  }

  /** The sort is stable: the elements whose keys are equivalent to any
      given key keep their relative order. */
  lemma {:induction false} SortByStable<T, K(!new)>(s: seq<T>, key: T -> K, le: (K, K) -> bool, k: K)
    requires TotalPreorder(le)
    ensures KeyClass(SortBy(s, key, le), key, le, k) == KeyClass(s, key, le, k)
    decreases |s|
  {
    if |s| > 0 {
      var init, last := s[..|s| - 1], s[|s| - 1];
      SortByStable(init, key, le, k);
      SortBySorted(init, key, le);
      InsertKeyClass(last, SortBy(init, key, le), key, le, k);
      KeyClassLast(s, key, le, k);
    }
  }

  lemma KeyClassLast<T, K>(s: seq<T>, key: T -> K, le: (K, K) -> bool, k: K)
    requires |s| > 0
    ensures KeyClass(s, key, le, k) == KeyClass(s[..|s| - 1], key, le, k) + Own(s[|s| - 1], key, le, k)
  {
    KeyClassAppend(s[..|s| - 1], [s[|s| - 1]], key, le, k);
    assert s[..|s| - 1] + [s[|s| - 1]] == s;
    assert [s[|s| - 1]][1..] == [];
  }

  /** `le` is a total order: a total preorder in which keys that compare
      both ways are equal. */
  ghost predicate TotalOrder<K(!new)>(le: (K, K) -> bool) {
    && TotalPreorder(le)
    && (forall a, b :: le(a, b) && le(b, a) ==> a == b)
  }

  lemma {:induction false} MinimumExists<K(!new)>(s: set<K>, le: (K, K) -> bool)
    requires TotalPreorder(le)
    requires s != {}
    ensures exists m :: m in s && forall y :: y in s ==> le(m, y)
    decreases |s|
  {
    var x :| x in s;
    if s - {x} == {} {
      assert s == {x};
      assert le(x, x);
    } else {
      MinimumExists(s - {x}, le);
      var m :| m in s - {x} && forall y :: y in s - {x} ==> le(m, y);
      if le(m, x) {
        assert forall y :: y in s ==> le(m, y);
      } else {
        assert le(x, m);
        assert forall y :: y in s ==> le(x, y);
      }
    }
  }

  /** Python's `sorted(s)` for a set `s`: its elements in increasing order,
      each once. */
  function SortedSet<K(!new)>(s: set<K>, le: (K, K) -> bool): (r: seq<K>)
    requires TotalOrder(le)
    ensures |r| == |s|
    ensures forall x :: x in r <==> x in s
    ensures forall i, j :: 0 <= i < j < |r| ==> le(r[i], r[j]) && r[i] != r[j]
    decreases |s|
  {
    if s == {} then []
    else
      MinimumExists(s, le);
      var m :| m in s && forall y :: y in s ==> le(m, y);
      [m] + SortedSet(s - {m}, le)
  }

  /** Integer keys in ascending order. */
  predicate IntLe(a: int, b: int) {
    a <= b
  }

  lemma IntLeTotalOrder()
    ensures TotalOrder(IntLe)
  {
  }
}

=== FILE: ta_request.dfy ===
/** Reading the query parameters of the two TA routes: the `securityId` both
    of them require, and the `indicators` list of `/api/ta/indicators`, which
    is validated against the five supported names and defaults to all five
    when empty. */
module TaRequest {
  import opened Wrappers
  import Text
  import opened PyValue
  import Indicators

  /** The indicators computed when none are named, in the order they are
      listed. */
  const DefaultIndicators: seq<string> := ["sma20", "ema50", "rsi14", "macd", "bb20"]

  /** Why a TA request is answered with status 400. */
  datatype RequestError =
    | BadSecurityId
    | UnsupportedIndicators(invalid: seq<string>)

  /** `_safe_int(request.args.get("securityId"))`. */
  function SecurityId(env: Env, raw: Option<string>): (r: Option<int>)
    ensures raw.None? || raw == Some("") ==> r.None?
    ensures r.Some? ==> SafeFloat(env, Str(raw.value)).Some? && r.value == Trunc(SafeFloat(env, Str(raw.value)).value)
  {
    match raw
    case None => SafeInt(env, Null)
    case Some(s) => SafeInt(env, Str(s))
  }

  /** The stripped pieces that are not empty, in order. */
  function NonEmptyStripped(pieces: seq<string>): (r: seq<string>)
    ensures |r| <= |pieces|
    ensures forall k :: 0 <= k < |r| ==> r[k] != "" && Text.Strip(r[k]) == r[k]
    ensures forall x :: x in r <==> x != "" && exists i :: 0 <= i < |pieces| && Text.Strip(pieces[i]) == x
    decreases |pieces|
  {
    if |pieces| == 0 then []
    else
      var x := Text.Strip(pieces[0]);
      var rest := NonEmptyStripped(pieces[1..]);
      Text.StripUnchanged(x);
      assert forall i :: 0 <= i < |pieces| - 1 ==> pieces[1..][i] == pieces[i + 1];
      if x == "" then rest else [x] + rest
  }

  /** The names an `indicators` parameter asks for: the whole value stripped
      and lower-cased, split on commas, each piece stripped, empty pieces
      dropped; repetitions and order are kept. */
  function RequestedNames(param: Option<string>): (r: seq<string>)
    ensures forall k :: 0 <= k < |r| ==> r[k] != "" && ',' !in r[k] && Text.Strip(r[k]) == r[k]
    ensures param.None? ==> r == []
  {
    var csv := Text.Lower(Text.Strip(param.GetOr("")));
    var pieces := Text.Split(csv, ',');
    var r := NonEmptyStripped(pieces);
    forall k | 0 <= k < |r| ensures ',' !in r[k] {
      assert r[k] in r;
      var i :| 0 <= i < |pieces| && Text.Strip(pieces[i]) == r[k];
      StripKeepsOut(pieces[i], ',');
    }
    r
  }

  /** Stripping only removes characters. */
  lemma StripKeepsOut(s: string, c: char)
    requires c !in s
    ensures c !in Text.Strip(s)
  {
    var i := Text.StartOfText(s, 0);
    var j := Text.EndOfText(s, i, |s|);
    assert Text.Strip(s) == s[i..j];
  }

  /** A list of clean lower-case names written with commas between them is
      read back as exactly that list. */
  lemma {:induction false} RequestedNamesRoundTrip(names: seq<string>)
    requires |names| >= 1
    requires forall k :: 0 <= k < |names| ==> names[k] != "" && ',' !in names[k] && Text.Strip(names[k]) == names[k]
    requires forall k, m :: 0 <= k < |names| && 0 <= m < |names[k]| ==> !('A' <= names[k][m] <= 'Z')
    ensures RequestedNames(Some(Text.Join(names, ','))) == names
  {
    var joined := Text.Join(names, ',');
    Text.JoinEnds(names, ',');
    assert !Text.IsSpace(names[0][0]) && !Text.IsSpace(names[|names| - 1][|names[|names| - 1]| - 1]) by {
      assert Text.Strip(names[0]) == names[0];
      assert Text.Strip(names[|names| - 1]) == names[|names| - 1];
    }
    Text.StripUnchanged(joined);
    JoinHasNoUpper(names);
    Text.LowerUnchanged(joined);
    Text.SplitJoin(names, ',');
    CleanNamesKept(names);
  }

  lemma {:induction false} JoinHasNoUpper(names: seq<string>)
    requires forall k, m :: 0 <= k < |names| && 0 <= m < |names[k]| ==> !('A' <= names[k][m] <= 'Z')
    ensures forall m :: 0 <= m < |Text.Join(names, ',')| ==> !('A' <= Text.Join(names, ',')[m] <= 'Z')
    decreases |names|
  {
    if |names| > 1 {
      JoinHasNoUpper(names[1..]);
      var j := Text.Join(names, ',');
      var rest := Text.Join(names[1..], ',');
      assert j == names[0] + [','] + rest;
      forall m | 0 <= m < |j| ensures !('A' <= j[m] <= 'Z') {
        if m < |names[0]| {
          assert j[m] == names[0][m];
          assert !('A' <= names[0][m] <= 'Z');
        } else if m > |names[0]| {
          assert j[m] == rest[m - |names[0]| - 1];
          assert !('A' <= rest[m - |names[0]| - 1] <= 'Z');
        } else {
          assert j[m] == ',';
        }
      }
    }
  }

  lemma {:induction false} CleanNamesKept(names: seq<string>)
    requires forall k :: 0 <= k < |names| ==> names[k] != "" && Text.Strip(names[k]) == names[k]
    ensures NonEmptyStripped(names) == names
    decreases |names|
  {
    if |names| > 0 {
      CleanNamesKept(names[1..]);
      assert [names[0]] + names[1..] == names;
    }
  }

  /** A requested name, kept when it is not one of the supported ones. */
  function Invalid(name: string): Option<string>
  {
    if name in Indicators.Supported then None else Some(name)
  }

  /** The requested names that are not supported, in request order. */
  function Unsupported(names: seq<string>): (r: seq<string>)
    ensures forall x :: x in r <==> x in names && x !in Indicators.Supported
  {
    var r := FilterMap(names, Invalid);
    assert forall x :: x in names ==> exists i :: 0 <= i < |names| && names[i] == x;
    r
  }

  /** `Unsupported` keeps request order: the invalid names of a longer request
      are those of its first part followed by those of the rest, and one name
      is listed exactly when it is not supported; together these fix the
      list, duplicates included. */
  lemma UnsupportedInOrder(names: seq<string>, more: seq<string>, x: string)
    ensures Unsupported(names + more) == Unsupported(names) + Unsupported(more)
    ensures Unsupported([x]) == if x in Indicators.Supported then [] else [x]
  {
    FilterMapInOrder(names, more, x, Invalid);
  }

  /** The indicator names a request computes, or the invalid names it is
      refused for. */
  function Selection(param: Option<string>): (r: Result<seq<string>, seq<string>>)
    ensures r.Failure? <==> exists x :: x in RequestedNames(param) && x !in Indicators.Supported
    ensures r.Failure? ==> |r.error| > 0 && forall x :: x in r.error <==> x in RequestedNames(param) && x !in Indicators.Supported
    ensures r.Failure? ==> r.error == Unsupported(RequestedNames(param))
    ensures r.Success? ==> |r.value| > 0 && forall k :: 0 <= k < |r.value| ==> r.value[k] in Indicators.Supported
    ensures r.Success? && RequestedNames(param) != [] ==> r.value == RequestedNames(param)
    ensures r.Success? && RequestedNames(param) == [] ==> r.value == DefaultIndicators
  {
    var requested := RequestedNames(param);
    var invalid := Unsupported(requested);
    if invalid != [] then
      assert invalid[0] in invalid;
      Failure(invalid)
    else if requested == [] then Success(DefaultIndicators)
    else
      assert forall k :: 0 <= k < |requested| ==> requested[k] in requested;
      Success(requested)
  }

  /** The default list names every supported indicator once. */
  lemma DefaultIsEverySupported()
    ensures forall x :: x in DefaultIndicators <==> x in Indicators.Supported
    ensures forall k, m :: 0 <= k < m < |DefaultIndicators| ==> DefaultIndicators[k] != DefaultIndicators[m]
  {
  }

  /** `/api/ta/indicators` up to the computation: the security id and the
      names to compute, or why the request is refused.  The id is checked
      first. */
  function IndicatorsRequest(env: Env, securityIdParam: Option<string>, indicatorsParam: Option<string>)
    : (r: Result<(int, seq<string>), RequestError>)
    ensures SecurityId(env, securityIdParam).None? <==> r == Failure(BadSecurityId)
    ensures r.Success? <==> SecurityId(env, securityIdParam).Some? && Selection(indicatorsParam).Success?
    ensures r.Success? ==> r.value == (SecurityId(env, securityIdParam).value, Selection(indicatorsParam).value)
    ensures r.Failure? && r.error.UnsupportedIndicators? ==> r.error.invalid == Selection(indicatorsParam).error
  {
    match SecurityId(env, securityIdParam)
    case None => Failure(BadSecurityId)
    case Some(id) =>
      match Selection(indicatorsParam)
      case Failure(invalid) => Failure(UnsupportedIndicators(invalid))
      case Success(names) => Success((id, names))
  }
}

=== FILE: ta_service.dfy ===
/** The two TA routes over the shared state: the rate-limit buckets and the
    TTL cache, which holds candle histories under `ta_history:<id>` and
    computed indicator series under `ta_indicators:<id>:<names>`.  A history
    is read from the document store (the NEPSE symbol lookup is the parameter
    `symbolOf`), normalized and sorted by time; indicators are computed over a
    (possibly cached) history. */
module TaService {
  import opened Wrappers
  import Text
  import Sorting
  import opened PyValue
  import Normalizer
  import Indicators
  import TtlCache
  import RateLimit
  import DocStore
  import TaRequest

  /** What the TA routes put in the cache. */
  datatype CachedValue =
    | History(symbol: string, securityId: int, candles: seq<Normalizer.Candle>)
    | Computed(securityId: int, series: map<string, Indicators.Series>)

  type Cache = TtlCache.Cache<CachedValue>

  // ---------------------------------------------------------------------
  // Cache keys

  const HistoryPrefix: string := "ta_history:"
  const IndicatorsPrefix: string := "ta_indicators:"

  function HistoryKey(securityId: int): string {
    HistoryPrefix + Text.IntToString(securityId)
  }

  /** `sorted(set(indicators))`: the distinct names in ascending code-point
      order. */
  function CanonicalNames(names: seq<string>): (r: seq<string>)
    ensures forall x :: x in r <==> x in names
    ensures forall i, j :: 0 <= i < j < |r| ==> Text.StrLe(r[i], r[j]) && r[i] != r[j]
  {
    Text.StrLeTotalOrder();
    Sorting.SortedSet((set x | x in names), Text.StrLe)
  }

  function IndicatorsKey(securityId: int, names: seq<string>): string {
    IndicatorsPrefix + (Text.IntToString(securityId) + ":" + Text.Join(CanonicalNames(names), ','))
  }

  /** Requests for the same indicators, in any order and with any
      repetition, share one cache entry. */
  lemma SameNamesSameKey(securityId: int, a: seq<string>, b: seq<string>)
    requires forall x :: x in a <==> x in b
    ensures IndicatorsKey(securityId, a) == IndicatorsKey(securityId, b)
  {
    assert (set x | x in a) == (set x | x in b);
  }

  /** Conversely, two requests share an entry only when they are for the
      same security and the same set of names (names are non-empty and free
      of commas once validated). */
  lemma SameKeySameNames(i: int, a: seq<string>, j: int, b: seq<string>)
    requires forall k :: 0 <= k < |a| ==> a[k] != "" && ',' !in a[k]
    requires forall k :: 0 <= k < |b| ==> b[k] != "" && ',' !in b[k]
    requires IndicatorsKey(i, a) == IndicatorsKey(j, b)
    ensures i == j
    ensures forall x :: x in a <==> x in b
  {
    var ca := CanonicalNames(a);
    var cb := CanonicalNames(b);
    KeyParts(i, ca, j, cb);
    forall k | 0 <= k < |ca| ensures ca[k] != "" && ',' !in ca[k] {
      assert ca[k] in ca;
    }
    forall k | 0 <= k < |cb| ensures cb[k] != "" && ',' !in cb[k] {
      assert cb[k] in cb;
    }
    JoinedNamesDetermineNames(ca, cb);
  }

  /** The security id and the joined names can be read back from a key. */
  lemma KeyParts(i: int, ca: seq<string>, j: int, cb: seq<string>)
    requires IndicatorsPrefix + (Text.IntToString(i) + ":" + Text.Join(ca, ','))
             == IndicatorsPrefix + (Text.IntToString(j) + ":" + Text.Join(cb, ','))
    ensures i == j && Text.Join(ca, ',') == Text.Join(cb, ',')
  {
    var sa := Text.IntToString(i) + ":" + Text.Join(ca, ',');
    var sb := Text.IntToString(j) + ":" + Text.Join(cb, ',');
    assert sa == (IndicatorsPrefix + sa)[|IndicatorsPrefix|..];
    assert sb == (IndicatorsPrefix + sb)[|IndicatorsPrefix|..];
    NoColonInNumber(i);
    NoColonInNumber(j);
    SplitAtColon(Text.IntToString(i), Text.Join(ca, ','), Text.IntToString(j), Text.Join(cb, ','));
    Text.IntToStringInjective(i, j);
  }

  /** Comma-joined lists of non-empty, comma-free names are equal only when
      the lists are. */
  lemma JoinedNamesDetermineNames(a: seq<string>, b: seq<string>)
    requires forall k :: 0 <= k < |a| ==> a[k] != "" && ',' !in a[k]
    requires forall k :: 0 <= k < |b| ==> b[k] != "" && ',' !in b[k]
    requires Text.Join(a, ',') == Text.Join(b, ',')
    ensures a == b
  {
    if |a| == 0 && |b| > 0 {
      Text.JoinEnds(b, ',');
    } else if |b| == 0 && |a| > 0 {
      Text.JoinEnds(a, ',');
    } else if |a| > 0 && |b| > 0 {
      Text.SplitJoin(a, ',');
      Text.SplitJoin(b, ',');
    }
  }

  lemma NoColonInNumber(i: int)
    ensures ':' !in Text.IntToString(i)
  {
    var s := Text.IntToString(i);
    if i < 0 {
      assert s == "-" + Text.NatToString(-i);
      assert forall k :: 1 <= k < |s| ==> s[k] == Text.NatToString(-i)[k - 1];
    }
  }

  /** Two strings that both start with a colon-free part and a colon agree
      on that part and on the rest. */
  lemma SplitAtColon(a: string, x: string, b: string, y: string)
    requires ':' !in a && ':' !in b
    requires a + ":" + x == b + ":" + y
    ensures a == b && x == y
  {
    var s := a + ":" + x;
    var t := b + ":" + y;
    assert forall k :: 0 <= k < |a| ==> s[k] == a[k];
    assert forall k :: 0 <= k < |b| ==> t[k] == b[k];
    assert s[|a|] == ':' && t[|b|] == ':';
    assert |a| == |b|;
    assert a == s[..|a|] && b == t[..|b|];
    assert x == s[|a| + 1..] && y == t[|b| + 1..];
  }

  /** A security's history key and its indicator keys never collide, and
      distinct securities have distinct history keys. */
  lemma KeysDistinct(i: int, j: int, names: seq<string>)
    ensures HistoryKey(i) != IndicatorsKey(j, names)
    ensures HistoryKey(i) == HistoryKey(j) <==> i == j
  {
    assert HistoryKey(i)[3] == 'h';
    assert IndicatorsKey(j, names)[3] == 'i';
    if HistoryKey(i) == HistoryKey(j) {
      assert Text.IntToString(i) == HistoryKey(i)[|HistoryPrefix|..];
      assert Text.IntToString(j) == HistoryKey(j)[|HistoryPrefix|..];
      Text.IntToStringInjective(i, j);
    }
  }

  // ---------------------------------------------------------------------
  // Histories and indicators

  /** A stored day candle as the JSON object it is read back as. */
  function DayCandleRow(c: DocStore.DayCandle): Row {
    map["date" := Str(c.date), "open" := Float(c.open), "high" := Float(c.high),
        "low" := Float(c.low), "close" := Float(c.close), "volume" := Float(c.volume)]
  }

  /** Reading the stored candle `d` back yields the candle `c`. */
  predicate ReadsAs(env: Env, d: DocStore.DayCandle, c: Normalizer.Candle) {
    Normalizer.NormalizeRow(env, Dict(Normalizer.StoredRowView(DayCandleRow(d)))) == Some(c)
  }

  /** A stored candle is read back, with its prices and volume as stored,
      exactly when its date parses. */
  lemma ReadStoredCandle(env: Env, d: DocStore.DayCandle, c: Normalizer.Candle)
    ensures ReadsAs(env, d, c) <==>
              && Normalizer.ParseTime(env, Str(d.date)) == Some(c.time)
              && c == Normalizer.Candle(c.time, d.open, d.high, d.low, d.close, d.volume)
  {
    StoredRowTime(env, d);
    StoredRowPrices(d);
  }

  /** The time of a stored row is its date. */
  lemma StoredRowTime(env: Env, d: DocStore.DayCandle)
    ensures var row := Normalizer.StoredRowView(DayCandleRow(d));
            Normalizer.ParseTime(env, Normalizer.RawTime(row)) == Normalizer.ParseTime(env, Str(d.date))
  {
    var row := Normalizer.StoredRowView(DayCandleRow(d));
    assert Get(row, "time") == Null && Get(row, "timestamp") == Null && Get(row, "date") == Str(d.date);
    var t := Normalizer.RawTime(row);
    if d.date == "" {
      Normalizer.FalsyTimeRejected(env, t);
    } else {
      var keys := Normalizer.TimeKeys;
      assert Truthy(Get(row, keys[2]));
      var k :| 0 <= k < |keys| && t == Get(row, keys[k]) && forall j :: 0 <= j < k ==> !Truthy(Get(row, keys[j]));
      assert k == 2;
    }
  }

  /** The prices and volume of a stored row are the stored ones. */
  lemma StoredRowPrices(d: DocStore.DayCandle)
    ensures var row := Normalizer.StoredRowView(DayCandleRow(d));
            && Normalizer.RawOpen(row) == Float(d.open) && Normalizer.RawHigh(row) == Float(d.high)
            && Normalizer.RawLow(row) == Float(d.low) && Normalizer.RawClose(row) == Float(d.close)
            && Normalizer.RawVolume(row) == Float(d.volume)
  {
  }

  /** The stored candles of one symbol as rows. */
  function StoredRows(stored: seq<DocStore.DayCandle>): (rows: seq<Row>)
    ensures |rows| == |stored|
    ensures forall i :: 0 <= i < |stored| ==> rows[i] == DayCandleRow(stored[i])
  {
    seq(|stored|, i requires 0 <= i < |stored| => DayCandleRow(stored[i]))
  }

  /** The candles of `symbol` in the document store, normalized, with the
      rejected ones dropped, sorted by time. */
  function StoredCandles(env: Env, store: DocStore.Store, symbol: string): (r: seq<Normalizer.Candle>)
    ensures Sorting.SortedBy(r, Normalizer.CandleTime, Sorting.IntLe)
    ensures |r| <= |DocStore.Series(store.symbols, Text.Upper(symbol))|
  {
    var stored := DocStore.Series(store.symbols, Text.Upper(symbol));
    var r := Normalizer.NormalizeStoredRows(env, StoredRows(stored));
    assert |r| == |Normalizer.AcceptedCandles(env, StoredRows(stored))| by {
      assert |multiset(r)| == |multiset(Normalizer.AcceptedCandles(env, StoredRows(stored)))|;
    }
    r
  }

  /** The history holds exactly the stored candles that read back. */
  lemma StoredCandlesMembers(env: Env, store: DocStore.Store, symbol: string, c: Normalizer.Candle)
    ensures var stored := DocStore.Series(store.symbols, Text.Upper(symbol));
            c in StoredCandles(env, store, symbol) <==> exists i :: 0 <= i < |stored| && ReadsAs(env, stored[i], c)
  {
    var stored := DocStore.Series(store.symbols, Text.Upper(symbol));
    var rows := StoredRows(stored);
    var r := Normalizer.NormalizeStoredRows(env, rows);
    assert StoredCandles(env, store, symbol) == r;
    assert c in r <==> c in Normalizer.AcceptedCandles(env, rows);
    if c in r {
      var i :| 0 <= i < |rows| && Normalizer.NormalizeRow(env, Dict(Normalizer.StoredRowView(rows[i]))) == Some(c);
      RowReadsAs(env, stored[i], rows[i], c);
    }
    if exists i :: 0 <= i < |stored| && ReadsAs(env, stored[i], c) {
      var i :| 0 <= i < |stored| && ReadsAs(env, stored[i], c);
      RowReadsAs(env, stored[i], rows[i], c);
      assert Normalizer.NormalizeRow(env, Dict(Normalizer.StoredRowView(rows[i]))) == Some(c);
    }
  }

  lemma RowReadsAs(env: Env, d: DocStore.DayCandle, row: Row, c: Normalizer.Candle)
    requires row == DayCandleRow(d)
    ensures ReadsAs(env, d, c) <==> Normalizer.NormalizeRow(env, Dict(Normalizer.StoredRowView(row))) == Some(c)
  {
  }

  /** The clock readings of one TA request.  The rate limiter and the cache
      reads follow one another with nothing slow in between, so they share
      `now`.  Each `_cache_set` reads the clock again: a fetched history is
      written at `historySetAt`, after the symbol lookup and the store read,
      and a computed indicator result at `resultSetAt`, after its series. */
  datatype Clock = Clock(now: real, historySetAt: real, resultSetAt: real)

  /** `_get_or_fetch_ta_history`: the cache afterwards and the history. */
  function GetOrFetchHistory(env: Env, cache: Cache, securityId: int, clock: Clock,
                             symbolOf: int -> string, store: DocStore.Store): (r: (Cache, CachedValue))
    ensures var key := HistoryKey(securityId);
            key in cache && TtlCache.Live(cache[key].ts, clock.now) ==> r == (cache, cache[key].value)
    ensures var key := HistoryKey(securityId);
            !(key in cache && TtlCache.Live(cache[key].ts, clock.now)) ==>
              && r.1 == History(symbolOf(securityId), securityId, StoredCandles(env, store, symbolOf(securityId)))
              && r.0 == cache[key := TtlCache.Entry(clock.historySetAt, r.1)]
  {
    var key := HistoryKey(securityId);
    var (c1, hit) := TtlCache.Get(cache, key, clock.now);
    match hit
    case Some(v) => (c1, v)
    case None =>
      var symbol := symbolOf(securityId);
      var v := History(symbol, securityId, StoredCandles(env, store, symbol));
      TtlCache.SetAfterMiss(cache, key, v, clock.now, clock.historySetAt);
      (TtlCache.Set(c1, key, v, clock.historySetAt), v)
  }

  /** The candles of a cached history (`payload.get("candles", [])`). */
  function CandlesOf(v: CachedValue): seq<Normalizer.Candle> {
    if v.History? then v.candles else []
  }

  /** A read of another key that missed changes neither the history that
      `_get_history` serves nor the entries besides the two keys. */
  lemma FetchAfterMiss(env: Env, cache: Cache, key: string, securityId: int, clock: Clock,
                       symbolOf: int -> string, store: DocStore.Store)
    requires key != HistoryKey(securityId)
    requires TtlCache.Get(cache, key, clock.now).1.None?
    ensures var fetched := GetOrFetchHistory(env, TtlCache.Get(cache, key, clock.now).0, securityId, clock, symbolOf, store);
            && fetched.1 == GetOrFetchHistory(env, cache, securityId, clock, symbolOf, store).1
            && HistoryKey(securityId) in fetched.0
            && forall k :: k != key && k != HistoryKey(securityId) ==>
                 && (k in fetched.0 <==> k in cache)
                 && (k in fetched.0 ==> fetched.0[k] == cache[k])
  {
  }

  /** `_get_cached_indicators`: the cache afterwards and the result. */
  function GetCachedIndicators(env: Env, cache: Cache, securityId: int, names: seq<string>, clock: Clock,
                               symbolOf: int -> string, store: DocStore.Store, sqrt: real -> real)
    : (r: (Cache, CachedValue))
    ensures var key := IndicatorsKey(securityId, names);
            key in cache && TtlCache.Live(cache[key].ts, clock.now) ==> r == (cache, cache[key].value)
    ensures var key := IndicatorsKey(securityId, names);
            !(key in cache && TtlCache.Live(cache[key].ts, clock.now)) ==>
              var history := GetOrFetchHistory(env, cache, securityId, clock, symbolOf, store);
              && r.1 == Computed(securityId, Indicators.ComputeIndicatorSeries(CandlesOf(history.1), CanonicalNames(names), sqrt))
              && (forall x :: x in r.1.series <==> x in names && x in Indicators.Supported)
              && key in r.0 && r.0[key] == TtlCache.Entry(clock.resultSetAt, r.1)
              && HistoryKey(securityId) in r.0
              && r.0 == GetOrFetchHistory(env, TtlCache.Get(cache, key, clock.now).0, securityId, clock, symbolOf, store).0[key := TtlCache.Entry(clock.resultSetAt, r.1)]
    ensures forall k :: k != IndicatorsKey(securityId, names) && k != HistoryKey(securityId) ==>
              && (k in r.0 <==> k in cache)
              && (k in r.0 ==> r.0[k] == cache[k])
  {
    var key := IndicatorsKey(securityId, names);
    var (c1, hit) := TtlCache.Get(cache, key, clock.now);
    match hit
    case Some(v) => (c1, v)
    case None =>
      var canonical := CanonicalNames(names);
      var (c2, history) := GetOrFetchHistory(env, c1, securityId, clock, symbolOf, store);
      KeysDistinct(securityId, securityId, names);
      FetchAfterMiss(env, cache, key, securityId, clock, symbolOf, store);
      var v := Computed(securityId, Indicators.ComputeIndicatorSeries(CandlesOf(history), canonical, sqrt));
      (TtlCache.Set(c2, key, v, clock.resultSetAt), v)
  }

  /** Once computed, an indicator result is served from the cache for the
      TTL, also to requests that list the same names differently. */
  lemma IndicatorsServedFromCache(env: Env, cache: Cache, securityId: int, names: seq<string>, again: seq<string>,
                                  clock: Clock, later: Clock, symbolOf: int -> string, store: DocStore.Store,
                                  sqrt: real -> real)
    requires forall x :: x in names <==> x in again
    requires clock.resultSetAt <= later.now && later.now - clock.resultSetAt < TtlCache.TtlSeconds
    requires var key := IndicatorsKey(securityId, names); !(key in cache && TtlCache.Live(cache[key].ts, clock.now))
    ensures var first := GetCachedIndicators(env, cache, securityId, names, clock, symbolOf, store, sqrt);
            GetCachedIndicators(env, first.0, securityId, again, later, symbolOf, store, sqrt) == first
  {
    SameNamesSameKey(securityId, names, again);
  }

  // ---------------------------------------------------------------------
  // What the cache holds

  /** Names as the request checks leave them: non-empty and free of
      commas. */
  predicate CleanNames(names: seq<string>) {
    forall k :: 0 <= k < |names| ==> names[k] != "" && ',' !in names[k]
  }

  /** `v` is a result for security `id` with a series for exactly the
      supported names among `names`. */
  ghost predicate ResultFor(v: CachedValue, id: int, names: seq<string>) {
    && v.Computed?
    && v.securityId == id
    && forall x :: x in v.series <==> x in names && x in Indicators.Supported
  }

  /** Under a history key, the history of that security; under the
      indicator key of clean names, a result for that security holding a
      series for exactly the supported names among them. */
  ghost predicate Consistent(cache: Cache) {
    && (forall id :: HistoryKey(id) in cache ==>
          cache[HistoryKey(id)].value.History? && cache[HistoryKey(id)].value.securityId == id)
    && (forall id, names :: CleanNames(names) && IndicatorsKey(id, names) in cache ==>
          ResultFor(cache[IndicatorsKey(id, names)].value, id, names))
  }

  /** Dropping entries keeps the cache consistent. */
  lemma ConsistentSubcache(cache: Cache, smaller: Cache)
    requires Consistent(cache)
    requires forall k :: k in smaller ==> k in cache && smaller[k] == cache[k]
    ensures Consistent(smaller)
  {
  }

  /** Fetching a history keeps the cache consistent and yields the history
      of the requested security. */
  lemma GetOrFetchHistoryConsistent(env: Env, cache: Cache, securityId: int, clock: Clock,
                                    symbolOf: int -> string, store: DocStore.Store)
    requires Consistent(cache)
    ensures var r := GetOrFetchHistory(env, cache, securityId, clock, symbolOf, store);
            Consistent(r.0) && r.1.History? && r.1.securityId == securityId
  {
    var r := GetOrFetchHistory(env, cache, securityId, clock, symbolOf, store);
    var key := HistoryKey(securityId);
    if !(key in cache && TtlCache.Live(cache[key].ts, clock.now)) {
      forall id | HistoryKey(id) in r.0
        ensures r.0[HistoryKey(id)].value.History? && r.0[HistoryKey(id)].value.securityId == id
      {
        KeysDistinct(id, securityId, []);
      }
      forall id, names | CleanNames(names) && IndicatorsKey(id, names) in r.0
        ensures ResultFor(r.0[IndicatorsKey(id, names)].value, id, names)
      {
        KeysDistinct(securityId, id, names);
      }
    }
  }

  /** Serving indicators keeps the cache consistent, and the result is for
      the requested security with a series for exactly the supported names
      requested. */
  lemma GetCachedIndicatorsConsistent(env: Env, cache: Cache, securityId: int, names: seq<string>, clock: Clock,
                                      symbolOf: int -> string, store: DocStore.Store, sqrt: real -> real)
    requires Consistent(cache) && CleanNames(names)
    ensures var r := GetCachedIndicators(env, cache, securityId, names, clock, symbolOf, store, sqrt);
            Consistent(r.0) && ResultFor(r.1, securityId, names)
  {
    var r := GetCachedIndicators(env, cache, securityId, names, clock, symbolOf, store, sqrt);
    var key := IndicatorsKey(securityId, names);
    if !(key in cache && TtlCache.Live(cache[key].ts, clock.now)) {
      var c1 := TtlCache.Get(cache, key, clock.now).0;
      ConsistentSubcache(cache, c1);
      var c2 := GetOrFetchHistory(env, c1, securityId, clock, symbolOf, store).0;
      GetOrFetchHistoryConsistent(env, c1, securityId, clock, symbolOf, store);
      assert r.0 == TtlCache.Set(c2, key, r.1, clock.resultSetAt);
      forall id | HistoryKey(id) in r.0
        ensures r.0[HistoryKey(id)].value.History? && r.0[HistoryKey(id)].value.securityId == id
      {
        KeysDistinct(id, securityId, names);
      }
      forall id, other | CleanNames(other) && IndicatorsKey(id, other) in r.0
        ensures ResultFor(r.0[IndicatorsKey(id, other)].value, id, other)
      {
        if IndicatorsKey(id, other) == key {
          SameKeySameNames(id, other, securityId, names);
        }
      }
    }
  }

  // ---------------------------------------------------------------------
  // The routes

  datatype State = State(buckets: RateLimit.Buckets, cache: Cache)

  datatype Outcome =
    | Limited(retryAfter: int)
    | BadRequest(error: TaRequest.RequestError)
    | Ok(payload: CachedValue)

  /** `/api/ta/history`: rate limiting first, then the `securityId` check,
      then the cached or freshly read history. */
  function HistoryRoute(env: Env, st: State, forwardedFor: Option<string>, remoteAddr: Option<string>,
                        securityIdParam: Option<string>, clock: Clock,
                        symbolOf: int -> string, store: DocStore.Store): (r: (State, Outcome))
    ensures r.0.buckets == RateLimit.EnforceRequest(st.buckets, "ta_history", forwardedFor, remoteAddr, clock.now).0
    ensures r.1.Limited? <==> RateLimit.EnforceRequest(st.buckets, "ta_history", forwardedFor, remoteAddr, clock.now).1.Reject?
    ensures !r.1.Ok? ==> r.0.cache == st.cache
    ensures r.1.Ok? ==> TaRequest.SecurityId(env, securityIdParam).Some?
    ensures r.1.Ok? ==>
              (r.0.cache, r.1.payload) ==
              GetOrFetchHistory(env, st.cache, TaRequest.SecurityId(env, securityIdParam).value, clock, symbolOf, store)
    ensures r.1 == BadRequest(TaRequest.BadSecurityId) <==>
              RateLimit.EnforceRequest(st.buckets, "ta_history", forwardedFor, remoteAddr, clock.now).1.Admit? &&
              TaRequest.SecurityId(env, securityIdParam).None?
  {
    var (b, d) := RateLimit.EnforceRequest(st.buckets, "ta_history", forwardedFor, remoteAddr, clock.now);
    if d.Reject? then (State(b, st.cache), Limited(d.retryAfter))
    else match TaRequest.SecurityId(env, securityIdParam)
      case None => (State(b, st.cache), BadRequest(TaRequest.BadSecurityId))
      case Some(id) =>
        var (c, v) := GetOrFetchHistory(env, st.cache, id, clock, symbolOf, store);
        (State(b, c), Ok(v))
  }

  /** `/api/ta/indicators`: rate limiting first, then the request checks,
      then the cached or freshly computed series.  A refused request still
      counts against the client's limit. */
  function IndicatorsRoute(env: Env, st: State, forwardedFor: Option<string>, remoteAddr: Option<string>,
                           securityIdParam: Option<string>, indicatorsParam: Option<string>, clock: Clock,
                           symbolOf: int -> string, store: DocStore.Store, sqrt: real -> real): (r: (State, Outcome))
    ensures r.0.buckets == RateLimit.EnforceRequest(st.buckets, "ta_indicators", forwardedFor, remoteAddr, clock.now).0
    ensures r.1.Limited? <==> RateLimit.EnforceRequest(st.buckets, "ta_indicators", forwardedFor, remoteAddr, clock.now).1.Reject?
    ensures !r.1.Ok? ==> r.0.cache == st.cache
    ensures r.1.BadRequest? <==>
              RateLimit.EnforceRequest(st.buckets, "ta_indicators", forwardedFor, remoteAddr, clock.now).1.Admit? &&
              TaRequest.IndicatorsRequest(env, securityIdParam, indicatorsParam).Failure?
    ensures r.1.BadRequest? ==> r.1.error == TaRequest.IndicatorsRequest(env, securityIdParam, indicatorsParam).error
    ensures r.1.Ok? ==>
              && TaRequest.IndicatorsRequest(env, securityIdParam, indicatorsParam).Success?
              && var (id, names) := TaRequest.IndicatorsRequest(env, securityIdParam, indicatorsParam).value;
                 (r.0.cache, r.1.payload) == GetCachedIndicators(env, st.cache, id, names, clock, symbolOf, store, sqrt)
  {
    var (b, d) := RateLimit.EnforceRequest(st.buckets, "ta_indicators", forwardedFor, remoteAddr, clock.now);
    if d.Reject? then (State(b, st.cache), Limited(d.retryAfter))
    else match TaRequest.IndicatorsRequest(env, securityIdParam, indicatorsParam)
      case Failure(e) => (State(b, st.cache), BadRequest(e))
      case Success((id, names)) =>
        var (c, v) := GetCachedIndicators(env, st.cache, id, names, clock, symbolOf, store, sqrt);
        (State(b, c), Ok(v))
  }

  /** The history route keeps the cache consistent, and a served history
      is that of the requested security. */
  lemma HistoryRouteConsistent(env: Env, st: State, forwardedFor: Option<string>, remoteAddr: Option<string>,
                               securityIdParam: Option<string>, clock: Clock,
                               symbolOf: int -> string, store: DocStore.Store)
    requires Consistent(st.cache)
    ensures var h := HistoryRoute(env, st, forwardedFor, remoteAddr, securityIdParam, clock, symbolOf, store);
            && Consistent(h.0.cache)
            && (h.1.Ok? ==> h.1.payload.History? && h.1.payload.securityId == TaRequest.SecurityId(env, securityIdParam).value)
  {
    var id := TaRequest.SecurityId(env, securityIdParam);
    if id.Some? {
      GetOrFetchHistoryConsistent(env, st.cache, id.value, clock, symbolOf, store);
    }
  }

  /** The indicators route keeps the cache consistent. */
  lemma IndicatorsRouteConsistent(env: Env, st: State, forwardedFor: Option<string>, remoteAddr: Option<string>,
                                  securityIdParam: Option<string>, indicatorsParam: Option<string>, clock: Clock,
                                  symbolOf: int -> string, store: DocStore.Store, sqrt: real -> real)
    requires Consistent(st.cache)
    ensures Consistent(IndicatorsRoute(env, st, forwardedFor, remoteAddr, securityIdParam, indicatorsParam,
                                       clock, symbolOf, store, sqrt).0.cache)
  {
    var req := TaRequest.IndicatorsRequest(env, securityIdParam, indicatorsParam);
    var e := RateLimit.EnforceRequest(st.buckets, "ta_indicators", forwardedFor, remoteAddr, clock.now);
    var r := IndicatorsRoute(env, st, forwardedFor, remoteAddr, securityIdParam, indicatorsParam, clock, symbolOf, store, sqrt);
    if e.1.Admit? && req.Success? {
      var g := GetCachedIndicators(env, st.cache, req.value.0, req.value.1, clock, symbolOf, store, sqrt);
      assert r.0.cache == g.0;
      SelectionIsClean(indicatorsParam);
      GetCachedIndicatorsConsistent(env, st.cache, req.value.0, req.value.1, clock, symbolOf, store, sqrt);
    }
  }

  /** Over a consistent cache, a served indicator result is for the
      requested security, with a series for each requested name (all five
      when none were named). */
  lemma IndicatorsRouteResult(env: Env, st: State, forwardedFor: Option<string>, remoteAddr: Option<string>,
                              securityIdParam: Option<string>, indicatorsParam: Option<string>, clock: Clock,
                              symbolOf: int -> string, store: DocStore.Store, sqrt: real -> real)
    requires Consistent(st.cache)
    ensures var r := IndicatorsRoute(env, st, forwardedFor, remoteAddr, securityIdParam, indicatorsParam, clock, symbolOf, store, sqrt);
            var req := TaRequest.IndicatorsRequest(env, securityIdParam, indicatorsParam);
            r.1.Ok? ==> req.Success? && ResultFor(r.1.payload, req.value.0, req.value.1)
  {
    var req := TaRequest.IndicatorsRequest(env, securityIdParam, indicatorsParam);
    if req.Success? {
      SelectionIsClean(indicatorsParam);
      GetCachedIndicatorsConsistent(env, st.cache, req.value.0, req.value.1, clock, symbolOf, store, sqrt);
    }
  }

  /** The names a request is served for are clean. */
  lemma SelectionIsClean(param: Option<string>)
    requires TaRequest.Selection(param).Success?
    ensures CleanNames(TaRequest.Selection(param).value)
  {
    if TaRequest.RequestedNames(param) == [] {
      assert TaRequest.Selection(param).value == TaRequest.DefaultIndicators;
    }
  }
}

=== FILE: text.dfy ===
/** The handful of Python `str` operations the service relies on: `strip`,
    `upper`, `lower`, `split`, `join`, `replace(",", "")`, `str(int)` and
    Python's code-point ordering of strings.  Case mapping and whitespace are
    modelled for ASCII only. */
module Text {
  import opened Wrappers
  import Sorting

  /** ASCII whitespace as `str.strip()` removes it and `int()` skips it:
      space, tab, line feed, vertical tab, form feed, carriage return, and
      the four separators `\x1c`-`\x1f`. */
  predicate IsSpace(c: char) {
    || c == ' ' || c == '\t' || c == '\n' || c == '\r' || c == '\U{B}' || c == '\U{C}'
    || '\U{1C}' <= c <= '\U{1F}'
  }

  /** Index of the first non-whitespace character of `s` (or `|s|`). */
  function StartOfText(s: string, lo: nat): (i: nat)
    requires lo <= |s|
    ensures lo <= i <= |s|
    ensures forall k :: lo <= k < i ==> IsSpace(s[k])
    ensures i == |s| || !IsSpace(s[i])
    decreases |s| - lo
  {
    if lo < |s| && IsSpace(s[lo]) then StartOfText(s, lo + 1) else lo
  }

  /** One past the last non-whitespace character of `s[lo..hi]` (or `lo`). */
  function EndOfText(s: string, lo: nat, hi: nat): (j: nat)
    requires lo <= hi <= |s|
    ensures lo <= j <= hi
    ensures forall k :: j <= k < hi ==> IsSpace(s[k])
    ensures j == lo || !IsSpace(s[j - 1])
    decreases hi - lo
  {
    if lo < hi && IsSpace(s[hi - 1]) then EndOfText(s, lo, hi - 1) else hi
  }

  /** Python's `s.strip()`: the slice of `s` left after cutting whitespace
      from both ends; it neither starts nor ends with whitespace, everything
      cut away is whitespace, and it is empty exactly when `s` is all
      whitespace. */
  function Strip(s: string): (r: string)
    ensures var i := StartOfText(s, 0); var j := EndOfText(s, i, |s|);
            && r == s[i..j]
            && (forall k :: 0 <= k < i || j <= k < |s| ==> IsSpace(s[k]))
    ensures r == [] || (!IsSpace(r[0]) && !IsSpace(r[|r| - 1]))
    ensures r == [] <==> forall k :: 0 <= k < |s| ==> IsSpace(s[k])
  {
    var i := StartOfText(s, 0);
    s[i..EndOfText(s, i, |s|)]
  }

  function UpperChar(c: char): char {
    if 'a' <= c <= 'z' then (c as int - 32) as char else c
  }

  function LowerChar(c: char): char {
    if 'A' <= c <= 'Z' then (c as int + 32) as char else c
  }

  /** Python's `s.upper()` on ASCII letters. */
  function Upper(s: string): (r: string)
    ensures |r| == |s|
    ensures forall k :: 0 <= k < |r| ==> !('a' <= r[k] <= 'z')
    ensures forall k :: 0 <= k < |r| ==> (r[k] == s[k] <==> !('a' <= s[k] <= 'z'))
  {
    seq(|s|, k requires 0 <= k < |s| => UpperChar(s[k]))
  }

  /** Python's `s.lower()` on ASCII letters. */
  function Lower(s: string): (r: string)
    ensures |r| == |s|
    ensures forall k :: 0 <= k < |r| ==> !('A' <= r[k] <= 'Z')
    ensures forall k :: 0 <= k < |r| ==> (r[k] == s[k] <==> !('A' <= s[k] <= 'Z'))
  {
    seq(|s|, k requires 0 <= k < |s| => LowerChar(s[k]))
  }

  lemma UpperIdempotent(s: string)
    ensures Upper(Upper(s)) == Upper(s)
  {
  }

  /** Python's `s.replace(c, "")`: every occurrence of `c` dropped, the other
      characters kept in order. */
  function RemoveChar(s: string, c: char): (r: string)
    ensures c !in r
    ensures |r| <= |s|
    ensures c !in s ==> r == s
    ensures multiset(r) == multiset(s)[c := 0]
  {
    if |s| == 0 then []
    else
      assert s == [s[0]] + s[1..];
      if s[0] == c then RemoveChar(s[1..], c) else [s[0]] + RemoveChar(s[1..], c)
  }

  /** Python's `s.split(sep)`: the pieces between separators; there is always
      at least one piece, and none contains the separator. */
  function Split(s: string, sep: char): (r: seq<string>)
    ensures |r| >= 1
    ensures forall k :: 0 <= k < |r| ==> sep !in r[k]
    ensures sep !in s ==> r == [s]
  {
    if |s| == 0 then [""]
    else if s[0] == sep then [""] + Split(s[1..], sep)
    else
      var rest := Split(s[1..], sep);
      assert sep !in s ==> sep !in s[1..] && [s[0]] + s[1..] == s;
      [[s[0]] + rest[0]] + rest[1..]
  }

  /** Python's `sep.join(pieces)`. */
  function Join(pieces: seq<string>, sep: char): string {
    if |pieces| == 0 then ""
    else if |pieces| == 1 then pieces[0]
    else pieces[0] + [sep] + Join(pieces[1..], sep)
  }

  /** A join of non-empty pieces starts where the first piece starts and
      ends where the last piece ends. */
  lemma {:induction false} JoinEnds(pieces: seq<string>, sep: char)
    requires |pieces| >= 1
    requires forall k :: 0 <= k < |pieces| ==> pieces[k] != ""
    ensures var j := Join(pieces, sep);
            |j| >= 1 && j[0] == pieces[0][0] && j[|j| - 1] == pieces[|pieces| - 1][|pieces[|pieces| - 1]| - 1]
    decreases |pieces|
  {
    if |pieces| > 1 {
      JoinEnds(pieces[1..], sep);
    }
  }

  /** Lower-casing a string without upper-case letters changes nothing. */
  lemma LowerUnchanged(s: string)
    requires forall k :: 0 <= k < |s| ==> !('A' <= s[k] <= 'Z')
    ensures Lower(s) == s
  {
  }

  /** Joining the pieces of a split gives back the original string. */
  lemma {:induction false} JoinSplit(s: string, sep: char)
    ensures Join(Split(s, sep), sep) == s
    decreases |s|
  {
    if |s| == 0 {
    } else if s[0] == sep {
      JoinSplit(s[1..], sep);
      JoinAfterEmpty(Split(s[1..], sep), sep);
      assert s == [sep] + s[1..];
    } else {
      JoinSplit(s[1..], sep);
      JoinAfterChar(s[0], Split(s[1..], sep), sep);
      assert s == [s[0]] + s[1..];
    }
  }

  /** An empty first piece contributes only its separator. */
  lemma JoinAfterEmpty(rest: seq<string>, sep: char)
    requires |rest| >= 1
    ensures Join([""] + rest, sep) == [sep] + Join(rest, sep)
  {
    assert ([""] + rest)[1..] == rest;
  }

  /** A character put before the first piece comes first in the join. */
  lemma JoinAfterChar(c: char, rest: seq<string>, sep: char)
    requires |rest| >= 1
    ensures Join([[c] + rest[0]] + rest[1..], sep) == [c] + Join(rest, sep)
  {
    var r := [[c] + rest[0]] + rest[1..];
    if |rest| > 1 {
      assert r[1..] == rest[1..];
      assert Join(r, sep) == ([c] + rest[0]) + [sep] + Join(rest[1..], sep);
      assert Join(rest, sep) == rest[0] + [sep] + Join(rest[1..], sep);
    }
  }

  lemma {:induction false} SplitPiece(a: string, sep: char, t: string)
    requires sep !in a
    ensures Split(a + [sep] + t, sep) == [a] + Split(t, sep)
    decreases |a|
  {
    if |a| == 0 {
      assert a + [sep] + t == [sep] + t;
      assert ([sep] + t)[1..] == t;
    } else {
      var s := a + [sep] + t;
      assert s[1..] == a[1..] + [sep] + t;
      SplitPiece(a[1..], sep, t);
      assert [a[0]] + a[1..] == a;
    }
  }

  /** Splitting pieces that were joined gives back the pieces, as long as no
      piece contains the separator. */
  lemma {:induction false} SplitJoin(pieces: seq<string>, sep: char)
    requires |pieces| >= 1
    requires forall k :: 0 <= k < |pieces| ==> sep !in pieces[k]
    ensures Split(Join(pieces, sep), sep) == pieces
    decreases |pieces|
  {
    if |pieces| > 1 {
      SplitJoin(pieces[1..], sep);
      SplitPiece(pieces[0], sep, Join(pieces[1..], sep));
      assert [pieces[0]] + pieces[1..] == pieces;
    }
  }

  function DigitChar(d: nat): char
    requires d < 10
  {
    "0123456789"[d]
  }

  /** Python's `str(n)` for a natural number. */
  function NatToString(n: nat): (r: string)
    ensures |r| >= 1
    ensures forall k :: 0 <= k < |r| ==> '0' <= r[k] <= '9'
    decreases n
  {
    if n < 10 then [DigitChar(n)] else NatToString(n / 10) + [DigitChar(n % 10)]
  }

  /** Python's `str(i)` for an integer. */
  function IntToString(i: int): (r: string)
    ensures |r| >= 1
    ensures r[0] == '-' <==> i < 0
  {
    if i < 0 then "-" + NatToString(-i) else NatToString(i)
  }

  /** The number a string of decimal digits denotes. */
  function DigitsValue(s: string): nat
    requires forall k :: 0 <= k < |s| ==> '0' <= s[k] <= '9'
  {
    if |s| == 0 then 0
    else DigitsValue(s[..|s| - 1]) * 10 + (s[|s| - 1] as int - '0' as int)
  }

  lemma {:induction false} NatToStringRoundTrip(n: nat)
    ensures DigitsValue(NatToString(n)) == n
    decreases n
  {
    var r := NatToString(n);
    if n < 10 {
      DigitCharValue(n);
      assert r[..0] == [];
    } else {
      NatToStringRoundTrip(n / 10);
      DigitCharValue(n % 10);
      assert r[..|r| - 1] == NatToString(n / 10);
      assert r[|r| - 1] == DigitChar(n % 10);
    }
  }

  lemma DigitCharValue(d: nat)
    requires d < 10
    ensures DigitChar(d) as int - '0' as int == d
  {
  }

  /** Distinct integers print differently, so keys built from them differ. */
  lemma IntToStringInjective(i: int, j: int)
    requires IntToString(i) == IntToString(j)
    ensures i == j
  {
    ParseIntRoundTrip(i);
    ParseIntRoundTrip(j);
  }

  /** A string that does not start or end with whitespace strips to itself. */
  lemma StripUnchanged(s: string)
    requires s == [] || (!IsSpace(s[0]) && !IsSpace(s[|s| - 1]))
    ensures Strip(s) == s
  {
    if s != [] {
      assert StartOfText(s, 0) == 0;
      assert EndOfText(s, 0, |s|) == |s|;
    }
  }

  predicate AllDigits(s: string) {
    forall k :: 0 <= k < |s| ==> '0' <= s[k] <= '9'
  }

  /** Python's `int(s)` for a string: surrounding whitespace, an optional
      sign, then one or more decimal digits; `None` where Python raises
      `ValueError`. */
  function ParseInt(s: string): (r: Option<int>)
    ensures (forall k :: 0 <= k < |s| ==> IsSpace(s[k])) ==> r == None
    ensures r.Some? ==> exists k :: 0 <= k < |s| && '0' <= s[k] <= '9'
    ensures r.Some? <==> IntText(Strip(s))
    ensures r.Some? && AllDigits(Strip(s)) ==> r.value == DigitsValue(Strip(s))
    ensures r.Some? && Strip(s)[0] == '-' ==> r.value == -(DigitsValue(Strip(s)[1..]) as int)
    ensures r.Some? && Strip(s)[0] == '+' ==> r.value == DigitsValue(Strip(s)[1..])
  {
    var t := Strip(s);
    var r := ParseSigned(t);
    assert r.Some? ==> t[|t| - 1] in s;
    r
  }

  /** The texts Python's `int` accepts once stripped: one or more decimal
      digits, optionally after a sign. */
  predicate IntText(t: string) {
    (|t| > 0 && AllDigits(t)) || (|t| > 1 && (t[0] == '-' || t[0] == '+') && AllDigits(t[1..]))
  }

  /** An optional sign followed by one or more decimal digits. */
  function ParseSigned(t: string): (r: Option<int>)
    ensures r.Some? ==> |t| > 0 && '0' <= t[|t| - 1] <= '9'
    ensures r.Some? <==> IntText(t)
    ensures r.Some? && AllDigits(t) ==> r.value == DigitsValue(t)
    ensures r.Some? && t[0] == '-' ==> r.value == -(DigitsValue(t[1..]) as int)
    ensures r.Some? && t[0] == '+' ==> r.value == DigitsValue(t[1..])
  {
    if |t| > 1 && (t[0] == '-' || t[0] == '+') && AllDigits(t[1..]) then
      assert t[|t| - 1] == t[1..][|t| - 2];
      var magnitude: int := DigitsValue(t[1..]);
      Some(if t[0] == '-' then -magnitude else magnitude)
    else if |t| > 0 && AllDigits(t) then
      Some(DigitsValue(t))
    else None
  }

  /** A leading zero does not change the number a string of digits denotes,
      so Python's `int("007")` is 7. */
  lemma {:induction false} LeadingZero(d: string)
    requires AllDigits(d)
    ensures AllDigits("0" + d) && DigitsValue("0" + d) == DigitsValue(d)
    decreases |d|
  {
    var z := "0" + d;
    if |d| > 0 {
      var init := d[..|d| - 1];
      LeadingZero(init);
      assert z[..|z| - 1] == "0" + init;
      assert z[|z| - 1] == d[|d| - 1];
    } else {
      assert z[..0] == [];
    }
  }

  /** The information separators count as whitespace too:
      `int("\x1c42\x1f")` is 42. */
  lemma ParseIntSeparators()
    ensures ParseInt("\U{1C}42\U{1F}") == Some(42)
  {
    var s := "\U{1C}42\U{1F}";
    assert StartOfText(s, 0) == 1;
    assert EndOfText(s, 1, 4) == 3;
    assert s[1..3] == "42";
    assert AllDigits("42");
    assert DigitsValue("42") == 42 by { assert "42"[..1] == "4"; assert "4"[..0] == []; }
  }

  /** Whitespace around the number is ignored: `int(" 42 ")` is 42. */
  lemma ParseIntSpaced()
    ensures ParseInt(" 42 ") == Some(42)
  {
    assert StartOfText(" 42 ", 0) == 1;
    assert EndOfText(" 42 ", 1, 4) == 3;
    assert " 42 "[1..3] == "42";
    assert AllDigits("42");
    assert DigitsValue("42") == 42 by { assert "42"[..1] == "4"; assert "4"[..0] == []; }
  }

  /** An explicit sign is accepted: `int("+5")` is 5 and `int("-12")` is -12. */
  lemma ParseIntSigned()
    ensures ParseInt("+5") == Some(5)
    ensures ParseInt("-12") == Some(-12)
  {
    StripUnchanged("+5");
    assert ParseSigned("+5") == Some(5) by {
      assert "+5"[1..] == "5";
      assert DigitsValue("5") == 5 by { assert "5"[..0] == []; }
    }
    StripUnchanged("-12");
    assert ParseSigned("-12") == Some(-12) by {
      assert "-12"[1..] == "12";
      assert DigitsValue("12") == 12 by { assert "12"[..1] == "1"; assert "1"[..0] == []; }
    }
  }

  /** Leading zeros are accepted: `int("007")` is 7. */
  lemma ParseIntLeadingZeros()
    ensures ParseInt("007") == Some(7)
  {
    StripUnchanged("007");
    assert "007" == "0" + ("0" + "7");
    LeadingZero("7");
    LeadingZero("07");
    assert DigitsValue("7") == 7 by { assert "7"[..0] == []; }
  }

  /** An empty text, a lone sign and digits split by a space are refused. */
  lemma ParseIntRefused()
    ensures ParseInt("") == None
    ensures ParseInt("-") == None
    ensures ParseInt("4 2") == None
  {
    StripUnchanged("-");
    StripUnchanged("4 2");
    assert !AllDigits("-") by { assert "-"[0] == '-'; }
    assert !AllDigits("4 2") by { assert "4 2"[1] == ' '; }
  }

  /** `int(str(i)) == i`. */
  lemma ParseIntRoundTrip(i: int)
    ensures ParseInt(IntToString(i)) == Some(i)
  {
    var s := IntToString(i);
    assert !IsSpace(s[0]) && !IsSpace(s[|s| - 1]);
    StripUnchanged(s);
    ParseSignedRoundTrip(i);
  }

  /** The default page size both history routes fall back on. */
  lemma ParseNinety()
    ensures ParseInt("90") == Some(90)
  {
    ParseIntRoundTrip(90);
    assert IntToString(90) == "90";
  }

  lemma ParseSignedRoundTrip(i: int)
    ensures ParseSigned(IntToString(i)) == Some(i)
  {
    var t := IntToString(i);
    if i < 0 {
      assert t == "-" + NatToString(-i);
      ParseSignedMinus(-i);
      assert ParseSigned(t) == Some(i);
    } else {
      assert t == NatToString(i);
      ParseSignedNat(i);
      assert ParseSigned(t) == Some(i);
    }
  }

  lemma ParseSignedNat(n: nat)
    ensures ParseSigned(NatToString(n)) == Some(n)
  {
    NatToStringRoundTrip(n);
    ParseSignedDigits(NatToString(n));
  }

  lemma ParseSignedMinus(n: nat)
    ensures ParseSigned("-" + NatToString(n)) == Some(-(n as int))
  {
    NatToStringRoundTrip(n);
    ParseSignedNegative(NatToString(n));
  }

  lemma ParseSignedNegative(digits: string)
    requires |digits| >= 1 && AllDigits(digits)
    ensures var m: int := DigitsValue(digits); ParseSigned("-" + digits) == Some(-m)
  {
    var t := "-" + digits;
    assert t[1..] == digits;
  }

  lemma ParseSignedDigits(t: string)
    requires |t| >= 1 && AllDigits(t)
    ensures ParseSigned(t) == Some(DigitsValue(t))
  {
    assert t[0] != '-' && t[0] != '+';
  }

  /** Python's `a <= b` on strings: lexicographic by code point. */
  predicate StrLe(a: string, b: string)
    decreases |a|
  {
    |a| == 0 || (|b| > 0 && (a[0] < b[0] || (a[0] == b[0] && StrLe(a[1..], b[1..]))))
  }

  lemma {:induction false} StrLeTotal(a: string, b: string)
    ensures StrLe(a, b) || StrLe(b, a)
    decreases |a|
  {
    if |a| > 0 && |b| > 0 && a[0] == b[0] {
      StrLeTotal(a[1..], b[1..]);
    }
  }

  lemma {:induction false} StrLeTransitive(a: string, b: string, c: string)
    requires StrLe(a, b) && StrLe(b, c)
    ensures StrLe(a, c)
    decreases |a|
  {
    if |a| > 0 && a[0] == b[0] && b[0] == c[0] {
      StrLeTransitive(a[1..], b[1..], c[1..]);
    }
  }

  lemma {:induction false} StrLeAntisymmetric(a: string, b: string)
    requires StrLe(a, b) && StrLe(b, a)
    ensures a == b
    decreases |a|
  {
    if |a| > 0 {
      StrLeAntisymmetric(a[1..], b[1..]);
      assert a == [a[0]] + a[1..] && b == [b[0]] + b[1..];
    }
  }

  /** Python's string comparison is a total order. */
  lemma StrLeTotalOrder()
    ensures Sorting.TotalOrder(StrLe)
  {
    forall a, b ensures StrLe(a, b) || StrLe(b, a) {
      StrLeTotal(a, b);
    }
    forall a, b, c | StrLe(a, b) && StrLe(b, c) ensures StrLe(a, c) {
      StrLeTransitive(a, b, c);
    }
    forall a, b | StrLe(a, b) && StrLe(b, a) ensures a == b {
      StrLeAntisymmetric(a, b);
    }
  }
}

=== FILE: ttl_cache.dfy ===
/** The process-wide time-to-live cache (`_cache_get` / `_cache_set`).  The
    cache is a map from key to an entry stamped with the time it was written;
    an entry older than the TTL is treated as absent and evicted on the read
    that finds it stale.  The clock is a parameter: each operation reads it
    once, as `now`. */
module TtlCache {
  import opened Wrappers

  /** `CACHE_TTL_SECONDS = 15 * 60`. */
  const TtlSeconds: real := 900.0

  datatype Entry<V> = Entry(ts: real, value: V)

  type Cache<V> = map<string, Entry<V>>

  /** An entry written at `ts` is still served at `now`. */
  predicate Live(ts: real, now: real) {
    now - ts < TtlSeconds
  }

  /** `_cache_set(key, value)` at time `now`. */
  function Set<V>(c: Cache<V>, key: string, value: V, now: real): (r: Cache<V>)
    ensures key in r && r[key] == Entry(now, value)
    ensures forall k :: k != key ==> (k in r <==> k in c)
    ensures forall k :: k != key && k in c ==> r[k] == c[k]
  {
    c[key := Entry(now, value)]
  }

  /** `_cache_get(key)` at time `now`: the cache afterwards and the value
      served, if any. */
  function Get<V>(c: Cache<V>, key: string, now: real): (r: (Cache<V>, Option<V>))
    ensures r.1.Some? <==> key in c && Live(c[key].ts, now)
    ensures r.1.Some? ==> r.1.value == c[key].value
    ensures r.0.Keys <= c.Keys
    ensures forall k :: k in r.0 ==> r.0[k] == c[k]
    ensures forall k :: k in c && k != key ==> k in r.0
    ensures key in r.0 <==> r.1.Some?
  {
    if key !in c then (c, None)
    else if now - c[key].ts >= TtlSeconds then (c - {key}, None)
    else (c, Some(c[key].value))
  }

  /** A value written at `t` is served, unchanged, by every read before
      `t + TTL`, and such a read leaves the cache as it is. */
  lemma HitWithinTtl<V>(c: Cache<V>, key: string, value: V, t: real, now: real)
    requires now - t < TtlSeconds
    ensures Get(Set(c, key, value, t), key, now) == (Set(c, key, value, t), Some(value))
  {
  }

  /** From `t + TTL` on, the read misses and evicts exactly that key. */
  lemma MissAfterTtl<V>(c: Cache<V>, key: string, value: V, t: real, now: real)
    requires now - t >= TtlSeconds
    ensures Get(Set(c, key, value, t), key, now) == (c - {key}, None)
  {
    assert Set(c, key, value, t) - {key} == c - {key};
  }

  /** Writing a key at any time `at` after a read at `now` that missed it
      leaves the same cache as writing it straight away: the eviction is
      invisible. */
  lemma SetAfterMiss<V>(c: Cache<V>, key: string, value: V, now: real, at: real)
    requires Get(c, key, now).1.None?
    ensures Set(Get(c, key, now).0, key, value, at) == Set(c, key, value, at)
  {
    var (c1, _) := Get(c, key, now);
    assert c1[key := Entry(at, value)] == c[key := Entry(at, value)];
  }

  /** Reading twice at the same instant serves the same thing and leaves the
      same cache as reading once. */
  lemma GetTwice<V>(c: Cache<V>, key: string, now: real)
    ensures Get(Get(c, key, now).0, key, now) == Get(c, key, now)
  {
  }
}

=== FILE: wrappers.dfy ===
/** Option and Result, the two failure-carrying shapes used across the model:
    `Option` stands for a Python value that may be `None`, `Result` for an
    operation that either yields a value or an error the caller reports. */
module Wrappers {

  datatype Option<+T> = None | Some(value: T) {

    /** The wrapped value, or `default` when there is none (Python's `x or d`
        when `x` can only be `None` or a value). */
    function GetOr(default: T): T {
      match this
      case Some(v) => v
      case None => default
    }
  }

  datatype Result<+T, +E> = Success(value: T) | Failure(error: E)

  /** The values inside the `Some`s of `xs`, in order: a loop that appends
      only the values it did not skip. */
  function Somes<T(!new)>(xs: seq<Option<T>>): (r: seq<T>)
    ensures |r| <= |xs|
    ensures forall x :: x in r <==> Some(x) in xs
  {
    if |xs| == 0 then []
    else
      var init := xs[..|xs| - 1];
      assert xs == init + [xs[|xs| - 1]];
      match xs[|xs| - 1]
      case Some(x) => Somes(init) + [x]
      case None => Somes(init)
  }

  /** `Somes` of a concatenation is the concatenation of the `Somes`: the
      kept values stay in input order. */
  lemma {:induction false} SomesAppend<T(!new)>(a: seq<Option<T>>, b: seq<Option<T>>)
    ensures Somes(a + b) == Somes(a) + Somes(b)
    decreases |b|
  {
    if |b| == 0 {
      assert a + b == a;
    } else {
      var init := b[..|b| - 1];
      SomesAppend(a, init);
      assert (a + b)[..|a + b| - 1] == a + init;
      assert (a + b)[|a + b| - 1] == b[|b| - 1];
    }
  }

  /** `f` applied to every element of `xs`. */
  function Applied<A, B>(xs: seq<A>, f: A -> Option<B>): (r: seq<Option<B>>)
    ensures |r| == |xs|
    ensures forall i :: 0 <= i < |xs| ==> r[i] == f(xs[i])
  {
    seq(|xs|, i requires 0 <= i < |xs| => f(xs[i]))
  }

  /** The values `f` yields on the elements of `xs` it does not skip, in
      order. */
  function FilterMap<A, B(!new)>(xs: seq<A>, f: A -> Option<B>): (r: seq<B>)
    ensures |r| <= |xs|
    ensures forall y :: y in r <==> exists i :: 0 <= i < |xs| && f(xs[i]) == Some(y)
  {
    var opts := Applied(xs, f);
    forall i | 0 <= i < |xs| ensures f(xs[i]) in opts {
      assert opts[i] == f(xs[i]);
    }
    forall y ensures Some(y) in opts <==> exists i :: 0 <= i < |xs| && f(xs[i]) == Some(y) {
      if Some(y) in opts {
        var i :| 0 <= i < |opts| && opts[i] == Some(y);
        assert f(xs[i]) == Some(y);
      }
    }
    Somes(opts)
  }

  /** `FilterMap` keeps input order: filtering a concatenation concatenates
      the filtered parts, and one element is kept exactly when `f` yields a
      value for it. */
  lemma FilterMapInOrder<A, B(!new)>(xs: seq<A>, ys: seq<A>, x: A, f: A -> Option<B>)
    ensures FilterMap(xs + ys, f) == FilterMap(xs, f) + FilterMap(ys, f)
    ensures FilterMap([x], f) == if f(x).Some? then [f(x).value] else []
  {
    assert Applied(xs + ys, f) == Applied(xs, f) + Applied(ys, f);
    SomesAppend(Applied(xs, f), Applied(ys, f));
    assert Applied([x], f) == [f(x)];
    assert [f(x)][..0] == [];
  }
}
